=== FILE: README.md ===
# Team-Management-API: token revocation, outbox and event pipeline in Dafny

This project models the core of Team-Management-API. That system is a pair of ASP.NET services:
- the authentication service issues and revokes refresh tokens;
- the user service owns the user directory.

The two services stay in step through an outbox table and a RabbitMQ fan-out. The model covers five parts.

- **Refresh-token cache** (`RedisStore`, `TokenCache`, `RedisConnection`, `RefreshTokenValidator`):
  - The Redis keyspace is one map from key to a set or a string with an expiry.
  - The blacklist holds each revoked token under its own text, with the value "revoked" and an expiry at the token's expiration.
  - Each user id names the set of that user's live refresh tokens.
  - Every failure surfaces as `TokenCache(cause)`.
  - The reconnect gate of the connection wrapper is a pure transition function over three timestamps.
- **Authenticator** (`Authenticator`): login, logout, logout on all devices, and refresh-token rotation. Token generation and password checks are parameters.
- **Repositories behind a unit of work** (`Tables`, `AuthUsers`, `Inbox`, `Outbox`, `DirectoryUsers`):
  - Writes are staged and committed together by `SaveChanges`.
  - The only faults the model's commits raise are `DuplicateKey` and `Concurrency`, and a failed commit changes nothing.
  - Provider errors (a dropped connection, a command timeout) are modelled only for the outbox publisher's commits (`Tables.SaveChangesOrFault`). A commit that throws leaves its changes staged.
- **Outbox publisher** (`MessageBus`, `OutboxProcessor`):
  - The RabbitMQ client's availability flags form a state machine.
  - The background service drains the unsent rows in creation-time order until cancellation. After each true publish it sets the row's sent flag and commits.
  - A commit that throws is caught. Its flag stays staged until a later commit in the same tick goes through, or is dropped with the tick's scope. A row whose flag was not committed is published again by the next tick, so delivery is at least once.
- **Event consumer** (`EventProcessor`): classifies `User_Created` and `User_Deleted` envelopes, then creates the user or deletes it and revokes its tokens.

Conventions:
- Times are integer milliseconds.
- Guids are their canonical lower-case text.
- JSON decoding, token validation, the network and the broker's faults are function parameters (oracles).
- Every file is one module, and modules import one another.

Behaviours of the code that a reader might not expect, all of which the model keeps:
- `Authenticate` and `RotateToken` return null (`None`) for a bad user, bad password, revoked token or bad claims. They do not raise an authentication failure.
- Tracking the new refresh token is an `async void` call that is started but not awaited. The token pair is returned even when tracking fails. A tracking failure is rethrown as a `TokenCacheException` on the thread pool, where no caller observes it.
- A revocation whose remaining lifetime is zero or negative is not clamped. The cache server rejects the non-positive expiry, and the revocation fails with `TokenCache(RedisServer)`.
- The publisher's commit sits inside the same `try` as the publish (OutBoxProcessorService.cs:41-53). A commit that throws after the broker took the event is swallowed, so the next tick publishes the row again.
- The event processor does not consult the inbox table. A redelivered `User_Created` event is rejected by the username check, not skipped.
- The authentication service's user repository interface declares no `GetById`, although its callers use one. It is modelled as a lookup by primary key.

## Model

| member | source | states |
|---|---|---|
| Guids.Parse | AuthenticationService/Services/Authenticators/Authenticator.cs:80 | Parsing succeeds exactly on 36-character hyphenated hex text; the Guid read is that text with its hex digits lower-cased. |
| Guids.ParseToString | AuthenticationService/Services/CacheServices/RedisTokenCache.cs:196 | A user id written as text (the cache key) parses back to the same id. |
| Guids.ParseIgnoresCase | AuthenticationService/Services/EventProcessingServices/EventProcessor.cs:43 | Two texts that differ only in the case of their hex digits name the same Guid. |
| RedisConnection.ForceReconnect | AuthenticationService/Services/CacheServices/RedisConnection.cs:95-179 | A connection is replaced only with the lock held and 60 s after the last replacement, judged before and after the lock. A call without the lock changes nothing. Outside start-up, the first error only records its time, and a reconnect needs errors spanning 30 s with the latest one within 30 s. Every threshold evaluation stamps the previous-error time. |
| RedisConnection.Execute | AuthenticationService/Services/CacheServices/RedisConnection.cs:59-80 | The operation's result or exception reaches the caller unchanged; a background reconnect is requested exactly for connection-class exceptions. |
| RedisConnection.Initialize | AuthenticationService/Services/CacheServices/RedisConnection.cs:34-44 | Start-up bypasses the error gates: it connects exactly when the connect succeeds, leaving a gate stamped now with no errors recorded. |
| RedisConnection.ReconnectsSpaced | AuthenticationService/Services/CacheServices/RedisConnection.cs:102-133 | Over any sequence of calls from any state, successive reconnects are at least 60 s apart. |
| RedisConnection.SustainedErrorsReconnectOnce | AuthenticationService/Services/CacheServices/RedisConnection.cs:122-161 | Three errors inside the window and a fourth past 30 s give exactly one reconnect, at the fourth call. |
| RefreshTokenValidator.FindFirst | AuthenticationService/Services/TokenValidators/RefreshTokenValidator.cs:40-45 | The predicate lookup for `id`: the first claim whose type is exactly that kind; null exactly when the token has none. |
| RefreshTokenValidator.FindFirstIgnoringCase | AuthenticationService/Services/TokenValidators/RefreshTokenValidator.cs:33-38 | The lookup by type for `exp`: the first claim whose type matches ignoring case; null exactly when no claim matches. |
| RefreshTokenValidator.ParseLong | AuthenticationService/Services/TokenValidators/RefreshTokenValidator.cs:47 | Malformed text is a format error, an out-of-range value an overflow error, and otherwise the value denoted. |
| RefreshTokenValidator.ParseLongRoundTrip | AuthenticationService/Services/TokenValidators/RefreshTokenValidator.cs:47 | Every 64-bit integer's decimal text parses back to it. |
| RefreshTokenValidator.FromUnixTimeSeconds | AuthenticationService/Services/TokenValidators/RefreshTokenValidator.cs:48 | Seconds in the representable range become that instant in milliseconds; others are an argument-out-of-range error. |
| RefreshTokenValidator.ExtractTokenClaims | AuthenticationService/Services/TokenValidators/RefreshTokenValidator.cs:17-54 | A validation failure propagates before any claim is read. A missing `exp` (matched ignoring case) is reported before a missing `id` (matched exactly). When both claims are present, extraction succeeds exactly when `exp` parses as a 64-bit integer in the instant range, and a failure carries the fault of the first step that failed. The result pairs the `id` claim with the `exp` instant. |
| RefreshTokenValidator.ExpClaimIgnoresCase | AuthenticationService/Services/TokenValidators/RefreshTokenValidator.cs:33 | An expiration claim typed "EXP" is found and read like "exp". |
| RefreshTokenValidator.ExtractGeneratedClaims | AuthenticationService/Services/TokenValidators/RefreshTokenValidator.cs:33-53 | A token carrying an `id` and an in-range `exp` yields exactly that user id and expiration. |
| RedisStore.Exists | AuthenticationService/Services/CacheServices/RedisTokenCache.cs:62 | True exactly when a live key with that name exists, whatever it holds; a network fault is rethrown. |
| RedisStore.Set | AuthenticationService/Services/CacheServices/RedisTokenCache.cs:102 | A positive expiry writes the string with expiry now + ttl and touches no other key; a non-positive one is a server error. |
| RedisStore.Add | AuthenticationService/Services/CacheServices/RedisTokenCache.cs:196 | The set gains exactly the member, other keys are untouched, and a key holding a string is a WRONGTYPE error. |
| RedisStore.Remove | AuthenticationService/Services/CacheServices/RedisTokenCache.cs:104 | The set loses exactly the member and other keys are untouched. No string value is created. A key holding a string is a WRONGTYPE error. |
| RedisStore.SetOf | AuthenticationService/Services/CacheServices/RedisTokenCache.cs:148 | The members of the user's live set (empty when absent); WRONGTYPE on a string key. |
| TokenCache.EnsureInitialized | AuthenticationService/Services/CacheServices/RedisTokenCache.cs:36-49 | A connected cache is kept. Otherwise the factory must finish within 15 s: completing connects, faulting rethrows its fault, and hanging or finishing late is a timeout. |
| TokenCache.InitializedAtMostOnce | AuthenticationService/Services/CacheServices/RedisTokenCache.cs:38-48 | Once connected, the cache stays connected through any sequence of checks, revocations and trackings, so no later call waits on the factory, whatever it would do. |
| TokenCache.IsRevoked | AuthenticationService/Services/CacheServices/RedisTokenCache.cs:57-85 | Never changes the store. Answers whether a live key named by the token exists. Fails, as a TokenCache error, exactly when initialization or the lookup fails. |
| TokenCache.MarkAndUntrack | AuthenticationService/Services/CacheServices/RedisTokenCache.cs:98-104 | The token is blacklisted until its expiration before it leaves the user's set. An already-expired token fails. On success the user's live set loses exactly the token. The only keys touched are the token and the user id. |
| TokenCache.Revoke | AuthenticationService/Services/CacheServices/RedisTokenCache.cs:93-135 | Claims come first, and a claims failure leaves the cache exactly as it was. On success the token's key holds "revoked" until its expiration, and the live set of the user its claims name loses exactly the token. Any change blacklists the token and touches only the token and the user-id key. The blacklist only grows, the sets only shrink, and every failure is a TokenCache error. |
| TokenCache.Track | AuthenticationService/Services/CacheServices/RedisTokenCache.cs:191-218 | Succeeds exactly when initialization and the add succeed and the user key holds no string. The cache ends connected exactly when it was or initialization succeeded. The user's set then gains the token and nothing else changes. A failure leaves the store as it was. The blacklist is untouched either way. |
| TokenCache.RevokeAll | AuthenticationService/Services/CacheServices/RedisTokenCache.cs:143-183 | Every token revoked before the end is blacklisted, including after a failure, which stops the loop. On success every member of the user's set is blacklisted, and members whose claims name the user have left the set. The blacklist only grows and the sets only shrink. |
| TokenCache.RevokeThenIsRevoked | AuthenticationService/Services/CacheServices/RedisTokenCache.cs:62-102 | After a successful revocation, the revocation check answers yes before the token's expiration and no from then on. |
| Authenticator.Authenticate | AuthenticationService/Services/Authenticators/Authenticator.cs:37-56 | Null exactly for an unknown username or a wrong password, and then the cache is untouched. Otherwise the result is the pair issued to the user found by name at the current time. The refresh token is in the user's set when tracking succeeded, and the store is unchanged when it failed. The blacklist is never touched. |
| Authenticator.AuthenticateIgnoresCache | AuthenticationService/Services/Authenticators/Authenticator.cs:51 | At a given time, the login response does not depend on the cache state or on whether tracking fails. |
| Authenticator.LogUserOut | AuthenticationService/Services/Authenticators/Authenticator.cs:58-61 | Success blacklists the token; bad claims leave the cache unchanged; every failure is a TokenCache error. |
| Authenticator.LogUserOutOnAllDevices | AuthenticationService/Services/Authenticators/Authenticator.cs:63-66 | Success blacklists every token in the user's set; failures are TokenCache errors; the blacklist only grows. |
| Authenticator.LogInThenLogOutEverywhere | AuthenticationService/Services/Authenticators/Authenticator.cs:37-66 | After a login whose tracking succeeded, a successful logout on all devices blacklists the refresh token that login handed out. |
| Authenticator.RotateToken | AuthenticationService/Services/Authenticators/Authenticator.cs:68-101 | A failing revocation check propagates. A revoked token gets null with the store unchanged. Otherwise the result is null exactly when the claims, the id parse or the user lookup fails, and else the pair of the user the token names. The new refresh token is in that user's set when tracking succeeded, and the store is unchanged when it failed. Only that user's key is written, and without a new pair nothing is written. The presented token is never revoked or untracked. |
| Authenticator.LogOutThenRotate | AuthenticationService/Services/Authenticators/Authenticator.cs:58-75 | After a successful logout, rotating the same token before its expiration gives null. |
| Tables.FirstWhere | AuthenticationService/Repositories/UserRepositories/UserRepository.cs:29-42 | A row matching the predicate with no match before it in the table, or null exactly when none matches. |
| Tables.Where | AuthenticationService/Repositories/InboxRepositories/InboxRepository.cs:28-33 | Exactly the matching rows: each result row matches and every matching row is present. |
| Tables.Stage | AuthenticationService/Repositories/InboxRepositories/InboxRepository.cs:16-39 | Staging leaves the committed rows untouched and appends the change. |
| Tables.SaveChanges | UserService/Services/OutboxMessageServices/OutboxMessageService.cs:22 | A commit empties the unit of work; its only faults are a duplicate key and a concurrency conflict; with nothing staged it writes nothing. |
| Tables.SaveAdded | AuthenticationService.Tests/Repositories/UserRepositories/UserRepositoryTest.cs:65-73 | Committing an insert fails with a duplicate key exactly when the key is taken, else appends the row. |
| Tables.SaveUpdated | AuthenticationService.Tests/Repositories/InboxRepositories/InboxRepositoryTest.cs:136-165 | Committing an update fails exactly when the row is gone, else replaces the row with that key. |
| Tables.SaveRemoved | AuthenticationService.Tests/Repositories/InboxRepositories/InboxRepositoryTest.cs:89-115 | Committing a delete fails exactly when the row is gone, else removes exactly that key and keeps the others. |
| Tables.SaveChangesKeepsKeysUnique | AuthenticationService/Migrations/20240310161801_FixInboxMessageModelMigration.cs:26 | No successful commit breaks the primary key, and it empties the unit of work. |
| Tables.Insert | AuthenticationService/Repositories/InboxRepositories/InboxRepository.cs:16-20 | Staging an insert changes nothing yet; its commit appends the row or fails on a taken key. |
| Tables.Modify | AuthenticationService/Repositories/InboxRepositories/InboxRepository.cs:35-39 | Staging an update changes nothing yet; its commit replaces the row or fails when it is gone. |
| Tables.Delete | AuthenticationService/Repositories/InboxRepositories/InboxRepository.cs:22-26 | Staging a delete changes nothing yet. Its commit succeeds exactly when the key is present. It then removes that key and keeps every other row. |
| Tables.ReplaceKeepsKeys | UserService/Repositories/OutboxRepositories/OutboxRepository.cs:28-32 | An update never adds, drops or reorders keys, so unique keys stay unique. |
| AuthUsers.Create | AuthenticationService/Repositories/UserRepositories/UserRepository.cs:17-21 | Only stages. On commit the user is appended, or the commit fails when the id is taken. |
| AuthUsers.DeleteUser | AuthenticationService/Repositories/UserRepositories/UserRepository.cs:23-27 | Only stages. The commit fails for an absent user and otherwise removes it. |
| AuthUsers.GetByUsername | AuthenticationService/Repositories/UserRepositories/UserRepository.cs:39-42 | A user with that username, or null exactly when none exists. |
| AuthUsers.GetByEmail | AuthenticationService/Repositories/UserRepositories/UserRepository.cs:29-32 | A user with that email, or null exactly when none exists. |
| AuthUsers.GetByExternalId | AuthenticationService/Repositories/UserRepositories/UserRepository.cs:34-37 | A user with that external id, or null exactly when none exists. |
| AuthUsers.GetById | AuthenticationService/Services/UserServices/UserService.cs:45 | The user with that primary key, or null exactly when the key is absent. |
| AuthUsers.DeleteThenGetById | AuthenticationService.Tests/Repositories/UserRepositories/UserRepositoryTest.cs:117-121 | After a committed delete of a present user, the lookup by id returns null. |
| AuthUsers.CreateUser | AuthenticationService/Services/UserServices/UserService.cs:22-41 | A taken username is rejected first, then a taken email. On success the user gets the fresh id and is committed, and no earlier user shared its username or email. |
| AuthUsers.CreateUserKeepsDirectoryUnique | AuthenticationService/Services/UserServices/UserService.cs:24-40 | Creating a user keeps keys, usernames and emails unique. |
| AuthUsers.DeleteKeepsDirectoryUnique | AuthenticationService/Services/UserServices/UserService.cs:50-52 | A committed delete keeps keys, usernames and emails unique. |
| AuthUsers.DeleteUserAndRevokeAll | AuthenticationService/Services/UserServices/UserService.cs:43-53 | An unknown id fails with user-not-found and neither deletes nor revokes. On success the user is gone and every token of the user's set is blacklisted. On a fresh unit of work no row appears and every other user's row stays. A revocation failure leaves the delete uncommitted. |
| Inbox.CreateMessage | AuthenticationService/Repositories/InboxRepositories/InboxRepository.cs:16-20 | Only stages. The commit fails on a duplicate message id. Otherwise it appends the message, which is then pending exactly when created unprocessed. |
| Inbox.DeleteMessage | AuthenticationService/Repositories/InboxRepositories/InboxRepository.cs:22-26 | Only stages. The commit fails for an absent message and otherwise removes it. |
| Inbox.UpdateMessage | AuthenticationService/Repositories/InboxRepositories/InboxRepository.cs:35-39 | Only stages. The commit fails for an absent message and otherwise replaces exactly that row. |
| Inbox.GetUnProcessedMessages | AuthenticationService/Repositories/InboxRepositories/InboxRepository.cs:28-33 | Exactly the messages whose processing has not succeeded. |
| Outbox.Create | UserService/Repositories/OutboxRepositories/OutboxRepository.cs:16-20 | Only stages. The commit fails on a duplicate message id. Otherwise it appends the message, which then waits to be sent exactly when not marked sent. |
| Outbox.UpdateMessage | UserService/Repositories/OutboxRepositories/OutboxRepository.cs:28-32 | Only stages. The commit fails for an absent message. Otherwise it replaces exactly that row, and every other unsent message stays unsent. |
| Outbox.GetUnsentMessages | UserService/Repositories/OutboxRepositories/OutboxRepository.cs:22-26 | Exactly the messages not yet sent. |
| Outbox.NewMessageIsUnsent | UserService/Models/OutboxMessage.cs:14-20 | A freshly constructed message, once committed, is among the unsent ones. |
| Outbox.UpdateKeepsEveryKey | UserService/Repositories/OutboxRepositories/OutboxRepository.cs:28-32 | Since there is no delete, a committed update keeps every row's key. |
| MessageBus.RequestConnect | UserService/AsyncDataServices/MessageBusClient.cs:81-90 | While unavailable, a call never sends and reports false; it starts a connect exactly when none is under way, and afterwards one is. |
| MessageBus.SendMessage | UserService/AsyncDataServices/MessageBusClient.cs:112-139 | One persistent message goes to exchange "trigger" with routing key "" exactly when the client is available, the channel is open and the broker does not throw. Unavailable starts at most one connect. |
| MessageBus.Publish | UserService/AsyncDataServices/MessageBusClient.cs:79-110 | While unavailable: false, nothing sent, and a connect only when none is under way. Otherwise true exactly when connection and channel are open and the broker accepts. With both links open, a broker fault is passed up as that very failure. |
| MessageBus.OnConnected | UserService/AsyncDataServices/MessageBusClient.cs:36-55 | A finished connect leaves both links open, the handler attached, available set and connecting cleared. |
| MessageBus.OnConnectionShutdown | UserService/AsyncDataServices/MessageBusClient.cs:72-77 | The attached handler clears both flags when the broker closes the connection. |
| MessageBus.DisposeChannelAndConnection | UserService/AsyncDataServices/MessageBusClient.cs:141-165 | The handler is detached before the connection closes. If no close throws, both links end up null. If the channel's close throws, both links stay as they were. If only the connection's close throws, the connection stays and the channel is left closed. The flags are untouched. |
| MessageBus.DisposedChannelSendsNothing | UserService/AsyncDataServices/MessageBusClient.cs:124-128 | After a disposal has closed the channel, a publish sends nothing and does not report success. |
| MessageBus.RunKeepsFlagsConsistent | UserService/AsyncDataServices/MessageBusClient.cs:53-88 | No sequence of connects, shutdowns, disposals and publishes makes the client both available and connecting. |
| MessageBus.UnavailablePublishesConnectOnce | UserService/AsyncDataServices/MessageBusClient.cs:81-90 | However many messages are published while unavailable, at most one connect starts and nothing is sent. |
| OutboxProcessor.SortByTime | UserService/Services/BackgroundServices/OutBoxProcessorService.cs:35 | Ordering by creation time yields a permutation of the rows (same multiset, same length) in non-decreasing time. |
| OutboxProcessor.SortKeepsKeysUnique | UserService/Services/BackgroundServices/OutBoxProcessorService.cs:35 | Ordering keeps the rows' keys unique. |
| OutboxProcessor.MarkSent | UserService/Services/BackgroundServices/OutBoxProcessorService.cs:46-47 | Marking changes only the sent flag, sets it exactly on the given keys, and never clears it. |
| OutboxProcessor.SavedMeans | UserService/Services/BackgroundServices/OutBoxProcessorService.cs:41-53 | A row's flag is committed by a tick exactly when a true publish of it is followed, at that attempt or later in the tick, by a commit that goes through. It is still staged exactly when no commit went through from that publish on. |
| OutboxProcessor.TickOrder | UserService/Services/BackgroundServices/OutBoxProcessorService.cs:34-36 | A tick's order holds every unsent row of the store, only those, oldest first, with unique keys. |
| OutboxProcessor.PublishRow | UserService/Services/BackgroundServices/OutBoxProcessorService.cs:38-53 | A row is attempted once. The broker received exactly the row's event iff the publish returned true. Only a true publish stages the sent flag. Its commit goes through unless the database fails, and a commit that throws leaves the flag staged. A false or throwing publish leaves the store as it was. |
| OutboxProcessor.PublishRowMarks | UserService/Services/OutboxMessageServices/OutboxMessageService.cs:19-23 | The commit after a true publish goes through exactly when the database does not fail. It then writes every flag staged so far in the tick and its own. A commit that throws adds the flag to the staged ones. Any other outcome changes nothing. |
| OutboxProcessor.PublishInOrder | UserService/Services/BackgroundServices/OutBoxProcessorService.cs:36-54 | Every row of the order is attempted once, in order, whatever earlier attempts did. The table ends with exactly the flags `Saved` names committed, and the flags staged after the last commit that went through still staged. |
| OutboxProcessor.DrainTick | UserService/Services/BackgroundServices/OutBoxProcessorService.cs:31-55 | Each unsent row is attempted once, oldest first, and the broker got its event iff the publish returned true. A commit went through iff the publish returned true and the database did not fail. The committed flags are exactly those `SavedMeans` describes, and failures do not stop the tick. |
| OutboxProcessor.ServeTick | UserService/Services/BackgroundServices/OutBoxProcessorService.cs:29-55 | A tick after earlier ticks committed `marked` attempts the rows unsent in the marked table, oldest first. None of them was marked or sent before the start. When the scope ends, the table carries `marked` and the tick's committed flags; flags still staged are dropped. |
| OutboxProcessor.ServeStep | UserService/Services/BackgroundServices/OutBoxProcessorService.cs:25-59 | One more tick keeps the loop's facts: the marks are the union of the ticks' committed flags, no tick attempts a row an earlier tick committed, and each tick attempted the rows the earlier ticks left unsent. |
| OutboxProcessor.RetryNextTick | UserService/Services/BackgroundServices/OutBoxProcessorService.cs:27-55 | Of two consecutive ticks, the second attempts every row the first attempted without committing its flag. |
| OutboxProcessor.FirstCancelled | UserService/Services/BackgroundServices/OutBoxProcessorService.cs:27 | The number of ticks before the first check that sees cancellation. |
| OutboxProcessor.Serve | UserService/Services/BackgroundServices/OutBoxProcessorService.cs:25-59 | The loop runs one tick per check until cancellation is seen. Each tick attempts, oldest first, exactly the rows left unsent by the service's start and the earlier ticks. A commit goes through iff the publish returned true and the database did not fail that tick. A row whose flag a tick committed, or that was sent before the start, is never attempted again. A row a tick attempted without committing its flag is attempted by the next tick: at least once, not exactly once. The final table marks exactly the committed flags, keys are never lost and sent flags never cleared. |
| DirectoryUsers.Create | UserService/Repositories/UserRepositories/DatabaseUserRepository.cs:15-20 | Commits at once: appends the user exactly when its key is free, else a duplicate-key error. |
| DirectoryUsers.Delete | UserService/Repositories/UserRepositories/DatabaseUserRepository.cs:22-26 | Commits at once: fails for an absent user, else removes exactly that key. |
| DirectoryUsers.GetByEmail | UserService/Repositories/UserRepositories/DatabaseUserRepository.cs:28-31 | A user with that email, or null exactly when none exists. |
| DirectoryUsers.GetByUsername | UserService/Repositories/UserRepositories/DatabaseUserRepository.cs:38-41 | A user with that username, or null exactly when none exists. |
| Tables.Find | UserService/Repositories/UserRepositories/DatabaseUserRepository.cs:33-36 | The row with that primary key, or null exactly when the key is absent. |
| DirectoryUsers.CreateThenDelete | UserService/Repositories/UserRepositories/DatabaseUserRepository.cs:15-36 | After a create the user is found by id; after deleting it, it is not. |
| DirectoryUsers.GetUserByEmail | UserService/Services/UserServices/DatabaseUserService.cs:26-30 | The match, or user-not-found exactly when no user has that email; never null. |
| DirectoryUsers.GetUserByUsername | UserService/Services/UserServices/DatabaseUserService.cs:32-36 | The match, or user-not-found exactly when no user has that username; never null. |
| DirectoryUsers.GetUserById | UserService/Services/UserServices/DatabaseUserService.cs:57-61 | The match, or user-not-found exactly when the key is absent; never null. |
| DirectoryUsers.CreateUser | UserService/Services/UserServices/DatabaseUserService.cs:38-55 | A taken username is rejected first, then a taken email. On success the user is stored with a fresh id and the hash of the password. |
| DirectoryUsers.CreateUserKeepsDirectoryUnique | UserService/Services/UserServices/DatabaseUserService.cs:40-54 | Registration keeps keys, usernames and emails unique. |
| DirectoryUsers.DeleteUserById | UserService/Services/UserServices/DatabaseUserService.cs:63-74 | An unknown id fails with user-not-found; otherwise exactly that user is removed and every other kept. |
| EventProcessor.DetermineEvent | AuthenticationService/Services/EventProcessingServices/EventProcessor.cs:59-86 | "User_Created" and "User_Deleted" tags classify as such. Any other tag, a null envelope or a decoding error is undetermined, and classification never fails. |
| EventProcessor.DetermineEventInvertsTag | AuthenticationService/Services/EventProcessingServices/EventProcessor.cs:65-77 | Classification inverts tagging: an envelope tagged for an event type classifies as that type, and a message classified as a known event carried that event's tag. |
| EventProcessor.HandleCreated | AuthenticationService/Services/EventProcessingServices/EventProcessor.cs:22-37 | A null payload fails as a null argument, malformed JSON as a JSON error, and a null user is skipped. Otherwise the user is created exactly when its username, email and fresh id are all free. A failure keeps the rows, and uniqueness is preserved. |
| EventProcessor.RedeliveredCreateRejected | AuthenticationService/Services/UserServices/UserService.cs:24-29 | Processing the same `User_Created` payload again is rejected because its username is now taken. |
| EventProcessor.ProcessEvent | AuthenticationService/Services/EventProcessingServices/EventProcessor.cs:17-57 | Undetermined events have no effect. A delete event's payload must parse as a Guid. Deleting an unknown user is swallowed with no effect. A successful delete adds no row and keeps every other user's row. Any other failure propagates with the rows unchanged. Uniqueness holds and the blacklist only grows. |

## Left out

- Concurrency is left out: the reconnect `SemaphoreSlim`, `Interlocked` reads, `Task.Run` background reconnects and the blocking connect-retry loop with `Thread.Sleep`. Lock acquisition is an input, the reconnect request an output, and a finished connect an event.
- Logging and console output are left out. They have no effect on state.
- JWT signing and validation, token generation and password hashing are crypto libraries. They are oracles (`validate`, `Issuer`, `hash`). The token generators take the issue time, because a generated token embeds it (TokenGenerator.cs writes the current time and the expiry into each token).
- JSON serialization and deserialization are oracles (`decode`, `decodeUser`, `body`).
- Clocks are integer milliseconds passed in. The 15-second initialization race is decided by the factory's completion time.
- `long.Parse` and `Guid.Parse`: leading or trailing whitespace, culture settings and the N, B, P and X Guid formats are not modelled.
- Controllers, `Program`, `PrepDb`, DbContexts, AutoMapper profiles and `MessageBusSubcriber` are framework wiring, so they are left out.
- `CreateUserAndSaveOutboxMessage` and `DeleteUserByIdAndSaveOutboxMessage` are called but their bodies are not part of the source read, so no atomic user-plus-outbox write is modelled.
- Column length limits (`MaxLength`) on user fields are not enforced.
- OutboxProcessor.SortByTime: the order among rows with equal creation times is not stated. `OrderBy` is stable, but the publisher's guarantees do not depend on ties.
- OutboxProcessor.Serve: no rows are inserted between ticks, because the producing request path is not part of this model. Each tick sees the previous tick's committed table.
- OutboxProcessor.Serve: queries are assumed not to fail. The read of unsent rows sits outside the loop's try block, so a failing read ends the service before cancellation; the model has no such path. The same holds for every repository query of the model (`Tables.FirstWhere`, `Tables.Where`, `Tables.Find`).
- OutboxProcessor.Serve: the database fault oracle `dbFault` decides each commit's provider error up front. Its cause (a dropped connection, a timeout) is not modelled, nor is a fault that hits after the rows were written.
- Tables.SaveChanges: provider errors are modelled only for the outbox publisher's commits. Every other commit of the model (the repositories, the user services, the event processor) can fail only with `DuplicateKey` or `Concurrency`.
- OutboxProcessor.DrainTick: requires a fresh unit of work with unique keys. Each tick opens a new service scope, and the primary key guarantees uniqueness.
- TokenCache.RevokeAll: the order in which set members are revoked is left open, as the server returns members in no fixed order. On a failure only the revoked prefix is described.
- AuthUsers.DeleteUserAndRevokeAll: the removal and the rows-unchanged-on-failure facts are stated for a unit of work that starts empty, which is how every caller's fresh scope begins.
- MessageBus.DisposeChannelAndConnection: after a failed connect attempt (the `ConnectAttemptFailed` event) it is applied to the links the client held before the attempt. In MessageBusClient.cs:36-37 the attempt may already have replaced `_connection`, and `_channel` too, before a later step throws, so the source disposes the partly built links. The model has no half-built link.
- Tables.Insert, Tables.Modify and Tables.Delete state their commit outcome only for a unit of work that starts empty. With earlier staged changes the outcome also depends on those.
- Authenticator.Authenticate: when tracking fails, the contract says only that the store is unchanged. The `TokenCacheException` that tracking rethrows from its `async void` body is not modelled. With no synchronization context it is raised on the thread pool as an unhandled exception, which ends the process.
- AuthUsers.GetByUsername: compares usernames exactly. The store's default SQL Server collation compares case-insensitively and ignores trailing spaces, so it also matches names that differ in those ways.
- AuthUsers.GetByEmail: compares emails exactly, not with the store's case-insensitive, trailing-space-insensitive collation.
- AuthUsers.CreateUser: the username and email checks are exact, so a name differing only in case from a taken one is accepted by the model and rejected by the store's collation.
- AuthUsers.CreateUserKeepsDirectoryUnique: uniqueness is stated under exact comparison; the store's collation enforces the stronger case-insensitive uniqueness.
- DirectoryUsers.GetByUsername: compares usernames exactly, not with the store's case-insensitive, trailing-space-insensitive collation.
- DirectoryUsers.GetByEmail: compares emails exactly, not with the store's collation.
- DirectoryUsers.CreateUser: the username and email checks are exact, not collation-based.
- EventProcessor.HandleCreated: the username and email checks of `CreateUser` are exact, not collation-based.
- EventProcessor.RedeliveredCreateRejected: the rejection is shown for the same payload; a payload whose username differs only in case would also be rejected by the store, which the model does not state.
- Tables.Insert: keys are assumed set by the caller. Entity Framework generates a fresh key on add for an entity whose `Guid` key is `Guid.Empty`; the model inserts the row under the empty key.
- Tables.Modify: an update of an entity whose key is `Guid.Empty` is an insert with a generated key in Entity Framework; the model treats it as an update of the empty key.
- Outbox.Create: `new OutboxMessage()` leaves `MessageId` empty (OutboxMessage.cs:14-20), and Entity Framework would give it a fresh key. The model keeps the key the caller supplies, so two messages with the empty key collide on commit here but not in the store.
- Outbox.NewMessageIsUnsent: stated for a message whose key the caller set; key generation for the empty key is not modelled.
- Inbox.CreateMessage: keys are assumed set by the caller; key generation for the empty key is not modelled.

=== FILE: auth_users.dfy ===
/** The authentication service's user table (`UserRepository`) and the user
    service built on it (`UserService`): creating a user under the
    username-then-email uniqueness rules, and deleting a user together with
    every refresh token the cache tracks for them. */
module AuthUsers {
  import opened Wrappers
  import opened Faults
  import opened Guids
  import opened Tables
  import TokenCache
  import RedisStore

  /** An `ApplicationUser`'s columns other than its key `UserId`; `role` is
      the numeric value of the role enumeration. */
  datatype AuthUser = AuthUser(externalUserId: Guid, username: string, passwordHash: string, email: string, role: int)

  type Users = Table<AuthUser>

  function Username(u: AuthUser): string { u.username }
  function Email(u: AuthUser): string { u.email }

  /** No two users share a username, and no two share an email address. */
  predicate DirectoryUnique(rows: seq<Row<AuthUser>>) {
    KeysUnique(rows) && ColumnUnique(rows, Username) && ColumnUnique(rows, Email)
  }

  // ---- UserRepository ----

  /** `Create`: stages the insert and hands the user back. On a fresh unit of
      work, committing it adds the user exactly when the key is free. */
  function Create(t: Users, u: Row<AuthUser>): (r: (Users, Row<AuthUser>))
    ensures r.0.rows == t.rows && r.1 == u
    ensures t.staged == [] ==>
      SaveChanges(r.0) == if HasKey(t.rows, u.id) then Failure(DuplicateKey) else Success(Table(t.rows + [u], []))
  {
    (Insert(t, u), u)
  }

  /** `DeleteUser`: stages the delete. On a fresh unit of work, committing it
      fails when the user is gone and otherwise removes exactly that key. */
  function DeleteUser(t: Users, u: Row<AuthUser>): (r: Users)
    ensures r.rows == t.rows
    ensures t.staged == [] ==> (SaveChanges(r).Success? <==> HasKey(t.rows, u.id))
    ensures t.staged == [] && SaveChanges(r).Success? ==>
      !HasKey(SaveChanges(r).value.rows, u.id) &&
      (forall i :: 0 <= i < |SaveChanges(r).value.rows| ==> SaveChanges(r).value.rows[i] in t.rows) &&
      (forall i :: 0 <= i < |t.rows| && t.rows[i].id != u.id ==> t.rows[i] in SaveChanges(r).value.rows)
  {
    Delete(t, u)
  }

  /** `GetByUsername`: the first committed user with that username, or null. */
  function GetByUsername(t: Users, name: string): (r: Option<Row<AuthUser>>)
    ensures r.None? <==> forall i :: 0 <= i < |t.rows| ==> t.rows[i].data.username != name
    ensures r.Some? ==> r.value in t.rows && r.value.data.username == name
  {
    FirstWhere(t.rows, (x: Row<AuthUser>) => x.data.username == name)
  }

  /** `GetByEmail`: the first committed user with that email, or null. */
  function GetByEmail(t: Users, email: string): (r: Option<Row<AuthUser>>)
    ensures r.None? <==> forall i :: 0 <= i < |t.rows| ==> t.rows[i].data.email != email
    ensures r.Some? ==> r.value in t.rows && r.value.data.email == email
  {
    FirstWhere(t.rows, (x: Row<AuthUser>) => x.data.email == email)
  }

  /** `GetByExternalId`: the first committed user with that external id, or null. */
  function GetByExternalId(t: Users, externalId: Guid): (r: Option<Row<AuthUser>>)
    ensures r.None? <==> forall i :: 0 <= i < |t.rows| ==> t.rows[i].data.externalUserId != externalId
    ensures r.Some? ==> r.value in t.rows && r.value.data.externalUserId == externalId
  {
    FirstWhere(t.rows, (x: Row<AuthUser>) => x.data.externalUserId == externalId)
  }

  /** `GetById`, which the callers use although the repository interface does
      not declare it: the committed user with that key, or null. */
  function GetById(t: Users, id: Guid): (r: Option<Row<AuthUser>>)
    ensures r.Some? <==> HasKey(t.rows, id)
    ensures r.Some? ==> r.value in t.rows && r.value.id == id
  {
    Find(t.rows, id)
  }

  /** A committed delete of a present user makes the lookup by key return null. */
  lemma DeleteThenGetById(t: Users, u: Row<AuthUser>)
    requires t.staged == [] && HasKey(t.rows, u.id)
    ensures SaveChanges(DeleteUser(t, u)).Success?
    ensures GetById(SaveChanges(DeleteUser(t, u)).value, u.id).None?
  {
  }

  // ---- UserService ----

  /** `CreateUser`: the username is checked first, then the email; the new
      user gets the fresh key `freshId` and is committed at once. */
  function CreateUser(t: Users, dto: AuthUser, freshId: Guid): (r: Result<(Users, Row<AuthUser>), Fault>)
    ensures GetByUsername(t, dto.username).Some? ==> r == Failure(UserAlreadyExists(UsernameTaken))
    ensures GetByUsername(t, dto.username).None? && GetByEmail(t, dto.email).Some? ==>
      r == Failure(UserAlreadyExists(EmailTaken))
    ensures r.Success? ==>
      r.value.1 == Row(freshId, dto) && r.value.0.staged == [] &&
      (forall i :: 0 <= i < |t.rows| ==> t.rows[i].data.username != dto.username && t.rows[i].data.email != dto.email)
    ensures t.staged == [] && r.Success? ==> r.value.0.rows == t.rows + [Row(freshId, dto)]
    ensures t.staged == [] && GetByUsername(t, dto.username).None? && GetByEmail(t, dto.email).None? ==>
      (r.Success? <==> !HasKey(t.rows, freshId))
  {
    if GetByUsername(t, dto.username).Some? then Failure(UserAlreadyExists(UsernameTaken))
    else if GetByEmail(t, dto.email).Some? then Failure(UserAlreadyExists(EmailTaken))
    else
      var (staged, user) := Create(t, Row(freshId, dto));
      match SaveChanges(staged)
      case Failure(f) => Failure(f)
      case Success(saved) => Success((saved, user))
  }

  /** Creating a user keeps usernames, emails and keys unique. */
  lemma CreateUserKeepsDirectoryUnique(t: Users, dto: AuthUser, freshId: Guid)
    requires t.staged == [] && DirectoryUnique(t.rows)
    requires CreateUser(t, dto, freshId).Success?
    ensures DirectoryUnique(CreateUser(t, dto, freshId).value.0.rows)
  {
    var r := Row(freshId, dto);
    AppendKeepsColumnUnique(t.rows, r, Username);
    AppendKeepsColumnUnique(t.rows, r, Email);
    SaveChangesKeepsKeysUnique(Create(t, r).0);
  }

  /** Deleting a user keeps usernames, emails and keys unique. */
  lemma DeleteKeepsDirectoryUnique(t: Users, u: Row<AuthUser>)
    requires t.staged == [] && DirectoryUnique(t.rows)
    requires SaveChanges(DeleteUser(t, u)).Success?
    ensures DirectoryUnique(SaveChanges(DeleteUser(t, u)).value.rows)
  {
    assert DeleteUser(t, u) == Table(t.rows, [Removed(u)]);
    SaveChangesKeepsKeysUnique(DeleteUser(t, u));
    SaveRemovedKeepsColumnUnique(t.rows, u, Username);
    SaveRemovedKeepsColumnUnique(t.rows, u, Email);
  }

  /** `DeleteUserByIdAndRevokeAllToken`: an unknown id fails before anything
      is touched; otherwise the delete is staged, every refresh token in the
      user's set is revoked, and only then is the delete committed. A failed
      revocation leaves the delete uncommitted. */
  method DeleteUserAndRevokeAll(t: Users, c: TokenCache.Cache, env: TokenCache.Env, userId: Guid)
    returns (t': Users, c': TokenCache.Cache, r: Result<(), Fault>)
    ensures GetById(t, userId).None? ==> r == Failure(UserNotFound) && t' == t && c' == c
    ensures r.Success? ==>
      HasKey(t.rows, userId) && t'.staged == [] &&
      (t.staged == [] ==> !HasKey(t'.rows, userId)) &&
      forall tok :: tok in RedisStore.ActiveSet(c.store, ToString(userId), env.now) ==>
        TokenCache.Blacklisted(c'.store, tok, env.now)
    // on a fresh unit of work only that user is removed: no row appears and every other row stays
    ensures t.staged == [] && r.Success? ==>
      (forall i :: 0 <= i < |t'.rows| ==> t'.rows[i] in t.rows) &&
      (forall i :: 0 <= i < |t.rows| && t.rows[i].id != userId ==> t.rows[i] in t'.rows)
    ensures t.staged == [] && r.Failure? && HasKey(t.rows, userId) ==> r.error.TokenCache? && t'.rows == t.rows
    ensures t.staged == [] && DirectoryUnique(t.rows) ==> DirectoryUnique(t'.rows)
    ensures TokenCache.BlacklistGrows(c.store, c'.store, env.now)
  {
    var user := GetById(t, userId);
    if user.None? {
      return t, c, Failure(UserNotFound);
    }
    var staged := DeleteUser(t, user.value);
    var outcome, _ := TokenCache.RevokeAll(c, env, ToString(userId));
    c' := outcome.cache;
    if outcome.result.Failure? {
      return staged, c', Failure(outcome.result.error);
    }
    var saved := SaveChanges(staged);
    if t.staged == [] && DirectoryUnique(t.rows) && saved.Success? {
      DeleteKeepsDirectoryUnique(t, user.value);
    }
    if saved.Failure? {
      return staged, c', Failure(saved.error);
    }
    t', r := saved.value, Success(());
  }
}

=== FILE: authenticator.dfy ===
/** The login, logout and token-rotation flows (`Authenticator`). Token
    generation and password verification are the `Issuer` parameter. A bad
    user, a bad password, a revoked token or bad claims give no token pair
    (the source's null); tracking a new refresh token is not awaited, so its
    outcome never reaches the caller. */
module Authenticator {
  import opened Wrappers
  import opened Faults
  import opened Guids
  import opened Tables
  import opened AuthUsers
  import opened TokenCache
  import opened RedisStore
  import RefreshTokenValidator

  /** Token generation and password verification. A generated token embeds
      the time it is issued at (its `iat`-style claims and its expiry), so the
      generators take that time. */
  datatype Issuer = Issuer(
    accessToken: (Row<AuthUser>, int) -> string,
    refreshToken: (Row<AuthUser>, int) -> string,
    verifyPassword: (string, string) -> bool)

  datatype TokenPair = TokenPair(accessToken: string, refreshToken: string)

  /** The pair handed back, and the cache after any tracking it set off. */
  datatype Login = Login(response: Option<TokenPair>, cache: Cache)

  /** The result of a rotation (a fault only from the revocation check), and
      the cache afterwards. */
  datatype Rotation = Rotation(result: Result<Option<TokenPair>, Fault>, cache: Cache)

  /** The pair issued to `u` at time `now`. */
  function PairFor(iss: Issuer, u: Row<AuthUser>, now: int): TokenPair {
    TokenPair(iss.accessToken(u, now), iss.refreshToken(u, now))
  }

  /** `Authenticate`: look the user up by name and check the password; on
      success issue a pair at the current time and track its refresh token
      under the user's key. The pair is returned whether or not tracking
      succeeds. */
  function Authenticate(users: Users, c: Cache, env: Env, iss: Issuer, username: string, password: string): (r: Login)
    ensures r.response.None? <==>
      GetByUsername(users, username).None? ||
      !iss.verifyPassword(password, GetByUsername(users, username).value.data.passwordHash)
    ensures r.response.None? ==> r.cache == c
    ensures r.response.Some? ==>
      var u := GetByUsername(users, username).value;
      && u in users.rows && u.data.username == username
      && r.response.value == PairFor(iss, u, env.now)
      && (Track(c, env, u.id, r.response.value.refreshToken).result.Success? ==>
            r.response.value.refreshToken in ActiveSet(r.cache.store, ToString(u.id), env.now))
      && (Track(c, env, u.id, r.response.value.refreshToken).result.Failure? ==> r.cache.store == c.store)
    ensures BlacklistGrows(c.store, r.cache.store, env.now) && SetsGrow(c.store, r.cache.store, env.now)
  {
    match GetByUsername(users, username)
    case None => Login(None, c)
    case Some(u) =>
      if !iss.verifyPassword(password, u.data.passwordHash) then Login(None, c)
      else
        var pair := PairFor(iss, u, env.now);
        Login(Some(pair), Track(c, env, u.id, pair.refreshToken).cache)
  }

  /** The response of a login at a given time does not depend on the cache:
      neither on its state nor on whether tracking fails. */
  lemma AuthenticateIgnoresCache(users: Users, c1: Cache, c2: Cache, env1: Env, env2: Env, iss: Issuer, username: string, password: string)
    requires env1.now == env2.now
    ensures Authenticate(users, c1, env1, iss, username, password).response ==
            Authenticate(users, c2, env2, iss, username, password).response
  {
  }

  /** `LogUserOut`: revoke the presented refresh token; cache faults propagate. */
  function LogUserOut(c: Cache, env: Env, token: string): (r: Outcome<()>)
    ensures r.result.Success? ==> Blacklisted(r.cache.store, token, env.now)
    ensures r.result.Failure? ==> r.result.error.TokenCache?
    ensures Claims(env, token).Failure? ==> r.result.Failure? && r.cache == c
    ensures BlacklistGrows(c.store, r.cache.store, env.now)
  {
    Revoke(c, env, token)
  }

  /** `LogUserOutOnAllDevices`: revoke every token in the user's set; cache
      faults propagate. */
  method LogUserOutOnAllDevices(c: Cache, env: Env, userId: string) returns (r: Outcome<()>)
    ensures r.result.Success? ==>
      forall t :: t in ActiveSet(c.store, userId, env.now) ==> Blacklisted(r.cache.store, t, env.now)
    ensures r.result.Failure? ==> r.result.error.TokenCache?
    ensures BlacklistGrows(c.store, r.cache.store, env.now)
  {
    var revoked;
    r, revoked := RevokeAll(c, env, userId);
  }

  /** A login followed by a logout on every device: when the login tracked
      its refresh token and the logout succeeds, that token is blacklisted,
      so it can no longer be rotated. */
  method LogInThenLogOutEverywhere(users: Users, c: Cache, env: Env, iss: Issuer, username: string, password: string)
    returns (login: Login, logout: Outcome<()>)
    requires Authenticate(users, c, env, iss, username, password).response.Some?
    ensures login == Authenticate(users, c, env, iss, username, password)
    ensures logout.result.Failure? ==> logout.result.error.TokenCache?
    ensures var u := GetByUsername(users, username).value;
      Track(c, env, u.id, login.response.value.refreshToken).result.Success? && logout.result.Success? ==>
        Blacklisted(logout.cache.store, login.response.value.refreshToken, env.now)
  {
    login := Authenticate(users, c, env, iss, username, password);
    var u := GetByUsername(users, username).value;
    logout := LogUserOutOnAllDevices(login.cache, env, ToString(u.id));
  }

  /** `RotateToken`: a revoked token gets nothing; otherwise the token's user
      is found from its claims and given a fresh pair. Only a failure of the
      revocation check escapes; every later failure gives nothing. The
      presented token is never revoked or untracked. */
  function RotateToken(users: Users, c: Cache, env: Env, iss: Issuer, token: string): (r: Rotation)
    ensures IsRevoked(c, env, token).result.Failure? ==> r.result == Failure(IsRevoked(c, env, token).result.error)
    ensures IsRevoked(c, env, token).result == Success(true) ==> r.result == Success(None) && r.cache.store == c.store
    ensures r.result.Failure? ==> r.result.error.TokenCache?
    ensures IsRevoked(c, env, token).result == Success(false) ==>
      r.result.Success? &&
      (r.result.value.None? <==>
        || Claims(env, token).Failure?
        || Parse(Claims(env, token).value.userId).None?
        || GetById(users, Parse(Claims(env, token).value.userId).value).None?)
    ensures r.result.Success? && r.result.value.Some? ==>
      var u := GetById(users, Parse(Claims(env, token).value.userId).value).value;
      && u in users.rows
      && u.id == Parse(Claims(env, token).value.userId).value
      && r.result.value.value == PairFor(iss, u, env.now)
    // only the new refresh token is tracked, under its user's key
    ensures r.result.Success? && r.result.value.Some? ==>
      var u := GetById(users, Parse(Claims(env, token).value.userId).value).value;
      var issued := r.result.value.value.refreshToken;
      && (Track(IsRevoked(c, env, token).cache, env, u.id, issued).result.Success? ==>
            issued in ActiveSet(r.cache.store, ToString(u.id), env.now))
      && (Track(IsRevoked(c, env, token).cache, env, u.id, issued).result.Failure? ==> r.cache.store == c.store)
      && SameExcept(c.store, r.cache.store, {ToString(u.id)})
    // without a new pair nothing is written
    ensures !(r.result.Success? && r.result.value.Some?) ==> r.cache.store == c.store
    ensures Blacklisted(r.cache.store, token, env.now) <==> Blacklisted(c.store, token, env.now)
    ensures SetsGrow(c.store, r.cache.store, env.now)
  {
    var check := IsRevoked(c, env, token);
    match check.result
    case Failure(f) => Rotation(Failure(f), check.cache)
    case Success(true) => Rotation(Success(None), check.cache)
    case Success(false) =>
      match Claims(env, token)
      case Failure(_) => Rotation(Success(None), check.cache)
      case Success(claims) =>
        match Parse(claims.userId)
        case None => Rotation(Success(None), check.cache)
        case Some(id) =>
          match GetById(users, id)
          case None => Rotation(Success(None), check.cache)
          case Some(u) =>
            var pair := PairFor(iss, u, env.now);
            Rotation(Success(Some(pair)), Track(check.cache, env, u.id, pair.refreshToken).cache)
  }

  /** After logging out with a token, rotating that token gives nothing for
      as long as the token would otherwise have been valid. */
  lemma LogOutThenRotate(users: Users, c: Cache, env: Env, iss: Issuer, token: string, later: int)
    requires LogUserOut(c, env, token).result.Success?
    requires env.net(KeyExists(token)).None?
    requires later < Claims(env, token).value.expiration
    ensures RotateToken(users, LogUserOut(c, env, token).cache, env.(now := later), iss, token).result == Success(None)
  {
    RevokeThenIsRevoked(c, env, token, later);
  }
}

=== FILE: directory_users.dfy ===
/** The user service's own user directory: `DatabaseUserRepository`, whose
    writes commit at once, and `DatabaseUserService`, which turns a missing
    user into `UserNotFound` and keeps usernames and emails unique on
    registration. Password hashing is the `hash` parameter. */
module DirectoryUsers {
  import opened Wrappers
  import opened Faults
  import opened Guids
  import opened Tables

  datatype DirectoryUser = DirectoryUser(email: string, username: string, passwordHash: string)

  type Users = Table<DirectoryUser>

  /** A registration: the address, the name and the clear-text password. */
  datatype Registration = Registration(email: string, username: string, password: string)

  function Username(u: DirectoryUser): string { u.username }
  function Email(u: DirectoryUser): string { u.email }

  predicate DirectoryUnique(rows: seq<Row<DirectoryUser>>) {
    KeysUnique(rows) && ColumnUnique(rows, Username) && ColumnUnique(rows, Email)
  }

  // ---- DatabaseUserRepository ----

  /** `Create`: add and commit. On a fresh unit of work it appends the user
      exactly when the key is free. */
  function Create(t: Users, u: Row<DirectoryUser>): (r: Result<(Users, Row<DirectoryUser>), Fault>)
    ensures r.Success? ==> r.value.1 == u && r.value.0.staged == []
    ensures t.staged == [] ==> (r.Success? <==> !HasKey(t.rows, u.id))
    ensures t.staged == [] && r.Success? ==> r.value.0.rows == t.rows + [u]
    ensures t.staged == [] && r.Failure? ==> r.error == DuplicateKey
  {
    match SaveChanges(Insert(t, u))
    case Failure(f) => Failure(f)
    case Success(saved) => Success((saved, u))
  }

  /** `Delete`: remove and commit. On a fresh unit of work it fails when the
      user is gone, and otherwise drops exactly that key. */
  function Delete(t: Users, u: Row<DirectoryUser>): (r: Result<Users, Fault>)
    ensures t.staged == [] ==> (r.Success? <==> HasKey(t.rows, u.id))
    ensures t.staged == [] && r.Failure? ==> r.error == Concurrency
    ensures t.staged == [] && r.Success? ==>
      && r.value.staged == []
      && !HasKey(r.value.rows, u.id)
      && (forall i :: 0 <= i < |r.value.rows| ==> r.value.rows[i] in t.rows)
      && (forall i :: 0 <= i < |t.rows| && t.rows[i].id != u.id ==> t.rows[i] in r.value.rows)
  {
    SaveChanges(Tables.Delete(t, u))
  }

  /** `GetByEmail`: the first user with that email, or null. */
  function GetByEmail(t: Users, email: string): (r: Option<Row<DirectoryUser>>)
    ensures r.None? <==> forall i :: 0 <= i < |t.rows| ==> t.rows[i].data.email != email
    ensures r.Some? ==> r.value in t.rows && r.value.data.email == email
  {
    FirstWhere(t.rows, (x: Row<DirectoryUser>) => x.data.email == email)
  }

  /** `GetByUsername`: the first user with that username, or null. */
  function GetByUsername(t: Users, name: string): (r: Option<Row<DirectoryUser>>)
    ensures r.None? <==> forall i :: 0 <= i < |t.rows| ==> t.rows[i].data.username != name
    ensures r.Some? ==> r.value in t.rows && r.value.data.username == name
  {
    FirstWhere(t.rows, (x: Row<DirectoryUser>) => x.data.username == name)
  }

  /** After a create the user is found by key; after a delete it is not. */
  lemma CreateThenDelete(t: Users, u: Row<DirectoryUser>)
    requires t.staged == [] && KeysUnique(t.rows) && !HasKey(t.rows, u.id)
    ensures Create(t, u).Success?
    ensures Find(Create(t, u).value.0.rows, u.id) == Some(u)
    ensures Delete(Create(t, u).value.0, u).Success?
    ensures Find(Delete(Create(t, u).value.0, u).value.rows, u.id).None?
  {
    var rows' := t.rows + [u];
    assert rows'[|t.rows|] == u;
    SaveChangesKeepsKeysUnique(Insert(t, u));
  }

  // ---- DatabaseUserService ----

  /** `GetUserByEmail`: the match, never null. */
  function GetUserByEmail(t: Users, email: string): (r: Result<Row<DirectoryUser>, Fault>)
    ensures r.Failure? <==> forall i :: 0 <= i < |t.rows| ==> t.rows[i].data.email != email
    ensures r.Failure? ==> r.error == UserNotFound
    ensures r.Success? ==> r.value in t.rows && r.value.data.email == email
  {
    match GetByEmail(t, email)
    case None => Failure(UserNotFound)
    case Some(u) => Success(u)
  }

  /** `GetUserByUsername`: the match, never null. */
  function GetUserByUsername(t: Users, name: string): (r: Result<Row<DirectoryUser>, Fault>)
    ensures r.Failure? <==> forall i :: 0 <= i < |t.rows| ==> t.rows[i].data.username != name
    ensures r.Failure? ==> r.error == UserNotFound
    ensures r.Success? ==> r.value in t.rows && r.value.data.username == name
  {
    match GetByUsername(t, name)
    case None => Failure(UserNotFound)
    case Some(u) => Success(u)
  }

  /** `GetUserById`: the match, never null. */
  function GetUserById(t: Users, id: Guid): (r: Result<Row<DirectoryUser>, Fault>)
    ensures r.Failure? <==> !HasKey(t.rows, id)
    ensures r.Failure? ==> r.error == UserNotFound
    ensures r.Success? ==> r.value in t.rows && r.value.id == id
  {
    match Find(t.rows, id)
    case None => Failure(UserNotFound)
    case Some(u) => Success(u)
  }

  /** `CreateUser`: reject a taken username, then a taken email; otherwise
      store the hash of the password under the fresh key `freshId`. */
  function CreateUser(t: Users, reg: Registration, freshId: Guid, hash: string -> string): (r: Result<(Users, Row<DirectoryUser>), Fault>)
    ensures GetByUsername(t, reg.username).Some? ==> r == Failure(UserAlreadyExists(UsernameTaken))
    ensures GetByUsername(t, reg.username).None? && GetByEmail(t, reg.email).Some? ==>
      r == Failure(UserAlreadyExists(EmailTaken))
    ensures r.Success? ==>
      r.value.1 == Row(freshId, DirectoryUser(reg.email, reg.username, hash(reg.password))) &&
      (forall i :: 0 <= i < |t.rows| ==> t.rows[i].data.username != reg.username && t.rows[i].data.email != reg.email)
    ensures t.staged == [] && r.Success? ==> r.value.0.rows == t.rows + [r.value.1]
    ensures t.staged == [] && GetByUsername(t, reg.username).None? && GetByEmail(t, reg.email).None? ==>
      (r.Success? <==> !HasKey(t.rows, freshId))
  {
    if GetByUsername(t, reg.username).Some? then Failure(UserAlreadyExists(UsernameTaken))
    else if GetByEmail(t, reg.email).Some? then Failure(UserAlreadyExists(EmailTaken))
    else Create(t, Row(freshId, DirectoryUser(reg.email, reg.username, hash(reg.password))))
  }

  /** Registration keeps usernames, emails and keys unique. */
  lemma CreateUserKeepsDirectoryUnique(t: Users, reg: Registration, freshId: Guid, hash: string -> string)
    requires t.staged == [] && DirectoryUnique(t.rows)
    requires CreateUser(t, reg, freshId, hash).Success?
    ensures DirectoryUnique(CreateUser(t, reg, freshId, hash).value.0.rows)
  {
    var r := Row(freshId, DirectoryUser(reg.email, reg.username, hash(reg.password)));
    AppendKeepsColumnUnique(t.rows, r, Username);
    AppendKeepsColumnUnique(t.rows, r, Email);
    SaveChangesKeepsKeysUnique(Insert(t, r));
  }

  /** `DeleteUserById`: an unknown id fails with `UserNotFound` and changes
      nothing; otherwise exactly that user is removed. */
  function DeleteUserById(t: Users, id: Guid): (r: Result<Users, Fault>)
    ensures !HasKey(t.rows, id) ==> r == Failure(UserNotFound)
    ensures t.staged == [] && HasKey(t.rows, id) ==> r.Success?
    ensures t.staged == [] && r.Success? ==>
      && !HasKey(r.value.rows, id)
      && (forall i :: 0 <= i < |r.value.rows| ==> r.value.rows[i] in t.rows)
      && (forall i :: 0 <= i < |t.rows| && t.rows[i].id != id ==> t.rows[i] in r.value.rows)
  {
    match Find(t.rows, id)
    case None => Failure(UserNotFound)
    case Some(u) => Delete(t, u)
  }
}

=== FILE: event_processor.dfy ===
/** The consumer side of the event pipeline (`EventProcessor`): classify a
    message by its `EventType`, then create or delete the user it carries.
    JSON decoding is the `decode*` parameters; each message is handled in a
    fresh service scope, so the unit of work starts empty and whatever it
    leaves uncommitted is discarded with the scope. */
module EventProcessor {
  import opened Wrappers
  import opened Faults
  import opened Guids
  import opened Tables
  import opened AuthUsers
  import TokenCache
  import RedisStore

  datatype EventType = UserCreated | UserDeleted | Undetermined

  /** `PublishEventDto`: either field may be JSON null. */
  datatype Envelope = Envelope(eventData: Option<string>, eventType: Option<string>)

  /** What `JsonSerializer.Deserialize` gives: an exception, a null, or a value. */
  datatype Decoded<T> = Malformed | Null | Decoded(value: T)

  const CreatedTag := "User_Created"
  const DeletedTag := "User_Deleted"

  /** `DetermineEvent`: the message's tag, when it decodes and carries one of
      the two known tags; anything else (a decoding error included) is
      undetermined. */
  function DetermineEvent(decode: string -> Decoded<Envelope>, message: string): (r: EventType)
    ensures r == UserCreated <==> decode(message).Decoded? && decode(message).value.eventType == Some(CreatedTag)
    ensures r == UserDeleted <==> decode(message).Decoded? && decode(message).value.eventType == Some(DeletedTag)
    ensures !decode(message).Decoded? ==> r == Undetermined
  {
    match decode(message)
    case Decoded(e) =>
      if e.eventType == Some(CreatedTag) then UserCreated
      else if e.eventType == Some(DeletedTag) then UserDeleted
      else Undetermined
    case _ => Undetermined
  }

  /** The tag an event of that type is published with; an undetermined
      event has none. */
  function TagFor(e: EventType): Option<string> {
    match e
    case UserCreated => Some(CreatedTag)
    case UserDeleted => Some(DeletedTag)
    case Undetermined => None
  }

  /** Classification inverts tagging: an envelope tagged for `e` classifies
      as `e`, and a message classified as a known event decoded to an
      envelope carrying that event's tag. */
  lemma DetermineEventInvertsTag(decode: string -> Decoded<Envelope>, message: string, e: EventType)
    ensures decode(message).Decoded? && decode(message).value.eventType == TagFor(e) ==>
      DetermineEvent(decode, message) == e
    ensures DetermineEvent(decode, message) == e && e != Undetermined ==>
      decode(message).Decoded? && decode(message).value.eventType == TagFor(e)
  {
  }

  /** The `User_Created` branch on the event's payload: decode the user and
      create it with a fresh key. A null user is skipped; a failed create
      leaves the committed rows as they were. */
  function HandleCreated(db: seq<Row<AuthUser>>, decodeUser: string -> Decoded<AuthUser>, data: Option<string>, freshId: Guid)
    : (r: (seq<Row<AuthUser>>, Result<(), Fault>))
    ensures data.None? ==> r == (db, Failure(ArgumentNull))
    ensures data.Some? && decodeUser(data.value).Malformed? ==> r == (db, Failure(Json))
    ensures data.Some? && decodeUser(data.value).Null? ==> r == (db, Success(()))
    ensures data.Some? && decodeUser(data.value).Decoded? ==>
      var dto := decodeUser(data.value).value;
      && (r.1.Success? <==>
          (forall i :: 0 <= i < |db| ==> db[i].data.username != dto.username && db[i].data.email != dto.email) &&
          !HasKey(db, freshId))
      && (r.1.Success? ==> r.0 == db + [Row(freshId, dto)])
      && (r.1.Failure? ==> r.1.error.UserAlreadyExists? || r.1.error == DuplicateKey)
    ensures r.1.Failure? ==> r.0 == db
    ensures DirectoryUnique(db) ==> DirectoryUnique(r.0)
  {
    if data.None? then (db, Failure(ArgumentNull))
    else match decodeUser(data.value)
      case Malformed => (db, Failure(Json))
      case Null => (db, Success(()))
      case Decoded(dto) =>
        var t := Table(db, []);
        match CreateUser(t, dto, freshId)
        case Failure(f) => (db, Failure(f))
        case Success(created) =>
          assert DirectoryUnique(db) ==> DirectoryUnique(created.0.rows) by {
            if DirectoryUnique(db) {
              CreateUserKeepsDirectoryUnique(t, dto, freshId);
            }
          }
          (created.0.rows, Success(()))
  }

  /** A redelivered `User_Created` event is rejected: its username is now taken. */
  lemma RedeliveredCreateRejected(db: seq<Row<AuthUser>>, decodeUser: string -> Decoded<AuthUser>, data: Option<string>,
                                  freshId: Guid, otherId: Guid)
    requires data.Some? && decodeUser(data.value).Decoded?
    requires HandleCreated(db, decodeUser, data, freshId).1.Success?
    ensures var db' := HandleCreated(db, decodeUser, data, freshId).0;
      HandleCreated(db', decodeUser, data, otherId) == (db', Failure(UserAlreadyExists(UsernameTaken)))
  {
    var dto := decodeUser(data.value).value;
    var db' := HandleCreated(db, decodeUser, data, freshId).0;
    assert db'[|db|] == Row(freshId, dto);
  }

  /** `ProcessEventAsync`: dispatch on the event type. A `User_Deleted`
      event for an unknown user is logged and dropped; every other fault
      escapes. */
  method ProcessEvent(db: seq<Row<AuthUser>>, c: TokenCache.Cache, env: TokenCache.Env,
                      decode: string -> Decoded<Envelope>, decodeUser: string -> Decoded<AuthUser>,
                      message: string, freshId: Guid)
    returns (db': seq<Row<AuthUser>>, c': TokenCache.Cache, r: Result<(), Fault>)
    ensures DetermineEvent(decode, message) == Undetermined ==> db' == db && c' == c && r.Success?
    ensures DetermineEvent(decode, message) == UserCreated ==>
      (db', r) == HandleCreated(db, decodeUser, decode(message).value.eventData, freshId) && c' == c
    ensures DetermineEvent(decode, message) == UserDeleted ==>
      var data := decode(message).value.eventData;
      && (data.None? ==> r == Failure(ArgumentNull) && db' == db && c' == c)
      && (data.Some? && Parse(data.value).None? ==> r == Failure(Format) && db' == db && c' == c)
      && (data.Some? && Parse(data.value).Some? ==>
            var id := Parse(data.value).value;
            && (!HasKey(db, id) ==> r.Success? && db' == db && c' == c)
            && (HasKey(db, id) && r.Success? ==>
                  !HasKey(db', id) &&
                  (forall i :: 0 <= i < |db'| ==> db'[i] in db) &&
                  (forall i :: 0 <= i < |db| && db[i].id != id ==> db[i] in db') &&
                  forall tok :: tok in RedisStore.ActiveSet(c.store, ToString(id), env.now) ==>
                    TokenCache.Blacklisted(c'.store, tok, env.now))
            && (HasKey(db, id) && r.Failure? ==> r.error.TokenCache? && db' == db))
    ensures r.Failure? ==> db' == db
    ensures DirectoryUnique(db) ==> DirectoryUnique(db')
    ensures TokenCache.BlacklistGrows(c.store, c'.store, env.now)
  {
    db', c', r := db, c, Success(());
    match DetermineEvent(decode, message)
    case UserCreated =>
      db', r := HandleCreated(db, decodeUser, decode(message).value.eventData, freshId).0,
                HandleCreated(db, decodeUser, decode(message).value.eventData, freshId).1;
    case UserDeleted =>
      var data := decode(message).value.eventData;
      if data.None? {
        r := Failure(ArgumentNull);
      } else if Parse(data.value).None? {
        r := Failure(Format);
      } else {
        var t, cache, deleted := DeleteUserAndRevokeAll(Table(db, []), c, env, Parse(data.value).value);
        c' := cache;
        if deleted.Failure? && deleted.error == UserNotFound {
          r := Success(());
        } else {
          db', r := t.rows, deleted;
        }
      }
    case Undetermined =>
  }
}

=== FILE: faults.dfy ===
/** The exception classes raised, caught or translated by the modelled code,
    one variant per class. An exception is a value here: every operation that
    can throw returns a `Result` whose failure side is a `Fault`. */
module Faults {

  /** Which uniqueness rule a new user broke. */
  datatype Clash = UsernameTaken | EmailTaken

  datatype Fault =
    | Timeout                      // TimeoutException
    | RedisConnection              // RedisConnectionException
    | Socket                       // SocketException
    | ObjectDisposed               // ObjectDisposedException
    | RedisServer                  // an error reply from the cache server (WRONGTYPE, invalid expire time)
    | SecurityToken                // token signature, issuer or lifetime rejected by the JWT handler
    | ClaimNotFound(claim: string) // RequiredTokenClaimNotFoundException
    | Format                       // FormatException (number or GUID text)
    | Overflow                     // OverflowException
    | ArgumentOutOfRange           // ArgumentOutOfRangeException
    | ArgumentNull                 // ArgumentNullException
    | Json                         // JsonException from the deserializer
    | TokenCache(cause: Fault)     // TokenCacheException, built from the message of `cause`
    | UserNotFound                 // UserNotFoundException
    | UserAlreadyExists(on: Clash) // UserAlreadyExistException, whose message names the clashing field
    | DuplicateKey                 // ArgumentException raised when a duplicate key is saved
    | Concurrency                  // DbUpdateConcurrencyException: the row to update or delete is gone
    | Database                     // a provider error while saving: a dropped connection, a command timeout
    | Broker                       // an exception from the message-broker client
  {
    /** The exceptions the cache layer treats as "the connection is broken". */
    predicate IsConnectionClass() {
      RedisConnection? || Socket? || ObjectDisposed?
    }
  }
}

=== FILE: guids.dfy ===
/** System.Guid, represented by its canonical text: the 36-character
    "D" format (8-4-4-4-12 lower-case hex digits) that `Guid.ToString()`
    produces and that the cache uses as a user's key. */
module Guids {
  import opened Wrappers

  predicate IsHyphenPosition(i: int) {
    i == 8 || i == 13 || i == 18 || i == 23
  }

  predicate IsLowerHex(c: char) {
    ('0' <= c <= '9') || ('a' <= c <= 'f')
  }

  predicate IsHex(c: char) {
    IsLowerHex(c) || ('A' <= c <= 'F')
  }

  /** Text in "D" format, hex digits in either case (what `Guid.Parse` accepts here). */
  predicate IsDFormat(s: string) {
    |s| == 36 &&
    forall i :: 0 <= i < |s| ==> if IsHyphenPosition(i) then s[i] == '-' else IsHex(s[i])
  }

  /** Text in the canonical form `Guid.ToString()` produces. */
  predicate IsCanonical(s: string) {
    |s| == 36 &&
    forall i :: 0 <= i < |s| ==> if IsHyphenPosition(i) then s[i] == '-' else IsLowerHex(s[i])
  }

  type Guid = s: string | IsCanonical(s) witness "00000000-0000-0000-0000-000000000000"

  /** Guid.Empty, the value of an unassigned Guid field. */
  const Empty: Guid := "00000000-0000-0000-0000-000000000000"

  function LowerChar(c: char): char {
    if 'A' <= c <= 'F' then (c as int - 'A' as int + 'a' as int) as char else c
  }

  /** `guid.ToString()`. */
  function ToString(g: Guid): string {
    g
  }

  /** `Guid.Parse(s)` / `new Guid(s)`: the value written by `s`, or nothing when
      `s` is not GUID text (the source throws FormatException there). */
  function Parse(s: string): (r: Option<Guid>)
    ensures r.Some? <==> IsDFormat(s)
    ensures r.Some? ==> forall i :: 0 <= i < |s| ==> r.value[i] == LowerChar(s[i])
  {
    if IsDFormat(s) then
      var t := seq(|s|, i requires 0 <= i < |s| => LowerChar(s[i]));
      assert IsCanonical(t) by {
        forall i | 0 <= i < |t|
          ensures if IsHyphenPosition(i) then t[i] == '-' else IsLowerHex(t[i])
        {
          assert IsHyphenPosition(i) ==> s[i] == '-';
          assert !IsHyphenPosition(i) ==> IsHex(s[i]);
        }
      }
      Some(t)
    else
      None
  }

  /** The text form of a Guid parses back to the same Guid, so a user id that
      travels as a string (a cache key, a token claim, an event payload) is
      recovered intact. */
  lemma ParseToString(g: Guid)
    ensures Parse(ToString(g)) == Some(g)
  {
    var s := ToString(g);
    assert IsDFormat(s) by {
      forall i | 0 <= i < |s|
        ensures if IsHyphenPosition(i) then s[i] == '-' else IsHex(s[i])
      {
        assert if IsHyphenPosition(i) then g[i] == '-' else IsLowerHex(g[i]);
      }
    }
    var r := Parse(s);
    assert r.value == g by {
      forall i | 0 <= i < |g|
        ensures r.value[i] == g[i]
      {
        assert if IsHyphenPosition(i) then g[i] == '-' else IsLowerHex(g[i]);
      }
    }
  }

  /** Two texts that differ only in the case of their hex digits name the same Guid. */
  lemma ParseIgnoresCase(s: string, t: string)
    requires |s| == |t|
    requires forall i :: 0 <= i < |s| ==> LowerChar(s[i]) == LowerChar(t[i])
    requires IsDFormat(s) && IsDFormat(t)
    ensures Parse(s) == Parse(t)
  {
    var a := Parse(s).value;
    var b := Parse(t).value;
    assert forall i :: 0 <= i < |a| ==> a[i] == b[i];
    assert a == b;
  }
}

=== FILE: inbox.dfy ===
/** The authentication service's inbox table (`InboxRepository`): received
    events keyed by `MessageId`, with a flag saying whether processing
    succeeded. Every write only stages a change for the next commit. */
module Inbox {
  import opened Wrappers
  import opened Faults
  import opened Guids
  import opened Tables

  datatype InboxMessage = InboxMessage(eventData: string, eventType: string, processed: bool, timeCreated: int)

  type Messages = Table<InboxMessage>

  /** `CreateMessage`: stage the insert and hand the message back. On a fresh
      unit of work the commit rejects a reused message id and otherwise
      appends the message, which is then pending exactly when it was created
      unprocessed. */
  function CreateMessage(t: Messages, m: Row<InboxMessage>): (r: (Messages, Row<InboxMessage>))
    ensures r.0.rows == t.rows && r.1 == m
    ensures t.staged == [] && HasKey(t.rows, m.id) ==> SaveChanges(r.0) == Failure(DuplicateKey)
    ensures t.staged == [] && !HasKey(t.rows, m.id) ==>
      SaveChanges(r.0) == Success(Table(t.rows + [m], [])) &&
      (m in GetUnProcessedMessages(SaveChanges(r.0).value) <==> !m.data.processed)
  {
    var r := (Insert(t, m), m);
    assert (t.rows + [m])[|t.rows|] == m;
    r
  }

  /** `DeleteMessage`: stage the delete. */
  function DeleteMessage(t: Messages, m: Row<InboxMessage>): (r: Messages)
    ensures r.rows == t.rows
    ensures t.staged == [] ==> (SaveChanges(r).Success? <==> HasKey(t.rows, m.id))
    ensures t.staged == [] && !HasKey(t.rows, m.id) ==> SaveChanges(r) == Failure(Concurrency)
    ensures t.staged == [] && SaveChanges(r).Success? ==> !HasKey(SaveChanges(r).value.rows, m.id)
  {
    Delete(t, m)
  }

  /** `UpdateMessage`: stage the replacement of the message with the same key. */
  function UpdateMessage(t: Messages, m: Row<InboxMessage>): (r: Messages)
    ensures r.rows == t.rows
    ensures t.staged == [] && !HasKey(t.rows, m.id) ==> SaveChanges(r) == Failure(Concurrency)
    ensures t.staged == [] && HasKey(t.rows, m.id) ==>
      SaveChanges(r).Success? && |SaveChanges(r).value.rows| == |t.rows| &&
      forall i :: 0 <= i < |t.rows| ==>
        SaveChanges(r).value.rows[i] == if t.rows[i].id == m.id then m else t.rows[i]
  {
    Modify(t, m)
  }

  /** `GetUnProcessedMessages`: exactly the committed messages whose
      processing has not succeeded. */
  function GetUnProcessedMessages(t: Messages): (r: seq<Row<InboxMessage>>)
    ensures forall i :: 0 <= i < |r| ==> r[i] in t.rows && !r[i].data.processed
    ensures forall i :: 0 <= i < |t.rows| && !t.rows[i].data.processed ==> t.rows[i] in r
  {
    Where(t.rows, (x: Row<InboxMessage>) => !x.data.processed)
  }
}

=== FILE: message_bus.dfy ===
/** The user service's broker client (`MessageBusClient`): two flags,
    `available` and `connecting`, decide whether `Publish` sends or asks for a
    reconnect; the connection and channel each are absent, open or closed.

    The background connect loop is not run here: a started connect is an
    output (`connectStarted`), and its success is the separate transition
    `OnConnected`. A failing `BasicPublish` is an input (`brokerFault`). */
module MessageBus {
  import opened Wrappers
  import opened Faults

  /** Exchange and routing key every event is published with. */
  const Exchange: string := "trigger"
  const RoutingKey: string := ""

  datatype Link = Absent | Open | Closed

  datatype Bus = Bus(connection: Link, channel: Link, available: bool, connecting: bool, handlerAttached: bool)

  /** A freshly constructed client: nothing open, neither flag set. */
  const Initial: Bus := Bus(Absent, Absent, false, false, false)

  /** One message handed to the broker. */
  datatype Delivery = Delivery(exchange: string, routingKey: string, persistent: bool, body: string)

  datatype Published = Published(bus: Bus, result: Result<bool, Fault>, connectStarted: bool, sent: Option<Delivery>)

  /** The flags never claim a usable link and a pending connect at once. */
  predicate FlagsConsistent(b: Bus) {
    !(b.available && b.connecting)
  }

  /** The reconnect guard shared by `Publish` and `SendMessage`: start one
      connect unless one is already under way. */
  function RequestConnect(b: Bus): (r: Published)
    requires !b.available
    ensures r.result == Success(false) && r.sent.None?
    ensures r.connectStarted <==> !b.connecting
    ensures r.bus.connecting && r.bus == b.(connecting := true)
  {
    Published(b.(connecting := true), Success(false), !b.connecting, None)
  }

  /** `SendMessage`: publish one persistent message on the channel. */
  function SendMessage(b: Bus, body: string, brokerFault: Option<Fault>): (r: Published)
    ensures !b.available ==> r == RequestConnect(b)
    ensures b.available ==> r.bus == b && !r.connectStarted
    ensures r.sent.Some? <==> b.available && b.channel == Open && brokerFault.None?
    ensures r.sent.Some? ==> r.sent.value == Delivery(Exchange, RoutingKey, true, body)
    ensures r.result == Success(true) <==> r.sent.Some?
    ensures r.result.Failure? <==> b.available && b.channel == Open && brokerFault.Some?
    ensures r.result.Failure? ==> r.result.error == brokerFault.value
  {
    if !b.available then RequestConnect(b)
    else if b.channel != Open then Published(b, Success(false), false, None)
    else match brokerFault
      case Some(f) => Published(b, Failure(f), false, None)
      case None => Published(b, Success(true), false, Some(Delivery(Exchange, RoutingKey, true, body)))
  }

  /** `Publish`: false (and at most one reconnect) while unavailable; otherwise
      send only over an open connection. */
  function Publish(b: Bus, body: string, brokerFault: Option<Fault>): (r: Published)
    ensures !b.available ==> r.result == Success(false) && r.sent.None? && r.bus == b.(connecting := true)
    ensures !b.available ==> (r.connectStarted <==> !b.connecting)
    ensures b.available ==> r.bus == b && !r.connectStarted
    ensures r.sent.Some? <==> b.available && b.connection == Open && b.channel == Open && brokerFault.None?
    ensures r.sent.Some? ==> r.sent.value == Delivery(Exchange, RoutingKey, true, body)
    ensures r.result == Success(true) <==> r.sent.Some?
    ensures r.result.Failure? ==> brokerFault.Some? && r.result.error == brokerFault.value
    // an exception from `BasicPublish` escapes the call
    ensures b.available && b.connection == Open && b.channel == Open && brokerFault.Some? ==>
      r.result == Failure(brokerFault.value)
  {
    if !b.available then RequestConnect(b)
    else if b.connection == Open then SendMessage(b, body, brokerFault)
    else Published(b, Success(false), false, None)
  }

  /** The end of a successful connect attempt: both links open, the shutdown
      handler attached, available and no longer connecting. */
  function OnConnected(b: Bus): (r: Bus)
    ensures r.available && !r.connecting && r.handlerAttached
    ensures r.connection == Open && r.channel == Open
    ensures FlagsConsistent(r)
  {
    Bus(Open, Open, true, false, true)
  }

  /** The broker closed the connection: the handler, when attached, clears
      both flags so that the next publish reconnects. */
  function OnConnectionShutdown(b: Bus): (r: Bus)
    ensures r.connection == Closed && r.channel == b.channel && r.handlerAttached == b.handlerAttached
    ensures b.handlerAttached ==> !r.available && !r.connecting
    ensures !b.handlerAttached ==> r.available == b.available && r.connecting == b.connecting
  {
    var closed := b.(connection := Closed);
    if b.handlerAttached then closed.(available := false, connecting := false) else closed
  }

  /** `DisposeChannelAndConnection`: close the channel, detach the handler and
      close the connection, then forget both. A close that throws is logged
      and skips the rest, so a channel closed before the connection's close
      threw stays behind, closed; the flags are never touched. */
  function DisposeChannelAndConnection(b: Bus, channelCloseFails: bool, connectionCloseFails: bool): (r: Bus)
    ensures r.available == b.available && r.connecting == b.connecting
    ensures b.connection != Absent && !(b.channel != Absent && channelCloseFails) ==> !r.handlerAttached
    ensures b.connection == Absent || (b.channel != Absent && channelCloseFails) ==> r.handlerAttached == b.handlerAttached
    // nothing throws: both links are forgotten
    ensures !(b.channel != Absent && channelCloseFails) && !(b.connection != Absent && connectionCloseFails) ==>
      r.connection == Absent && r.channel == Absent
    // the channel's close throws: both links stay as they were
    ensures b.channel != Absent && channelCloseFails ==>
      r.connection == b.connection && r.channel == b.channel
    // the channel closed, then the connection's close threw: the connection
    // stays, the channel is left closed
    ensures !(b.channel != Absent && channelCloseFails) && b.connection != Absent && connectionCloseFails ==>
      r.connection == b.connection && r.channel == (if b.channel == Absent then Absent else Closed)
  {
    if b.channel != Absent && channelCloseFails then b
    else
      var channelClosed := if b.channel != Absent then b.(channel := Closed) else b;
      var detached := if b.connection != Absent then channelClosed.(handlerAttached := false) else channelClosed;
      if b.connection != Absent && connectionCloseFails then detached
      else detached.(connection := Absent, channel := Absent)
  }

  /** Once a disposal has closed the channel, a publish on the client sends
      nothing, whatever the flags say: the closed channel is never reused. */
  lemma DisposedChannelSendsNothing(b: Bus, connectionCloseFails: bool, body: string, brokerFault: Option<Fault>)
    requires b.channel != Absent
    ensures var d := DisposeChannelAndConnection(b, false, connectionCloseFails);
      Publish(d, body, brokerFault).sent.None? && Publish(d, body, brokerFault).result != Success(true)
  {
  }

  /** Everything that can happen to the client, in the order it happens. */
  datatype Event =
    | PublishEvent(body: string, brokerFault: Option<Fault>)
    | Connected
    | Shutdown
    | ConnectAttemptFailed(channelCloseFails: bool, connectionCloseFails: bool)

  function Step(b: Bus, e: Event): Bus {
    match e
    case PublishEvent(body, f) => Publish(b, body, f).bus
    case Connected => OnConnected(b)
    case Shutdown => OnConnectionShutdown(b)
    case ConnectAttemptFailed(ch, co) => DisposeChannelAndConnection(b, ch, co)
  }

  function Run(b: Bus, es: seq<Event>): Bus
    decreases |es|
  {
    if |es| == 0 then b else Run(Step(b, es[0]), es[1..])
  }

  /** No sequence of events sets both flags at once. */
  lemma {:induction false} RunKeepsFlagsConsistent(b: Bus, es: seq<Event>)
    requires FlagsConsistent(b)
    ensures FlagsConsistent(Run(b, es))
    decreases |es|
  {
    if |es| > 0 {
      RunKeepsFlagsConsistent(Step(b, es[0]), es[1..]);
    }
  }

  /** Publishing a batch: the results, whether each started a connect, and
      what reached the broker. */
  function PublishAll(b: Bus, msgs: seq<(string, Option<Fault>)>): (r: (Bus, seq<Published>))
    ensures |r.1| == |msgs|
    decreases |msgs|
  {
    if |msgs| == 0 then (b, [])
    else
      var p := Publish(b, msgs[0].0, msgs[0].1);
      var rest := PublishAll(p.bus, msgs[1..]);
      (rest.0, [p] + rest.1)
  }

  /** While the client is unavailable, however many messages are published,
      every one returns false, nothing is sent, and at most one connect is
      started: by the first, and only when none was under way. */
  lemma {:induction false} UnavailablePublishesConnectOnce(b: Bus, msgs: seq<(string, Option<Fault>)>)
    requires !b.available
    ensures var r := PublishAll(b, msgs);
      && (forall i :: 0 <= i < |msgs| ==> r.1[i].result == Success(false) && r.1[i].sent.None?)
      && (forall i :: 0 <= i < |msgs| && r.1[i].connectStarted ==> i == 0 && !b.connecting)
      && (|msgs| > 0 ==> r.0 == b.(connecting := true))
    decreases |msgs|
  {
    if |msgs| > 0 {
      var p := Publish(b, msgs[0].0, msgs[0].1);
      UnavailablePublishesConnectOnce(p.bus, msgs[1..]);
    }
  }
}

=== FILE: outbox.dfy ===
/** The user service's outbox table (`OutboxRepository`): events waiting to be
    published to the broker, keyed by `MessageId`. Writes only stage changes;
    there is no delete, so a row once committed stays. */
module Outbox {
  import opened Wrappers
  import opened Faults
  import opened Guids
  import opened Tables

  datatype OutboxMessage = OutboxMessage(eventData: string, eventType: string, isSent: bool, timeCreated: int)

  type Messages = Table<OutboxMessage>

  /** The parameterless constructor: empty event, created `now`, not yet sent. */
  function Blank(now: int): OutboxMessage {
    OutboxMessage([], [], false, now)
  }

  /** `Create`: stage the insert and hand the message back. On a fresh unit
      of work the commit rejects a reused message id and otherwise appends the
      message, which then waits to be sent exactly when it is not marked sent. */
  function Create(t: Messages, m: Row<OutboxMessage>): (r: (Messages, Row<OutboxMessage>))
    ensures r.0.rows == t.rows && r.1 == m
    ensures t.staged == [] && HasKey(t.rows, m.id) ==> SaveChanges(r.0) == Failure(DuplicateKey)
    ensures t.staged == [] && !HasKey(t.rows, m.id) ==>
      SaveChanges(r.0) == Success(Table(t.rows + [m], [])) &&
      (m in GetUnsentMessages(SaveChanges(r.0).value) <==> !m.data.isSent)
  {
    var r := (Insert(t, m), m);
    assert (t.rows + [m])[|t.rows|] == m;
    r
  }

  /** `UpdateMessage`: stage the replacement of the message with the same key.
      On a fresh unit of work the commit fails for a vanished message;
      otherwise only that row changes, so every other message keeps its
      place among the unsent ones. */
  function UpdateMessage(t: Messages, m: Row<OutboxMessage>): (r: Messages)
    ensures r.rows == t.rows
    ensures t.staged == [] && !HasKey(t.rows, m.id) ==> SaveChanges(r) == Failure(Concurrency)
    ensures t.staged == [] && HasKey(t.rows, m.id) ==>
      SaveChanges(r).Success? && |SaveChanges(r).value.rows| == |t.rows| &&
      forall i :: 0 <= i < |t.rows| ==>
        SaveChanges(r).value.rows[i] == if t.rows[i].id == m.id then m else t.rows[i]
    ensures t.staged == [] && HasKey(t.rows, m.id) ==>
      forall i :: 0 <= i < |t.rows| && t.rows[i].id != m.id && !t.rows[i].data.isSent ==>
        t.rows[i] in GetUnsentMessages(SaveChanges(r).value)
  {
    Modify(t, m)
  }

  /** `GetUnsentMessages`: exactly the committed messages not yet sent, in
      table order. */
  function GetUnsentMessages(t: Messages): (r: seq<Row<OutboxMessage>>)
    ensures forall i :: 0 <= i < |r| ==> r[i] in t.rows && !r[i].data.isSent
    ensures forall i :: 0 <= i < |t.rows| && !t.rows[i].data.isSent ==> t.rows[i] in r
    ensures |r| <= |t.rows|
  {
    Where(t.rows, (x: Row<OutboxMessage>) => !x.data.isSent)
  }

  /** A newly constructed message, once committed, is waiting to be sent. */
  lemma NewMessageIsUnsent(t: Messages, id: Guid, now: int)
    requires t.staged == [] && !HasKey(t.rows, id)
    ensures SaveChanges(Create(t, Row(id, Blank(now))).0).Success?
    ensures Row(id, Blank(now)) in GetUnsentMessages(SaveChanges(Create(t, Row(id, Blank(now))).0).value)
  {
    var rows' := t.rows + [Row(id, Blank(now))];
    assert rows'[|t.rows|] == Row(id, Blank(now));
  }

  /** With no delete operation, a committed update keeps every key in place. */
  lemma UpdateKeepsEveryKey(t: Messages, m: Row<OutboxMessage>)
    requires t.staged == [] && SaveChanges(UpdateMessage(t, m)).Success?
    ensures forall i :: 0 <= i < |t.rows| ==>
      HasKey(SaveChanges(UpdateMessage(t, m)).value.rows, t.rows[i].id)
  {
    var rows' := SaveChanges(UpdateMessage(t, m)).value.rows;
    forall i | 0 <= i < |t.rows|
      ensures HasKey(rows', t.rows[i].id)
    {
      assert rows'[i].id == t.rows[i].id;
    }
  }
}

=== FILE: outbox_processor.dfy ===
/** One pass of the user service's outbox publisher (`OutboxProcessorService`)
    and the loop that repeats it until cancellation. A pass reads the unsent
    rows, orders them by creation time, publishes each in turn, and after a
    true publish sets the row's sent flag and commits. A failed or throwing
    publish, and a commit that throws, is logged and the pass goes on; a row
    whose flag was not committed is published again by the next pass, so
    delivery is at least once. */
module OutboxProcessor {
  import opened Wrappers
  import opened Faults
  import opened Guids
  import opened Tables
  import opened Outbox
  import MessageBus

  type OutboxRow = Row<OutboxMessage>

  predicate SortedByTime(s: seq<OutboxRow>) {
    forall i, j :: 0 <= i < j < |s| ==> s[i].data.timeCreated <= s[j].data.timeCreated
  }

  /** Put `x` before the first row created no earlier than it. */
  function InsertByTime(x: OutboxRow, s: seq<OutboxRow>): (r: seq<OutboxRow>)
    ensures |r| == |s| + 1
    ensures r[0] == x || (|s| > 0 && r[0] == s[0])
    decreases |s|
  {
    if |s| == 0 || x.data.timeCreated <= s[0].data.timeCreated then [x] + s
    else [s[0]] + InsertByTime(x, s[1..])
  }

  /** Inserting into a sorted sequence keeps it sorted. */
  lemma {:induction false} InsertSorted(x: OutboxRow, s: seq<OutboxRow>)
    requires SortedByTime(s)
    ensures SortedByTime(InsertByTime(x, s))
    decreases |s|
  {
    if !(|s| == 0 || x.data.timeCreated <= s[0].data.timeCreated) {
      var rest := InsertByTime(x, s[1..]);
      InsertSorted(x, s[1..]);
      var r := [s[0]] + rest;
      assert InsertByTime(x, s) == r;
      forall i, j | 0 <= i < j < |r|
        ensures r[i].data.timeCreated <= r[j].data.timeCreated
      {
        assert r[j] == rest[j - 1];
        if i == 0 {
          assert s[0].data.timeCreated <= rest[0].data.timeCreated;
        } else {
          assert r[i] == rest[i - 1];
        }
      }
    }
  }

  /** Inserting adds exactly `x` to the rows. */
  lemma {:induction false} InsertPermutes(x: OutboxRow, s: seq<OutboxRow>)
    ensures multiset(InsertByTime(x, s)) == multiset(s) + multiset{x}
    decreases |s|
  {
    if !(|s| == 0 || x.data.timeCreated <= s[0].data.timeCreated) {
      InsertPermutes(x, s[1..]);
      assert s == [s[0]] + s[1..];
    }
  }

  /** Inserting the first row into a sorting of the others sorts them all. */
  lemma {:induction false} SortStep(s: seq<OutboxRow>, rest: seq<OutboxRow>)
    requires |s| > 0 && SortedByTime(rest) && multiset(rest) == multiset(s[1..])
    ensures SortedByTime(InsertByTime(s[0], rest))
    ensures multiset(InsertByTime(s[0], rest)) == multiset(s)
  {
    InsertSorted(s[0], rest);
    InsertPermutes(s[0], rest);
    assert s == [s[0]] + s[1..];
    assert multiset(s) == multiset(s[1..]) + multiset{s[0]};
  }

  /** `OrderBy(m => m.TimeCreated)`: the same rows, in non-decreasing
      creation time. */
  function SortByTime(s: seq<OutboxRow>): (r: seq<OutboxRow>)
    ensures |r| == |s|
    ensures SortedByTime(r)
    ensures multiset(r) == multiset(s)
    decreases |s|
  {
    if |s| == 0 then []
    else
      var rest := SortByTime(s[1..]);
      SortStep(s, rest);
      InsertByTime(s[0], rest)
  }

  lemma {:induction false} PermutationMembers(r: seq<OutboxRow>, s: seq<OutboxRow>)
    requires multiset(r) == multiset(s)
    ensures forall k :: 0 <= k < |r| ==> r[k] in s
  {
    forall k | 0 <= k < |r|
      ensures r[k] in s
    {
      assert r[k] in multiset(r);
    }
  }

  /** A key that neither `x` nor any row of `s` has is absent from the insertion. */
  lemma {:induction false} InsertAvoids(x: OutboxRow, s: seq<OutboxRow>, y: Guid)
    requires x.id != y
    requires forall k :: 0 <= k < |s| ==> s[k].id != y
    ensures forall k :: 0 <= k < |InsertByTime(x, s)| ==> InsertByTime(x, s)[k].id != y
    decreases |s|
  {
    if !(|s| == 0 || x.data.timeCreated <= s[0].data.timeCreated) {
      InsertAvoids(x, s[1..], y);
      var rest := InsertByTime(x, s[1..]);
      assert InsertByTime(x, s) == [s[0]] + rest;
      forall k | 0 < k < |rest| + 1
        ensures ([s[0]] + rest)[k].id != y
      {
        assert ([s[0]] + rest)[k] == rest[k - 1];
      }
    }
  }

  /** A row whose key is new to `rest` keeps the keys unique when put in front. */
  lemma {:induction false} ConsKeysUnique(h: OutboxRow, rest: seq<OutboxRow>)
    requires KeysUnique(rest)
    requires forall k :: 0 <= k < |rest| ==> rest[k].id != h.id
    ensures KeysUnique([h] + rest)
  {
    var r := [h] + rest;
    forall i, j | 0 <= i < j < |r|
      ensures r[i].id != r[j].id
    {
      assert r[j] == rest[j - 1];
      if i > 0 {
        assert r[i] == rest[i - 1];
      }
    }
  }

  lemma {:induction false} InsertKeepsKeysUnique(x: OutboxRow, s: seq<OutboxRow>)
    requires KeysUnique(s)
    requires forall k :: 0 <= k < |s| ==> s[k].id != x.id
    ensures KeysUnique(InsertByTime(x, s))
    decreases |s|
  {
    if !(|s| == 0 || x.data.timeCreated <= s[0].data.timeCreated) {
      var tail := s[1..];
      var rest := InsertByTime(x, tail);
      InsertKeepsKeysUnique(x, tail);
      assert forall k :: 0 <= k < |tail| ==> tail[k] == s[k + 1];
      InsertAvoids(x, tail, s[0].id);
      ConsKeysUnique(s[0], rest);
    }
  }

  /** Sorting keeps the rows, so it keeps their keys unique. */
  lemma {:induction false} SortKeepsKeysUnique(s: seq<OutboxRow>)
    requires KeysUnique(s)
    ensures KeysUnique(SortByTime(s))
    decreases |s|
  {
    if |s| > 0 {
      var rest := SortByTime(s[1..]);
      SortKeepsKeysUnique(s[1..]);
      PermutationMembers(rest, s[1..]);
      InsertKeepsKeysUnique(s[0], rest);
    }
  }

  /** The committed rows with the rows keyed in `ids` flagged as sent; every
      other column, and every other row, is as it was. */
  function MarkSent(rows: seq<OutboxRow>, ids: set<Guid>): (r: seq<OutboxRow>)
    ensures |r| == |rows|
    ensures forall i :: 0 <= i < |rows| ==>
      && r[i].id == rows[i].id
      && r[i].data.eventData == rows[i].data.eventData
      && r[i].data.eventType == rows[i].data.eventType
      && r[i].data.timeCreated == rows[i].data.timeCreated
    ensures forall i :: 0 <= i < |rows| ==> r[i].data.isSent == (rows[i].data.isSent || rows[i].id in ids)
  {
    seq(|rows|, i requires 0 <= i < |rows| =>
      if rows[i].id in ids then Row(rows[i].id, rows[i].data.(isSent := true)) else rows[i])
  }

  /** What one publish attempt did: the row, what `Publish` returned, what
      reached the broker, and whether the commit that followed a true
      publish went through. */
  datatype Attempt = Attempt(row: OutboxRow, result: Result<bool, Fault>, sent: Option<MessageBus.Delivery>, saved: bool)

  /** A row with its sent flag set: what a true publish stages. */
  function Flagged(m: OutboxRow): OutboxRow {
    Row(m.id, m.data.(isSent := true))
  }

  /** The staged updates that flag each row of `ps`, in order. */
  function FlagChanges(ps: seq<OutboxRow>): (cs: seq<Change<OutboxMessage>>)
    ensures |cs| == |ps|
    ensures forall i :: 0 <= i < |ps| ==> cs[i] == Updated(Flagged(ps[i]))
  {
    seq(|ps|, i requires 0 <= i < |ps| => Updated(Flagged(ps[i])))
  }

  /** The keys of the rows of `ps`. */
  function KeysOf(ps: seq<OutboxRow>): set<Guid> {
    set k | 0 <= k < |ps| :: ps[k].id
  }

  /** A true publish followed by a commit that went through. */
  predicate Commits(a: Attempt) {
    a.result == Success(true) && a.saved
  }

  /** The rows a tick has flagged but not yet committed: the true publishes
      since the last commit that went through. */
  function Pending(attempts: seq<Attempt>): seq<OutboxRow>
    decreases |attempts|
  {
    if |attempts| == 0 then []
    else
      var last := attempts[|attempts| - 1];
      var before := Pending(attempts[..|attempts| - 1]);
      if last.result != Success(true) then before
      else if last.saved then []
      else before + [last.row]
  }

  /** The keys whose sent flag a tick has committed. A commit that goes
      through writes every flag staged so far in the tick: its own, and
      those whose own commits threw. */
  function Saved(attempts: seq<Attempt>): set<Guid>
    decreases |attempts|
  {
    if |attempts| == 0 then {}
    else
      var last := attempts[|attempts| - 1];
      var init := attempts[..|attempts| - 1];
      if Commits(last) then Saved(init) + KeysOf(Pending(init)) + {last.row.id} else Saved(init)
  }

  lemma {:induction false} SavedAppend(attempts: seq<Attempt>, a: Attempt)
    ensures Pending(attempts + [a]) ==
      if a.result != Success(true) then Pending(attempts) else if a.saved then [] else Pending(attempts) + [a.row]
    ensures Saved(attempts + [a]) ==
      if Commits(a) then Saved(attempts) + KeysOf(Pending(attempts)) + {a.row.id} else Saved(attempts)
  {
    assert (attempts + [a])[..|attempts|] == attempts;
  }

  lemma {:induction false} KeysOfSnoc(ps: seq<OutboxRow>, r: OutboxRow)
    ensures KeysOf(ps + [r]) == KeysOf(ps) + {r.id}
  {
    var qs := ps + [r];
    forall id | id in KeysOf(qs)
      ensures id in KeysOf(ps) + {r.id}
    {
      var k :| 0 <= k < |qs| && qs[k].id == id;
      if k < |ps| {
        assert ps[k] == qs[k];
      }
    }
    forall id | id in KeysOf(ps)
      ensures id in KeysOf(qs)
    {
      var k :| 0 <= k < |ps| && ps[k].id == id;
      assert qs[k] == ps[k];
    }
    assert qs[|ps|] == r;
  }

  lemma {:induction false} KeysOfCons(ps: seq<OutboxRow>)
    requires |ps| > 0
    ensures KeysOf(ps) == {ps[0].id} + KeysOf(ps[1..])
  {
    assert ps == [ps[0]] + ps[1..];
    forall id | id in KeysOf(ps)
      ensures id in {ps[0].id} + KeysOf(ps[1..])
    {
      var k :| 0 <= k < |ps| && ps[k].id == id;
      if k > 0 {
        assert ps[1..][k - 1] == ps[k];
      }
    }
    forall id | id in KeysOf(ps[1..])
      ensures id in KeysOf(ps)
    {
      var k :| 0 <= k < |ps[1..]| && ps[1..][k].id == id;
      assert ps[k + 1] == ps[1..][k];
    }
  }

  /** Some true publish of `id` is followed, at that attempt or a later one,
      by a commit that goes through. */
  ghost predicate CommittedIn(attempts: seq<Attempt>, id: Guid) {
    exists i, j :: 0 <= i <= j < |attempts| && attempts[i].row.id == id && attempts[i].result == Success(true) &&
      Commits(attempts[j])
  }

  /** Some true publish of `id` is followed by no commit that goes through. */
  ghost predicate PendingIn(attempts: seq<Attempt>, id: Guid) {
    exists i :: 0 <= i < |attempts| && attempts[i].row.id == id && attempts[i].result == Success(true) &&
      forall j :: i <= j < |attempts| ==> !Commits(attempts[j])
  }

  /** The attempts of `init + [last]` before the last are those of `init`. */
  lemma {:induction false} SnocFacts(init: seq<Attempt>, last: Attempt)
    ensures |init + [last]| == |init| + 1
    ensures forall i :: 0 <= i < |init| ==> (init + [last])[i] == init[i]
    ensures (init + [last])[|init|] == last
    ensures Pending(init + [last]) ==
      if last.result != Success(true) then Pending(init) else if last.saved then [] else Pending(init) + [last.row]
    ensures Saved(init + [last]) ==
      if Commits(last) then Saved(init) + KeysOf(Pending(init)) + {last.row.id} else Saved(init)
    ensures KeysOf(Pending(init) + [last.row]) == KeysOf(Pending(init)) + {last.row.id}
    ensures KeysOf([]) == {}
  {
    SavedAppend(init, last);
    KeysOfSnoc(Pending(init), last.row);
    assert KeysOf([]) == {};
  }

  /** A commit witnessed in `init` is still witnessed with one more attempt. */
  lemma {:induction false} CommittedInSnoc(init: seq<Attempt>, last: Attempt, id: Guid)
    requires CommittedIn(init, id)
    ensures CommittedIn(init + [last], id)
  {
    SnocFacts(init, last);
    var a := init + [last];
    var i, j :| 0 <= i <= j < |init| && init[i].row.id == id && init[i].result == Success(true) && Commits(init[j]);
    assert a[i].row.id == id && a[i].result == Success(true) && Commits(a[j]);
  }

  /** A key committed by the tick so far, or staged and then committed by
      `last`, or committed by `last` itself, is witnessed as committed. */
  lemma {:induction false} SavedStepSound(init: seq<Attempt>, last: Attempt, id: Guid)
    requires id in Saved(init) ==> CommittedIn(init, id)
    requires id in KeysOf(Pending(init)) ==> PendingIn(init, id)
    requires id in Saved(init + [last])
    ensures CommittedIn(init + [last], id)
  {
    SnocFacts(init, last);
    var a := init + [last];
    var n := |init|;
    if id in Saved(init) {
      CommittedInSnoc(init, last, id);
    } else if id in KeysOf(Pending(init)) {
      var i :| 0 <= i < n && init[i].row.id == id && init[i].result == Success(true) &&
        forall j :: i <= j < n ==> !Commits(init[j]);
      assert a[i].row.id == id && a[i].result == Success(true) && Commits(a[n]);
    } else {
      assert a[n].row.id == id && a[n].result == Success(true) && Commits(a[n]);
    }
  }

  /** A key witnessed as committed with one more attempt is in `Saved`. */
  lemma {:induction false} SavedStepComplete(init: seq<Attempt>, last: Attempt, id: Guid)
    requires CommittedIn(init, id) ==> id in Saved(init)
    requires PendingIn(init, id) ==> id in KeysOf(Pending(init))
    requires CommittedIn(init + [last], id)
    ensures id in Saved(init + [last])
  {
    SnocFacts(init, last);
    var a := init + [last];
    var n := |init|;
    var i, j :| 0 <= i <= j < |a| && a[i].row.id == id && a[i].result == Success(true) && Commits(a[j]);
    if j < n {
      assert init[i].row.id == id && init[i].result == Success(true) && Commits(init[j]);
    } else if i < n && !CommittedIn(init, id) {
      forall j' | i <= j' < n
        ensures !Commits(init[j'])
      {
      }
      assert init[i].row.id == id && init[i].result == Success(true);
    }
  }

  /** A key still staged after one more attempt is witnessed as pending. */
  lemma {:induction false} PendingStepSound(init: seq<Attempt>, last: Attempt, id: Guid)
    requires id in KeysOf(Pending(init)) ==> PendingIn(init, id)
    requires id in KeysOf(Pending(init + [last]))
    ensures PendingIn(init + [last], id)
  {
    SnocFacts(init, last);
    var a := init + [last];
    var n := |init|;
    if id in KeysOf(Pending(init)) && !(Commits(last)) {
      var i :| 0 <= i < n && init[i].row.id == id && init[i].result == Success(true) &&
        forall j :: i <= j < n ==> !Commits(init[j]);
      assert a[i].row.id == id && a[i].result == Success(true) &&
        forall j :: i <= j < |a| ==> !Commits(a[j]);
    } else {
      assert a[n].row.id == id && a[n].result == Success(true) &&
        forall j :: n <= j < |a| ==> !Commits(a[j]);
    }
  }

  /** A key witnessed as pending after one more attempt is still staged. */
  lemma {:induction false} PendingStepComplete(init: seq<Attempt>, last: Attempt, id: Guid)
    requires PendingIn(init, id) ==> id in KeysOf(Pending(init))
    requires PendingIn(init + [last], id)
    ensures id in KeysOf(Pending(init + [last]))
  {
    SnocFacts(init, last);
    var a := init + [last];
    var n := |init|;
    var i :| 0 <= i < |a| && a[i].row.id == id && a[i].result == Success(true) &&
      forall j :: i <= j < |a| ==> !Commits(a[j]);
    assert !Commits(a[n]);
    if i < n {
      assert init[i].row.id == id && init[i].result == Success(true) &&
        forall j :: i <= j < n ==> !Commits(init[j]);
    }
  }

  /** A key is committed by a tick exactly when a true publish of it is
      followed, at that attempt or a later one, by a commit that goes
      through; its flag is still staged exactly when no commit went through
      from that publish on. */
  lemma {:induction false} SavedMeans(attempts: seq<Attempt>, id: Guid)
    ensures id in Saved(attempts) <==> CommittedIn(attempts, id)
    ensures id in KeysOf(Pending(attempts)) <==> PendingIn(attempts, id)
    decreases |attempts|
  {
    if |attempts| == 0 {
      assert KeysOf(Pending(attempts)) == {};
    } else {
      var n := |attempts| - 1;
      var init := attempts[..n];
      SavedMeans(init, id);
      assert init + [attempts[n]] == attempts;
      if id in Saved(attempts) {
        SavedStepSound(init, attempts[n], id);
      }
      if CommittedIn(attempts, id) {
        SavedStepComplete(init, attempts[n], id);
      }
      if id in KeysOf(Pending(attempts)) {
        PendingStepSound(init, attempts[n], id);
      }
      if PendingIn(attempts, id) {
        PendingStepComplete(init, attempts[n], id);
      }
    }
  }

  lemma {:induction false} MarkSentStep(rows: seq<OutboxRow>, ids: set<Guid>, m: OutboxRow)
    requires KeysUnique(rows) && m in rows
    ensures Replace(MarkSent(rows, ids), Flagged(m)) == MarkSent(rows, ids + {m.id})
  {
    var k :| 0 <= k < |rows| && rows[k] == m;
    var a := Replace(MarkSent(rows, ids), Flagged(m));
    var b := MarkSent(rows, ids + {m.id});
    forall i | 0 <= i < |rows|
      ensures a[i] == b[i]
    {
      if rows[i].id == m.id {
        assert i == k;
      }
    }
  }

  /** Applying the flag updates of rows of the table marks exactly their keys. */
  lemma {:induction false} ApplyFlags(rows: seq<OutboxRow>, ids: set<Guid>, ps: seq<OutboxRow>)
    requires KeysUnique(rows)
    requires forall k :: 0 <= k < |ps| ==> ps[k] in rows
    ensures ApplyAll(MarkSent(rows, ids), FlagChanges(ps)) == Success(MarkSent(rows, ids + KeysOf(ps)))
    decreases |ps|
  {
    if |ps| == 0 {
      assert KeysOf(ps) == {};
      assert ids + KeysOf(ps) == ids;
      assert FlagChanges(ps) == [];
    } else {
      var m := ps[0];
      var q :| 0 <= q < |rows| && rows[q] == m;
      assert MarkSent(rows, ids)[q].id == m.id;
      MarkSentStep(rows, ids, m);
      assert FlagChanges(ps)[1..] == FlagChanges(ps[1..]);
      assert forall k :: 0 <= k < |ps[1..]| ==> ps[1..][k] == ps[k + 1];
      ApplyFlags(rows, ids + {m.id}, ps[1..]);
      KeysOfCons(ps);
      assert ids + {m.id} + KeysOf(ps[1..]) == ids + KeysOf(ps);
    }
  }

  /** The order a tick publishes in: every unsent row, each once, none
      other, oldest first. */
  lemma {:induction false} TickOrder(db: Messages)
    ensures var ordered := SortByTime(GetUnsentMessages(db));
      && SortedByTime(ordered)
      && (forall i :: 0 <= i < |ordered| ==> ordered[i] in db.rows && !ordered[i].data.isSent)
      && (forall i :: 0 <= i < |db.rows| && !db.rows[i].data.isSent ==> db.rows[i] in ordered)
      && (KeysUnique(db.rows) ==> KeysUnique(ordered))
  {
    var unsent := GetUnsentMessages(db);
    var ordered := SortByTime(unsent);
    PermutationMembers(ordered, unsent);
    PermutationMembers(unsent, ordered);
    if KeysUnique(db.rows) {
      WhereKeysUnique(db.rows, (x: OutboxRow) => !x.data.isSent);
      SortKeepsKeysUnique(unsent);
    }
  }

  /** Marking rows sent keeps their keys, so it keeps them unique. */
  lemma {:induction false} MarkSentKeepsKeysUnique(rows: seq<OutboxRow>, ids: set<Guid>)
    requires KeysUnique(rows)
    ensures KeysUnique(MarkSent(rows, ids))
  {
  }

  /** One iteration of the tick: publish the row; on a true publish set its
      sent flag and commit. `dbFault` says which rows' commits throw; such a
      commit is caught like a failed publish, and its change stays staged. */
  function PublishRow(db: Messages, bus: MessageBus.Bus, m: OutboxRow, body: OutboxMessage -> string,
                      brokerFault: Guid -> Option<Fault>, dbFault: Guid -> Option<Fault>)
    : (r: (Messages, MessageBus.Bus, Attempt))
    ensures r.2.row == m
    ensures r.2.result == Success(true) <==> r.2.sent.Some?
    ensures r.2.sent.Some? ==>
      r.2.sent.value == MessageBus.Delivery(MessageBus.Exchange, MessageBus.RoutingKey, true, body(m.data))
    // nothing is staged or committed unless the publish returned true
    ensures r.2.result != Success(true) ==> r.0 == db && !r.2.saved
    // a true publish stages the flag, and a commit that throws leaves it staged
    ensures r.2.result == Success(true) && !r.2.saved ==> r.0 == Stage(db, Updated(Flagged(m)))
    ensures r.2.saved ==> r.0.staged == []
    ensures dbFault(m.id).Some? ==> !r.2.saved
  {
    var p := MessageBus.Publish(bus, body(m.data), brokerFault(m.id));
    if p.result != Success(true) then (db, p.bus, Attempt(m, p.result, p.sent, false))
    else
      var staged := UpdateMessage(db, Flagged(m));
      match SaveChangesOrFault(staged, dbFault(m.id))
      case Success(saved) => (saved, p.bus, Attempt(m, p.result, p.sent, true))
      case Failure(_) => (staged, p.bus, Attempt(m, p.result, p.sent, false))
  }

  /** Staging one more flag on a unit of work that flags `pending`. */
  lemma {:induction false} StageFlag(rows: seq<OutboxRow>, ids: set<Guid>, pending: seq<OutboxRow>, m: OutboxRow)
    ensures UpdateMessage(Table(MarkSent(rows, ids), FlagChanges(pending)), Flagged(m)) ==
      Table(MarkSent(rows, ids), FlagChanges(pending + [m]))
  {
    assert FlagChanges(pending) + [Updated(Flagged(m))] == FlagChanges(pending + [m]);
  }

  /** Committing the staged flags of rows of the table marks exactly their keys. */
  lemma {:induction false} CommitFlags(rows: seq<OutboxRow>, ids: set<Guid>, ps: seq<OutboxRow>)
    requires KeysUnique(rows)
    requires forall k :: 0 <= k < |ps| ==> ps[k] in rows
    ensures SaveChanges(Table(MarkSent(rows, ids), FlagChanges(ps))) == Success(Table(MarkSent(rows, ids + KeysOf(ps)), []))
  {
    ApplyFlags(rows, ids, ps);
  }

  /** On a unit of work whose committed rows carry the marks `ids` and whose
      staged changes flag `pending`: a true publish whose commit goes
      through writes every staged flag and its own; one whose commit throws
      adds its flag to the staged ones; any other publish changes nothing. */
  lemma {:induction false} PublishRowMarks(rows: seq<OutboxRow>, ids: set<Guid>, pending: seq<OutboxRow>, bus: MessageBus.Bus,
                        m: OutboxRow, body: OutboxMessage -> string,
                        brokerFault: Guid -> Option<Fault>, dbFault: Guid -> Option<Fault>)
    requires KeysUnique(rows) && m in rows
    requires forall k :: 0 <= k < |pending| ==> pending[k] in rows
    ensures var r := PublishRow(Table(MarkSent(rows, ids), FlagChanges(pending)), bus, m, body, brokerFault, dbFault);
      && (r.2.saved <==> r.2.result == Success(true) && dbFault(m.id).None?)
      && (r.2.saved ==> r.0 == Table(MarkSent(rows, ids + KeysOf(pending) + {m.id}), []))
      && (r.2.result == Success(true) && !r.2.saved ==> r.0 == Table(MarkSent(rows, ids), FlagChanges(pending + [m])))
      && (r.2.result != Success(true) ==> r.0 == Table(MarkSent(rows, ids), FlagChanges(pending)))
  {
    var db := Table(MarkSent(rows, ids), FlagChanges(pending));
    var p := MessageBus.Publish(bus, body(m.data), brokerFault(m.id));
    if p.result == Success(true) {
      var ps := pending + [m];
      StageFlag(rows, ids, pending, m);
      var staged := UpdateMessage(db, Flagged(m));
      assert staged == Table(MarkSent(rows, ids), FlagChanges(ps));
      if dbFault(m.id).None? {
        assert forall k :: 0 <= k < |ps| ==> ps[k] in rows;
        CommitFlags(rows, ids, ps);
        KeysOfSnoc(pending, m);
        var marks := ids + KeysOf(ps);
        assert marks == ids + KeysOf(pending) + {m.id};
        assert SaveChanges(staged) == Success(Table(MarkSent(rows, marks), []));
      }
    }
  }

  /** `PublishRowMarks` in the terms of the attempts so far: after one more
      attempt the table carries the committed flags of all of them and
      stages the rest. */
  lemma {:induction false} PublishStep(rows: seq<OutboxRow>, attempts: seq<Attempt>, bus: MessageBus.Bus,
                                       m: OutboxRow, body: OutboxMessage -> string,
                                       brokerFault: Guid -> Option<Fault>, dbFault: Guid -> Option<Fault>)
    requires KeysUnique(rows) && m in rows
    requires forall k :: 0 <= k < |Pending(attempts)| ==> Pending(attempts)[k] in rows
    ensures var r := PublishRow(Table(MarkSent(rows, Saved(attempts)), FlagChanges(Pending(attempts))), bus, m, body,
                                brokerFault, dbFault);
      var after := attempts + [r.2];
      && (r.2.saved <==> r.2.result == Success(true) && dbFault(m.id).None?)
      && (forall k :: 0 <= k < |Pending(after)| ==> Pending(after)[k] in rows)
      && r.0 == Table(MarkSent(rows, Saved(after)), FlagChanges(Pending(after)))
  {
    var pending := Pending(attempts);
    PublishRowMarks(rows, Saved(attempts), pending, bus, m, body, brokerFault, dbFault);
    var r := PublishRow(Table(MarkSent(rows, Saved(attempts)), FlagChanges(pending)), bus, m, body, brokerFault, dbFault);
    SavedAppend(attempts, r.2);
    if r.2.result == Success(true) && !r.2.saved {
      var ps := pending + [m];
      assert Pending(attempts + [r.2]) == ps;
      assert forall k :: 0 <= k < |ps| ==> ps[k] in rows by {
        forall k | 0 <= k < |ps|
          ensures ps[k] in rows
        {
          if k < |pending| {
            assert ps[k] == pending[k];
          }
        }
      }
    }
  }

  /** What one attempt records, as `PublishRow` makes it: the broker got the
      row's event exactly when the publish returned true, and the commit went
      through exactly when the publish returned true and the database did
      not fail. */
  predicate Recorded(a: Attempt, body: OutboxMessage -> string, dbFault: Guid -> Option<Fault>) {
    && (a.result == Success(true) <==> a.sent.Some?)
    && (a.sent.Some? ==> a.sent.value == MessageBus.Delivery(MessageBus.Exchange, MessageBus.RoutingKey, true, body(a.row.data)))
    && (a.saved <==> a.result == Success(true) && dbFault(a.row.id).None?)
  }

  /** Publish `ordered` in turn against a fresh unit of work over `db`. */
  method PublishInOrder(db: Messages, bus: MessageBus.Bus, ordered: seq<OutboxRow>, body: OutboxMessage -> string,
                        brokerFault: Guid -> Option<Fault>, dbFault: Guid -> Option<Fault>)
    returns (db': Messages, bus': MessageBus.Bus, attempts: seq<Attempt>)
    requires db.staged == [] && KeysUnique(db.rows)
    requires forall k :: 0 <= k < |ordered| ==> ordered[k] in db.rows
    ensures |attempts| == |ordered|
    ensures forall i :: 0 <= i < |attempts| ==> attempts[i].row == ordered[i]
    ensures forall i :: 0 <= i < |attempts| ==> (attempts[i].result == Success(true) <==> attempts[i].sent.Some?)
    ensures forall i :: 0 <= i < |attempts| && attempts[i].sent.Some? ==>
      attempts[i].sent.value == MessageBus.Delivery(MessageBus.Exchange, MessageBus.RoutingKey, true, body(attempts[i].row.data))
    ensures forall i :: 0 <= i < |attempts| ==>
      (attempts[i].saved <==> attempts[i].result == Success(true) && dbFault(attempts[i].row.id).None?)
    ensures db' == Table(MarkSent(db.rows, Saved(attempts)), FlagChanges(Pending(attempts)))
  {
    db', bus', attempts := db, bus, [];
    assert MarkSent(db.rows, {}) == db.rows;
    var i := 0;
    while i < |ordered|
      invariant 0 <= i <= |ordered|
      invariant |attempts| == i
      invariant forall k :: 0 <= k < i ==> attempts[k].row == ordered[k] && Recorded(attempts[k], body, dbFault)
      invariant forall k :: 0 <= k < |Pending(attempts)| ==> Pending(attempts)[k] in db.rows
      invariant db' == Table(MarkSent(db.rows, Saved(attempts)), FlagChanges(Pending(attempts)))
    {
      var m := ordered[i];
      PublishStep(db.rows, attempts, bus', m, body, brokerFault, dbFault);
      var step := PublishRow(db', bus', m, body, brokerFault, dbFault);
      assert step.2.row == m && Recorded(step.2, body, dbFault);
      db', bus' := step.0, step.1;
      attempts := attempts + [step.2];
      assert attempts[i] == step.2;
      i := i + 1;
    }
  }

  /** One tick of `ExecuteAsync`, on a fresh unit of work: the unsent rows,
      oldest first, each published once. `body` serializes a row into the
      event the broker receives; `brokerFault` says which rows'
      `BasicPublish` throws and `dbFault` which rows' commits throw. A flag
      reaches the table when its own commit or a later one in the tick goes
      through; the flags staged after the last such commit are what the
      unit of work still holds when the tick ends. */
  method DrainTick(db: Messages, bus: MessageBus.Bus, body: OutboxMessage -> string,
                   brokerFault: Guid -> Option<Fault>, dbFault: Guid -> Option<Fault>)
    returns (db': Messages, bus': MessageBus.Bus, attempts: seq<Attempt>)
    requires db.staged == [] && KeysUnique(db.rows)
    ensures |attempts| == |SortByTime(GetUnsentMessages(db))|
    ensures forall i :: 0 <= i < |attempts| ==> attempts[i].row == SortByTime(GetUnsentMessages(db))[i]
    ensures forall i :: 0 <= i < |attempts| ==> (attempts[i].result == Success(true) <==> attempts[i].sent.Some?)
    ensures forall i :: 0 <= i < |attempts| && attempts[i].sent.Some? ==>
      attempts[i].sent.value == MessageBus.Delivery(MessageBus.Exchange, MessageBus.RoutingKey, true, body(attempts[i].row.data))
    ensures forall i :: 0 <= i < |attempts| ==>
      (attempts[i].saved <==> attempts[i].result == Success(true) && dbFault(attempts[i].row.id).None?)
    ensures db'.rows == MarkSent(db.rows, Saved(attempts))
    ensures db'.staged == FlagChanges(Pending(attempts))
  {
    var ordered := SortByTime(GetUnsentMessages(db));
    TickOrder(db);
    db', bus', attempts := PublishInOrder(db, bus, ordered, body, brokerFault, dbFault);
  }

  /** The keys of the rows already flagged as sent. */
  function SentIds(rows: seq<OutboxRow>): set<Guid> {
    set q | 0 <= q < |rows| && rows[q].data.isSent :: rows[q].id
  }

  lemma {:induction false} MarkSentTwice(rows: seq<OutboxRow>, a: set<Guid>, b: set<Guid>)
    ensures MarkSent(MarkSent(rows, a), b) == MarkSent(rows, a + b)
  {
  }

  /** An unsent row of the marked table was unsent to begin with and was not
      marked. */
  lemma {:induction false} UnsentNotMarked(rows: seq<OutboxRow>, ids: set<Guid>, r: OutboxRow)
    requires KeysUnique(rows) && r in MarkSent(rows, ids) && !r.data.isSent
    ensures r.id !in ids && r.id !in SentIds(rows)
  {
    var marked := MarkSent(rows, ids);
    var q :| 0 <= q < |marked| && marked[q] == r;
  }

  /** Index of the first check that sees cancellation, or the number of checks. */
  function FirstCancelled(cancelled: seq<bool>): (n: nat)
    ensures n <= |cancelled|
    ensures forall k :: 0 <= k < n ==> !cancelled[k]
    ensures n < |cancelled| ==> cancelled[n]
  {
    if |cancelled| == 0 || cancelled[0] then 0 else 1 + FirstCancelled(cancelled[1..])
  }

  /** A check before the first one that sees cancellation is followed by another. */
  lemma {:induction false} FirstCancelledStep(cancelled: seq<bool>, k: nat)
    requires k <= FirstCancelled(cancelled) && k < |cancelled| && !cancelled[k]
    ensures k + 1 <= FirstCancelled(cancelled)
  {
  }

  /** The rows a tick attempts, in order, when the earlier ticks have sent
      `marked`: the unsent rows of the marked table, oldest first. */
  function TickRows(rows: seq<OutboxRow>, marked: set<Guid>): seq<OutboxRow> {
    SortByTime(GetUnsentMessages(Table(MarkSent(rows, marked), [])))
  }

  /** The keys committed by the ticks of `history`. */
  function SavedBy(history: seq<seq<Attempt>>): set<Guid>
    decreases |history|
  {
    if |history| == 0 then {} else SavedBy(history[..|history| - 1]) + Saved(history[|history| - 1])
  }

  /** One tick of the service on the rows so far, where `marked` holds the
      keys the earlier ticks committed. Nothing it attempts was committed
      before, and when its scope ends the table carries its committed flags;
      the flags it still held staged are dropped with the scope. */
  method ServeTick(rows: seq<OutboxRow>, marked: set<Guid>, bus: MessageBus.Bus, body: OutboxMessage -> string,
                   brokerFault: Guid -> Option<Fault>, dbFault: Guid -> Option<Fault>)
    returns (db': Messages, bus': MessageBus.Bus, attempts: seq<Attempt>)
    requires KeysUnique(rows)
    ensures |attempts| == |TickRows(rows, marked)|
    ensures forall j :: 0 <= j < |attempts| ==> attempts[j].row == TickRows(rows, marked)[j]
    ensures forall j :: 0 <= j < |attempts| ==>
      (attempts[j].saved <==> attempts[j].result == Success(true) && dbFault(attempts[j].row.id).None?)
    ensures db' == Table(MarkSent(rows, marked + Saved(attempts)), [])
    ensures forall j :: 0 <= j < |attempts| ==> attempts[j].row.id !in marked && attempts[j].row.id !in SentIds(rows)
  {
    var db := Table(MarkSent(rows, marked), []);
    MarkSentKeepsKeysUnique(rows, marked);
    TickOrder(db);
    var scope;
    scope, bus', attempts := DrainTick(db, bus, body, brokerFault, dbFault);
    db' := Table(scope.rows, []);
    forall j | 0 <= j < |attempts|
      ensures attempts[j].row.id !in marked && attempts[j].row.id !in SentIds(rows)
    {
      UnsentNotMarked(rows, marked, attempts[j].row);
    }
    MarkSentTwice(rows, marked, Saved(attempts));
  }

  /** The tick `attempts` attempted the row `m`. */
  predicate Attempted(attempts: seq<Attempt>, m: OutboxRow) {
    exists j :: 0 <= j < |attempts| && attempts[j].row == m
  }

  /** A row a tick attempts and whose flag it does not commit is still
      unsent when the tick ends, so the next tick attempts it again. */
  lemma {:induction false} UnsavedRowReturns(rows: seq<OutboxRow>, marked: set<Guid>, more: set<Guid>, m: OutboxRow)
    requires m in TickRows(rows, marked) && m.id !in more
    ensures m in TickRows(rows, marked + more)
  {
    TickOrder(Table(MarkSent(rows, marked), []));
    TickOrder(Table(MarkSent(rows, marked + more), []));
    var q :| 0 <= q < |rows| && MarkSent(rows, marked)[q] == m;
    assert MarkSent(rows, marked + more)[q] == m;
  }

  /** What the service loop has established after the ticks of `history`,
      which committed `marked`. */
  ghost predicate ServeInv(rows: seq<OutboxRow>, marked: set<Guid>, history: seq<seq<Attempt>>) {
    && marked == SavedBy(history)
    && (forall t :: 0 <= t < |history| ==> Saved(history[t]) <= marked)
    && (forall t, t', j :: 0 <= t < t' < |history| && 0 <= j < |history[t']| ==>
          history[t'][j].row.id !in Saved(history[t]))
    && (forall t, j :: 0 <= t < |history| && 0 <= j < |history[t]| ==> history[t][j].row.id !in SentIds(rows))
    && (forall t :: 0 <= t < |history| ==>
          |history[t]| == |TickRows(rows, SavedBy(history[..t]))| &&
          forall j :: 0 <= j < |history[t]| ==> history[t][j].row == TickRows(rows, SavedBy(history[..t]))[j])
  }

  /** The marks after one more tick are the earlier marks and its commits. */
  lemma {:induction false} SavedByAppend(history: seq<seq<Attempt>>, attempts: seq<Attempt>)
    ensures SavedBy(history + [attempts]) == SavedBy(history) + Saved(attempts)
  {
    assert (history + [attempts])[..|history|] == history;
  }

  /** Each earlier tick's commits are among the marks, and no tick attempts
      what an earlier tick committed, once one more tick is appended. */
  lemma {:induction false} ServeStepDisjoint(marked: set<Guid>, history: seq<seq<Attempt>>, attempts: seq<Attempt>)
    requires forall t :: 0 <= t < |history| ==> Saved(history[t]) <= marked
    requires forall t, t', j :: 0 <= t < t' < |history| && 0 <= j < |history[t']| ==>
      history[t'][j].row.id !in Saved(history[t])
    requires forall j :: 0 <= j < |attempts| ==> attempts[j].row.id !in marked
    ensures var h := history + [attempts];
      && (forall t :: 0 <= t < |h| ==> Saved(h[t]) <= marked + Saved(attempts))
      && (forall t, t', j :: 0 <= t < t' < |h| && 0 <= j < |h[t']| ==> h[t'][j].row.id !in Saved(h[t]))
  {
    var h: seq<seq<Attempt>> := history + [attempts];
    forall t, t', j | 0 <= t < t' < |h| && 0 <= j < |h[t']|
      ensures h[t'][j].row.id !in Saved(h[t])
    {
      assert h[t] == history[t];
      if t' < |history| {
        assert h[t'] == history[t'];
      } else {
        assert h[t'] == attempts;
      }
    }
  }

  /** The tick order facts survive appending one more tick that attempted
      `TickRows(rows, SavedBy(history))`. */
  lemma {:induction false} ServeStepOrder(rows: seq<OutboxRow>, history: seq<seq<Attempt>>, attempts: seq<Attempt>)
    requires forall t :: 0 <= t < |history| ==>
      |history[t]| == |TickRows(rows, SavedBy(history[..t]))| &&
      forall j :: 0 <= j < |history[t]| ==> history[t][j].row == TickRows(rows, SavedBy(history[..t]))[j]
    requires |attempts| == |TickRows(rows, SavedBy(history))|
    requires forall j :: 0 <= j < |attempts| ==> attempts[j].row == TickRows(rows, SavedBy(history))[j]
    ensures var h := history + [attempts];
      forall t :: 0 <= t < |h| ==>
        |h[t]| == |TickRows(rows, SavedBy(h[..t]))| &&
        forall j :: 0 <= j < |h[t]| ==> h[t][j].row == TickRows(rows, SavedBy(h[..t]))[j]
  {
    var h: seq<seq<Attempt>> := history + [attempts];
    forall t | 0 <= t < |h|
      ensures |h[t]| == |TickRows(rows, SavedBy(h[..t]))| &&
        forall j :: 0 <= j < |h[t]| ==> h[t][j].row == TickRows(rows, SavedBy(h[..t]))[j]
    {
      if t < |history| {
        assert h[..t] == history[..t];
        assert h[t] == history[t];
      } else {
        assert h[..t] == history;
        assert h[t] == attempts;
      }
    }
  }

  /** One more tick, as `ServeTick` describes it, keeps the loop's invariant. */
  lemma {:induction false} ServeStep(rows: seq<OutboxRow>, marked: set<Guid>, history: seq<seq<Attempt>>, attempts: seq<Attempt>)
    requires ServeInv(rows, marked, history)
    requires |attempts| == |TickRows(rows, marked)|
    requires forall j :: 0 <= j < |attempts| ==> attempts[j].row == TickRows(rows, marked)[j]
    requires forall j :: 0 <= j < |attempts| ==> attempts[j].row.id !in marked && attempts[j].row.id !in SentIds(rows)
    ensures ServeInv(rows, marked + Saved(attempts), history + [attempts])
  {
    var h: seq<seq<Attempt>> := history + [attempts];
    SavedByAppend(history, attempts);
    ServeStepDisjoint(marked, history, attempts);
    ServeStepOrder(rows, history, attempts);
    forall t, j | 0 <= t < |h| && 0 <= j < |h[t]|
      ensures h[t][j].row.id !in SentIds(rows)
    {
      if t < |history| {
        assert h[t] == history[t];
      }
    }
  }

  /** Before the first tick nothing is marked and the invariant holds. */
  lemma {:induction false} ServeStart(rows: seq<OutboxRow>)
    ensures MarkSent(rows, {}) == rows
    ensures ServeInv(rows, {}, [])
  {
  }

  /** What the service loop's invariant gives once the loop stops. */
  lemma {:induction false} ServeEnd(rows: seq<OutboxRow>, marked: set<Guid>, history: seq<seq<Attempt>>)
    requires KeysUnique(rows) && ServeInv(rows, marked, history)
    ensures KeysUnique(MarkSent(rows, marked)) && |MarkSent(rows, marked)| == |rows|
    ensures forall q :: 0 <= q < |rows| ==>
      MarkSent(rows, marked)[q].id == rows[q].id && (rows[q].data.isSent ==> MarkSent(rows, marked)[q].data.isSent)
    ensures forall k, k', j :: 0 <= k < k' < |history| && 0 <= j < |history[k']| ==>
      history[k'][j].row.id !in Saved(history[k])
    ensures forall k, j :: 0 <= k < |history| && 0 <= j < |history[k]| ==>
      history[k][j].row.id !in SentIds(rows)
    ensures forall k :: 0 <= k < |history| ==>
      |history[k]| == |TickRows(rows, SavedBy(history[..k]))| &&
      forall j :: 0 <= j < |history[k]| ==> history[k][j].row == TickRows(rows, SavedBy(history[..k]))[j]
    ensures MarkSent(rows, marked) == MarkSent(rows, SavedBy(history))
  {
    MarkSentKeepsKeysUnique(rows, marked);
  }

  /** Two consecutive ticks: the second attempts every row the first
      attempted without committing its flag. */
  lemma {:induction false} RetryNextTick(rows: seq<OutboxRow>, marked: set<Guid>, before: seq<Attempt>, after: seq<Attempt>, i: int)
    requires |before| == |TickRows(rows, marked)|
    requires forall j :: 0 <= j < |before| ==> before[j].row == TickRows(rows, marked)[j]
    requires |after| == |TickRows(rows, marked + Saved(before))|
    requires forall j :: 0 <= j < |after| ==> after[j].row == TickRows(rows, marked + Saved(before))[j]
    requires 0 <= i < |before| && before[i].row.id !in Saved(before)
    ensures Attempted(after, before[i].row)
  {
    var m := before[i].row;
    assert m == TickRows(rows, marked)[i];
    UnsavedRowReturns(rows, marked, Saved(before), m);
    var next := TickRows(rows, marked + Saved(before));
    var j :| 0 <= j < |next| && next[j] == m;
    assert after[j].row == m;
  }

  /** The marks after the first `k + 1` ticks. */
  lemma {:induction false} SavedByPrefix(history: seq<seq<Attempt>>, k: int)
    requires 0 <= k < |history|
    ensures SavedBy(history[..k + 1]) == SavedBy(history[..k]) + Saved(history[k])
  {
    SavedByAppend(history[..k], history[k]);
    assert history[..k] + [history[k]] == history[..k + 1];
  }

  /** `RetryNextTick` for ticks `k` and `k + 1` of a history whose ticks
      each attempted the rows left unsent by the ticks before. */
  lemma {:induction false} RetryAt(rows: seq<OutboxRow>, history: seq<seq<Attempt>>, k: int, k1: int, i: int)
    requires 0 <= k && k1 == k + 1 && k1 < |history|
    requires |history[k]| == |TickRows(rows, SavedBy(history[..k]))|
    requires forall j :: 0 <= j < |history[k]| ==> history[k][j].row == TickRows(rows, SavedBy(history[..k]))[j]
    requires |history[k1]| == |TickRows(rows, SavedBy(history[..k1]))|
    requires forall j :: 0 <= j < |history[k1]| ==> history[k1][j].row == TickRows(rows, SavedBy(history[..k1]))[j]
    requires 0 <= i < |history[k]| && history[k][i].row.id !in Saved(history[k])
    ensures Attempted(history[k1], history[k][i].row)
  {
    SavedByPrefix(history, k);
    RetryNextTick(rows, SavedBy(history[..k]), history[k], history[k1], i);
  }

  /** Under the loop's invariant, a row a tick attempted without committing
      its flag is attempted again by the next tick: delivery is at least
      once. */
  lemma {:induction false} ServeRetries(rows: seq<OutboxRow>, marked: set<Guid>, history: seq<seq<Attempt>>)
    requires ServeInv(rows, marked, history)
    ensures forall k, i :: 0 <= k < |history| - 1 && 0 <= i < |history[k]| && history[k][i].row.id !in Saved(history[k]) ==>
      Attempted(history[k + 1], history[k][i].row)
  {
    forall k, i | 0 <= k < |history| - 1 && 0 <= i < |history[k]| && history[k][i].row.id !in Saved(history[k])
      ensures Attempted(history[k + 1], history[k][i].row)
    {
      RetryAt(rows, history, k, k + 1, i);
    }
  }

  /** In every tick of `history`, a commit went through exactly when the
      publish returned true and the database did not fail that tick. */
  predicate TicksCommitted(history: seq<seq<Attempt>>, dbFault: (nat, Guid) -> Option<Fault>) {
    forall t, j :: 0 <= t < |history| && 0 <= j < |history[t]| ==>
      (history[t][j].saved <==> history[t][j].result == Success(true) && dbFault(t, history[t][j].row.id).None?)
  }

  lemma {:induction false} TicksCommittedAppend(history: seq<seq<Attempt>>, attempts: seq<Attempt>,
                                                dbFault: (nat, Guid) -> Option<Fault>)
    requires TicksCommitted(history, dbFault)
    requires forall j :: 0 <= j < |attempts| ==>
      (attempts[j].saved <==> attempts[j].result == Success(true) && dbFault(|history|, attempts[j].row.id).None?)
    ensures TicksCommitted(history + [attempts], dbFault)
  {
    var h: seq<seq<Attempt>> := history + [attempts];
    forall t, j | 0 <= t < |h| && 0 <= j < |h[t]|
      ensures h[t][j].saved <==> h[t][j].result == Success(true) && dbFault(t, h[t][j].row.id).None?
    {
      if t < |history| {
        assert h[t] == history[t];
      } else {
        assert h[t] == attempts;
      }
    }
  }

  /** `ExecuteAsync`: before each tick the loop checks the token (`cancelled`
      holds what each check sees) and waits, while the broker client goes
      through `events(k)`; tick `k` meets `brokerFault(k, _)` and
      `dbFault(k, _)`. A row whose flag a tick committed is never attempted
      again and never reset, a row sent before the service started is never
      attempted, and a row whose flag a tick did not commit is attempted
      again by the next tick. */
  method Serve(db: Messages, bus: MessageBus.Bus, cancelled: seq<bool>, events: nat -> seq<MessageBus.Event>,
               body: OutboxMessage -> string, brokerFault: (nat, Guid) -> Option<Fault>,
               dbFault: (nat, Guid) -> Option<Fault>)
    returns (db': Messages, bus': MessageBus.Bus, history: seq<seq<Attempt>>)
    requires db.staged == [] && KeysUnique(db.rows)
    ensures |history| == FirstCancelled(cancelled)
    ensures db'.staged == [] && KeysUnique(db'.rows) && |db'.rows| == |db.rows|
    ensures forall q :: 0 <= q < |db.rows| ==>
      db'.rows[q].id == db.rows[q].id && (db.rows[q].data.isSent ==> db'.rows[q].data.isSent)
    // a row whose flag a tick committed is never attempted again
    ensures forall k, k', j :: 0 <= k < k' < |history| && 0 <= j < |history[k']| ==>
      history[k'][j].row.id !in Saved(history[k])
    ensures forall k, j :: 0 <= k < |history| && 0 <= j < |history[k]| ==>
      history[k][j].row.id !in SentIds(db.rows)
    // a commit goes through exactly when the publish returned true and the database did not fail
    ensures forall k, j :: 0 <= k < |history| && 0 <= j < |history[k]| ==>
      (history[k][j].saved <==> history[k][j].result == Success(true) && dbFault(k, history[k][j].row.id).None?)
    // every tick publishes every row still unsent after the earlier ticks, oldest first
    ensures forall k :: 0 <= k < |history| ==>
      |history[k]| == |TickRows(db.rows, SavedBy(history[..k]))| &&
      forall j :: 0 <= j < |history[k]| ==> history[k][j].row == TickRows(db.rows, SavedBy(history[..k]))[j]
    // a row whose flag a tick did not commit is attempted again by the next tick
    ensures forall k, i :: 0 <= k < |history| - 1 && 0 <= i < |history[k]| && history[k][i].row.id !in Saved(history[k]) ==>
      Attempted(history[k + 1], history[k][i].row)
    // and the store ends with exactly the ticks' committed flags
    ensures db'.rows == MarkSent(db.rows, SavedBy(history))
  {
    var marked: set<Guid> := {};
    ServeStart(db.rows);
    db', bus', history := db, bus, [];
    var k := 0;
    while k < |cancelled| && !cancelled[k]
      invariant 0 <= k <= FirstCancelled(cancelled)
      invariant |history| == k
      invariant db' == Table(MarkSent(db.rows, marked), [])
      invariant ServeInv(db.rows, marked, history)
      invariant TicksCommitted(history, dbFault)
    {
      FirstCancelledStep(cancelled, k);
      bus' := MessageBus.Run(bus', events(k));
      var attempts;
      db', bus', attempts := ServeTick(db.rows, marked, bus', body, (id: Guid) => brokerFault(k, id), (id: Guid) => dbFault(k, id));
      ServeStep(db.rows, marked, history, attempts);
      TicksCommittedAppend(history, attempts, dbFault);
      marked := marked + Saved(attempts);
      history := history + [attempts];
      k := k + 1;
    }
    ServeEnd(db.rows, marked, history);
    ServeRetries(db.rows, marked, history);
  }
}

=== FILE: redis_connection.dfy ===
/** The self-healing cache connection (RedisConnection): the gate that decides
    whether a forced reconnect may replace the connection, the wrapper that
    requests a background reconnect when an operation hits a broken
    connection, and start-up initialisation.

    Times are integer milliseconds. `DateTimeOffset.MinValue`, the initial
    value of all three recorded times, is `Never`; the time elapsed since
    `Never` exceeds every threshold, as the subtraction from MinValue does in
    the source. The semaphore wait and the connect call are inputs of an
    `Attempt`; the two clock readings of one call are `entryTime` (before the
    lock) and `lockedTime` (after it). */
module RedisConnection {
  import opened Wrappers
  import opened Faults

  /** Minimum time between two connection replacements (60 s). */
  const ReconnectMinInterval: int := 60_000
  /** How long errors must persist, and how recent the last one must be (30 s). */
  const ReconnectErrorThreshold: int := 30_000
  /** Bounded wait on the reconnect semaphore (15 s); its outcome is `Attempt.lockTaken`. */
  const RestartConnectionTimeout: int := 15_000

  datatype Stamp = Never | At(t: int)

  /** At least `d` has elapsed from `s` to `now`. */
  predicate ElapsedAtLeast(s: Stamp, now: int, d: int) {
    s.Never? || now - s.t >= d
  }

  /** At most `d` has elapsed from `s` to `now` (never true of `Never`). */
  predicate ElapsedAtMost(s: Stamp, now: int, d: int) {
    s.At? && now - s.t <= d
  }

  /** `_lastReconnectTicks`, `_firstErrorTime`, `_previousErrorTime`. */
  datatype Gate = Gate(lastReconnect: Stamp, firstError: Stamp, previousError: Stamp)

  const Fresh: Gate := Gate(Never, Never, Never)

  /** One call of `ForceReconnectAsync` as seen from outside. */
  datatype Attempt = Attempt(
    initializing: bool,
    entryTime: int,
    lockTaken: bool,
    lockedTime: int,
    connectSucceeds: bool)

  datatype Decision =
    | TooSoon            // interval check before the lock
    | LockTimeout        // the semaphore was not acquired in time
    | FirstErrorRecorded // first error since the last reconnect: only remembered
    | TooSoonAfterLock   // interval check after the lock
    | BelowThreshold     // errors not yet sustained, or stale
    | Reconnected        // a new connection was installed
    | ConnectFailed      // the connect call threw RedisConnectionException
  {
    predicate Connects() { Reconnected? || ConnectFailed? }
  }

  datatype Step = Step(gate: Gate, decision: Decision)

  /** `ForceReconnectAsync(initializing)`. */
  function ForceReconnect(g: Gate, a: Attempt): (r: Step)
    // no replacement within the minimum interval, judged both before and after the lock
    ensures r.decision.Connects() ==>
      a.lockTaken
      && ElapsedAtLeast(g.lastReconnect, a.entryTime, ReconnectMinInterval)
      && ElapsedAtLeast(g.lastReconnect, a.lockedTime, ReconnectMinInterval)
    // a call that does not get the lock changes nothing
    ensures !a.lockTaken ==> r.gate == g
    // outside start-up, the first error after a reconnect is only remembered
    ensures !a.initializing && a.lockTaken && g.firstError.Never?
            && ElapsedAtLeast(g.lastReconnect, a.entryTime, ReconnectMinInterval) ==>
      r.decision == FirstErrorRecorded
      && r.gate == Gate(g.lastReconnect, At(a.lockedTime), At(a.lockedTime))
    // outside start-up, a connect needs errors for at least 30 s, the latest at most 30 s ago
    ensures !a.initializing && r.decision.Connects() ==>
      ElapsedAtLeast(g.firstError, a.lockedTime, ReconnectErrorThreshold)
      && g.firstError.At?
      && ElapsedAtMost(g.previousError, a.lockedTime, ReconnectErrorThreshold)
    // evaluating the threshold without connecting moves the previous-error time to now
    ensures r.decision == BelowThreshold ==>
      r.gate == g.(previousError := At(a.lockedTime))
    // a connect attempt resets both error times; only a successful one moves the reconnect time
    ensures r.decision.Connects() ==> r.gate.firstError == Never && r.gate.previousError == Never
    ensures r.decision == Reconnected ==> r.gate.lastReconnect == At(a.lockedTime)
    ensures r.decision != Reconnected ==> r.gate.lastReconnect == g.lastReconnect
    ensures r.decision.Connects() ==> (r.decision == Reconnected <==> a.connectSucceeds)
    // at start-up the error gates are bypassed
    ensures a.initializing && a.lockTaken
            && ElapsedAtLeast(g.lastReconnect, a.entryTime, ReconnectMinInterval)
            && ElapsedAtLeast(g.lastReconnect, a.lockedTime, ReconnectMinInterval) ==>
      r.decision.Connects()
  {
    if !ElapsedAtLeast(g.lastReconnect, a.entryTime, ReconnectMinInterval) then
      Step(g, TooSoon)
    else if !a.lockTaken then
      Step(g, LockTimeout)
    else
      var now := a.lockedTime;
      if g.firstError.Never? && !a.initializing then
        Step(Gate(g.lastReconnect, At(now), At(now)), FirstErrorRecorded)
      else if !ElapsedAtLeast(g.lastReconnect, now, ReconnectMinInterval) then
        Step(g, TooSoonAfterLock)
      else
        var shouldReconnect :=
          ElapsedAtLeast(g.firstError, now, ReconnectErrorThreshold)
          && ElapsedAtMost(g.previousError, now, ReconnectErrorThreshold);
        var g1 := g.(previousError := At(now));
        if !shouldReconnect && !a.initializing then
          Step(g1, BelowThreshold)
        else
          var g2 := g1.(firstError := Never, previousError := Never);
          if a.connectSucceeds then Step(g2.(lastReconnect := At(now)), Reconnected)
          else Step(g2, ConnectFailed)
  }

  /** An operation's outcome after `ExecuteWithBackgroundReconnectAsync`. */
  datatype Executed<T> = Executed(result: Result<T, Fault>, reconnectRequested: bool)

  /** `ExecuteWithBackgroundReconnectAsync(func)` given what `func` did: the
      outcome reaches the caller unchanged (the exception is rethrown, never
      masked), and a background reconnect is requested exactly for
      connection-class exceptions. */
  function Execute<T>(op: Result<T, Fault>): (r: Executed<T>)
    ensures r.result == op
    ensures r.reconnectRequested <==> op.Failure? && op.error.IsConnectionClass()
  {
    Executed(op, op.Failure? && op.error.IsConnectionClass())
  }

  /** `InitializeAsync`: a fresh connection forces its first connect with
      `initializing` set; a failed connect faults the factory task. */
  function Initialize(now: int, connectSucceeds: bool): (r: Result<Gate, Fault>)
    ensures r.Success? <==> connectSucceeds
    ensures r.Success? ==> r.value == Gate(At(now), Never, Never)
    ensures r.Failure? ==> r.error == RedisConnection
  {
    var s := ForceReconnect(Fresh, Attempt(true, now, true, now, connectSucceeds));
    if s.decision == Reconnected then Success(s.gate) else Failure(RedisConnection)
  }

  /** A sequence of calls: the final gate and the times of the successful reconnects. */
  function Run(g: Gate, attempts: seq<Attempt>): (Gate, seq<int>)
    decreases |attempts|
  {
    if |attempts| == 0 then (g, [])
    else
      var s := ForceReconnect(g, attempts[0]);
      var rest := Run(s.gate, attempts[1..]);
      (rest.0, (if s.decision == Reconnected then [attempts[0].lockedTime] else []) + rest.1)
  }

  /** Each reconnect time is at least the minimum interval after the previous one. */
  predicate Spaced(previous: Stamp, times: seq<int>)
    decreases |times|
  {
    |times| == 0 ||
    (ElapsedAtLeast(previous, times[0], ReconnectMinInterval) && Spaced(At(times[0]), times[1..]))
  }

  /** Over any sequence of calls, from any starting state, successive
      connection replacements are at least 60 s apart: no reconnect storm. */
  lemma {:induction false} ReconnectsSpaced(g: Gate, attempts: seq<Attempt>)
    ensures Spaced(g.lastReconnect, Run(g, attempts).1)
    decreases |attempts|
  {
    if |attempts| > 0 {
      var s := ForceReconnect(g, attempts[0]);
      ReconnectsSpaced(s.gate, attempts[1..]);
      var rest := Run(s.gate, attempts[1..]);
      if s.decision == Reconnected {
        assert Run(g, attempts).1 == [attempts[0].lockedTime] + rest.1;
        assert ([attempts[0].lockedTime] + rest.1)[1..] == rest.1;
      } else {
        assert Run(g, attempts).1 == rest.1;
      }
    }
  }

  /** Three errors inside the threshold window after a connection made at
      time 0, then a fourth past it: only the fourth call reconnects, once. */
  lemma SustainedErrorsReconnectOnce()
    ensures
      var start := Gate(At(0), Never, Never);
      var calls := [
        Attempt(false, 100_000, true, 100_000, true),
        Attempt(false, 110_000, true, 110_000, true),
        Attempt(false, 120_000, true, 120_000, true),
        Attempt(false, 131_000, true, 131_000, true)];
      Run(start, calls).1 == [131_000]
  {
  }
}

=== FILE: redis_store.dfy ===
/** The cache server's keyspace, as the token cache uses it: one map from key
    to either a set of members or a string value with an optional expiry
    time. A key whose expiry time has come behaves as absent. Each command may
    instead raise an exception from the network (the `Network` oracle), in
    which case the keyspace is untouched. Times are milliseconds. */
module RedisStore {
  import opened Wrappers
  import opened Faults

  datatype Entry = Members(members: set<string>) | Text(value: string, expiresAt: Option<int>)

  type Keyspace = map<string, Entry>

  datatype Command =
    | KeyExists(key: string)
    | StringSet(key: string, value: string, ttl: int)
    | SetAdd(key: string, member: string)
    | SetRemove(key: string, member: string)
    | SetMembers(key: string)

  /** The exception, if any, that a command raises before reaching the server. */
  type Network = Command -> Option<Fault>

  /** The entry under `key` at time `now`, if it exists and has not expired. */
  function Live(ks: Keyspace, key: string, now: int): Option<Entry> {
    if key in ks && !(ks[key].Text? && ks[key].expiresAt.Some? && ks[key].expiresAt.value <= now)
    then Some(ks[key]) else None
  }

  /** The members of the set under `key` (empty when there is none). */
  function ActiveSet(ks: Keyspace, key: string, now: int): set<string> {
    match Live(ks, key, now)
    case Some(Members(ms)) => ms
    case _ => {}
  }

  /** `key` holds, at `now`, a live string entry with value `value`. */
  predicate HoldsText(ks: Keyspace, key: string, value: string, now: int) {
    Live(ks, key, now).Some? && Live(ks, key, now).value.Text? && Live(ks, key, now).value.value == value
  }

  /** Every key outside `keys` is untouched. */
  ghost predicate SameExcept(a: Keyspace, b: Keyspace, keys: set<string>) {
    forall k :: k !in keys ==> (k in a <==> k in b) && (k in a ==> a[k] == b[k])
  }

  /** `KeyExistsAsync(key)`. */
  function Exists(ks: Keyspace, net: Network, now: int, key: string): (r: Result<bool, Fault>)
    ensures net(KeyExists(key)).Some? ==> r == Failure(net(KeyExists(key)).value)
    ensures net(KeyExists(key)).None? ==> r == Success(Live(ks, key, now).Some?)
  {
    match net(KeyExists(key))
    case Some(f) => Failure(f)
    case None => Success(Live(ks, key, now).Some?)
  }

  /** `StringSetAsync(key, value, ttl)`: the server rejects a non-positive
      expiry with an error reply. */
  function Set(ks: Keyspace, net: Network, now: int, key: string, value: string, ttl: int): (r: Result<Keyspace, Fault>)
    ensures net(StringSet(key, value, ttl)).Some? ==> r == Failure(net(StringSet(key, value, ttl)).value)
    ensures net(StringSet(key, value, ttl)).None? ==> (r.Success? <==> ttl > 0)
    ensures r.Success? ==> r.value == ks[key := Text(value, Some(now + ttl))]
    ensures r.Success? ==> HoldsText(r.value, key, value, now) && SameExcept(ks, r.value, {key})
  {
    match net(StringSet(key, value, ttl))
    case Some(f) => Failure(f)
    case None =>
      if ttl <= 0 then Failure(RedisServer)
      else Success(ks[key := Text(value, Some(now + ttl))])
  }

  /** `SetAddAsync(key, member)`: WRONGTYPE when the key holds a string. */
  function Add(ks: Keyspace, net: Network, now: int, key: string, member: string): (r: Result<Keyspace, Fault>)
    ensures net(SetAdd(key, member)).Some? ==> r == Failure(net(SetAdd(key, member)).value)
    ensures net(SetAdd(key, member)).None? ==>
      (r.Failure? <==> Live(ks, key, now).Some? && Live(ks, key, now).value.Text?)
    ensures r.Failure? ==> r.error == RedisServer || net(SetAdd(key, member)).Some?
    ensures r.Success? ==> ActiveSet(r.value, key, now) == ActiveSet(ks, key, now) + {member}
    ensures r.Success? ==> key in r.value && r.value[key].Members? && SameExcept(ks, r.value, {key})
  {
    match net(SetAdd(key, member))
    case Some(f) => Failure(f)
    case None =>
      match Live(ks, key, now)
      case Some(Text(_, _)) => Failure(RedisServer)
      case Some(Members(ms)) => Success(ks[key := Members(ms + {member})])
      case None => Success(ks[key := Members({member})])
  }

  /** `SetRemoveAsync(key, member)`: removing the last member deletes the key;
      WRONGTYPE when the key holds a string. */
  function Remove(ks: Keyspace, net: Network, now: int, key: string, member: string): (r: Result<Keyspace, Fault>)
    ensures net(SetRemove(key, member)).Some? ==> r == Failure(net(SetRemove(key, member)).value)
    ensures net(SetRemove(key, member)).None? ==>
      (r.Failure? <==> Live(ks, key, now).Some? && Live(ks, key, now).value.Text?)
    ensures r.Failure? ==> r.error == RedisServer || net(SetRemove(key, member)).Some?
    ensures r.Success? ==> ActiveSet(r.value, key, now) == ActiveSet(ks, key, now) - {member}
    ensures r.Success? ==> SameExcept(ks, r.value, {key})
    ensures r.Success? ==> forall v :: HoldsText(r.value, key, v, now) ==> HoldsText(ks, key, v, now)
  {
    match net(SetRemove(key, member))
    case Some(f) => Failure(f)
    case None =>
      match Live(ks, key, now)
      case Some(Text(_, _)) => Failure(RedisServer)
      case Some(Members(ms)) =>
        if ms - {member} == {} then Success(ks - {key}) else Success(ks[key := Members(ms - {member})])
      case None => Success(ks)
  }

  /** `SetMembersAsync(key)`: WRONGTYPE when the key holds a string. */
  function SetOf(ks: Keyspace, net: Network, now: int, key: string): (r: Result<set<string>, Fault>)
    ensures net(SetMembers(key)).Some? ==> r == Failure(net(SetMembers(key)).value)
    ensures net(SetMembers(key)).None? ==>
      (r.Failure? <==> Live(ks, key, now).Some? && Live(ks, key, now).value.Text?)
    ensures r.Success? ==> r.value == ActiveSet(ks, key, now)
  {
    match net(SetMembers(key))
    case Some(f) => Failure(f)
    case None =>
      match Live(ks, key, now)
      case Some(Text(_, _)) => Failure(RedisServer)
      case Some(Members(ms)) => Success(ms)
      case None => Success({})
  }
}

=== FILE: refresh_token_validator.dfy ===
/** RefreshTokenValidator.ExtractTokenClaims: after the JWT handler has
    validated the token (signature, issuer, lifetime — an oracle here), the
    `exp` and `id` claims are required and turned into the pair
    (user id, expiration time). Times are milliseconds since the Unix epoch. */
module RefreshTokenValidator {
  import opened Wrappers
  import opened Faults

  datatype Claim = Claim(kind: string, value: string)

  /** What `JwtSecurityTokenHandler.ValidateToken` does with a token: reject
      it with an exception, or accept it and expose its claims in order. */
  datatype Validation = Rejected(fault: Fault) | Accepted(claims: seq<Claim>)

  datatype RefreshTokenClaims = RefreshTokenClaims(userId: string, expiration: int)

  /** `JwtRegisteredClaimNames.Exp`. */
  const ExpClaim: string := "exp"
  const IdClaim: string := "id"

  const LongMin: int := -0x8000_0000_0000_0000
  const LongMax: int := 0x7FFF_FFFF_FFFF_FFFF

  /** The range `DateTimeOffset.FromUnixTimeSeconds` accepts (years 0001 to 9999). */
  const MinUnixSeconds: int := -62_135_596_800
  const MaxUnixSeconds: int := 253_402_300_799

  /** Index of the first claim whose kind satisfies `p`, or -1. */
  function FirstIndexWhere(claims: seq<Claim>, p: string -> bool): (k: int)
    ensures -1 <= k < |claims|
    ensures k >= 0 ==> p(claims[k].kind) && forall j :: 0 <= j < k ==> !p(claims[j].kind)
    ensures k < 0 ==> forall j :: 0 <= j < |claims| ==> !p(claims[j].kind)
  {
    if |claims| == 0 then -1
    else if p(claims[0].kind) then 0
    else
      var k := FirstIndexWhere(claims[1..], p);
      if k < 0 then -1 else k + 1
  }

  /** Upper-casing of an ASCII letter; every other character is kept. */
  function AsciiUpper(c: char): char {
    if 'a' <= c <= 'z' then (c as int - 32) as char else c
  }

  /** `StringComparison.OrdinalIgnoreCase`, on ASCII letters. No non-ASCII
      character upper-cases to a letter of "exp", so for the one name looked
      up this way the comparison is exact. */
  predicate EqualsIgnoringCase(a: string, b: string) {
    |a| == |b| && forall i :: 0 <= i < |a| ==> AsciiUpper(a[i]) == AsciiUpper(b[i])
  }

  /** `FindFirst(c => c.Type == kind)`: the first claim of exactly that kind,
      or null. */
  function FindFirst(claims: seq<Claim>, kind: string): (r: Option<Claim>)
    ensures r.None? <==> forall i :: 0 <= i < |claims| ==> claims[i].kind != kind
    ensures r.Some? ==>
      (exists k :: 0 <= k < |claims| && claims[k] == r.value && r.value.kind == kind &&
         forall j :: 0 <= j < k ==> claims[j].kind != kind)
  {
    var k := FirstIndexWhere(claims, (s: string) => s == kind);
    if k < 0 then None else Some(claims[k])
  }

  /** `FindFirst(type)`: the first claim whose kind matches `kind` ignoring
      case, or null. */
  function FindFirstIgnoringCase(claims: seq<Claim>, kind: string): (r: Option<Claim>)
    ensures r.None? <==> forall i :: 0 <= i < |claims| ==> !EqualsIgnoringCase(claims[i].kind, kind)
    ensures r.Some? ==>
      (exists k :: 0 <= k < |claims| && claims[k] == r.value && EqualsIgnoringCase(r.value.kind, kind) &&
         forall j :: 0 <= j < k ==> !EqualsIgnoringCase(claims[j].kind, kind))
  {
    var k := FirstIndexWhere(claims, (s: string) => EqualsIgnoringCase(s, kind));
    if k < 0 then None else Some(claims[k])
  }

  predicate IsDigit(c: char) {
    '0' <= c <= '9'
  }

  predicate AllDigits(s: string) {
    forall i :: 0 <= i < |s| ==> IsDigit(s[i])
  }

  function DigitsValue(ds: string): nat
    requires AllDigits(ds)
    decreases |ds|
  {
    if |ds| == 0 then 0
    else DigitsValue(ds[..|ds| - 1]) * 10 + (ds[|ds| - 1] as int - '0' as int)
  }

  /** Text `long.Parse` accepts: an optional sign followed by decimal digits. */
  predicate IsIntegerText(s: string) {
    |s| > 0 &&
    var ds := if s[0] == '-' || s[0] == '+' then s[1..] else s;
    |ds| > 0 && AllDigits(ds)
  }

  /** The integer an integer text denotes, before any range check. */
  function IntegerValue(s: string): int
    requires IsIntegerText(s)
  {
    var ds := if s[0] == '-' || s[0] == '+' then s[1..] else s;
    if s[0] == '-' then -(DigitsValue(ds) as int) else DigitsValue(ds)
  }

  /** `long.Parse(s)`: FormatException for malformed text, OverflowException
      outside the 64-bit range. */
  function ParseLong(s: string): (r: Result<int, Fault>)
    ensures r.Success? ==> IsIntegerText(s) && r.value == IntegerValue(s) && LongMin <= r.value <= LongMax
    ensures !IsIntegerText(s) <==> r == Failure(Format)
    ensures IsIntegerText(s) && !(LongMin <= IntegerValue(s) <= LongMax) <==> r == Failure(Overflow)
  {
    if !IsIntegerText(s) then Failure(Format)
    else
      var v := IntegerValue(s);
      if v < LongMin || v > LongMax then Failure(Overflow) else Success(v)
  }

  function DigitChar(d: nat): char
    requires d < 10
  {
    ('0' as int + d) as char
  }

  /** The decimal text of a natural number, as a token generator writes `exp`. */
  function Decimal(n: nat): (s: string)
    ensures |s| > 0 && AllDigits(s)
  {
    if n < 10 then [DigitChar(n)] else Decimal(n / 10) + [DigitChar(n % 10)]
  }

  /** The decimal text of any integer, with a leading '-' when negative. */
  function IntegerText(v: int): string {
    if v < 0 then "-" + Decimal(-v) else Decimal(v)
  }

  lemma {:induction false} DecimalValue(n: nat)
    ensures DigitsValue(Decimal(n)) == n
  {
    if n >= 10 {
      var s := Decimal(n);
      DecimalValue(n / 10);
      assert s[..|s| - 1] == Decimal(n / 10);
    }
  }

  /** `long.Parse` reads back the decimal text of every 64-bit integer. */
  lemma ParseLongRoundTrip(v: int)
    requires LongMin <= v <= LongMax
    ensures ParseLong(IntegerText(v)) == Success(v)
  {
    var s := IntegerText(v);
    if v < 0 {
      DecimalValue(-v);
      assert s[1..] == Decimal(-v);
    } else {
      DecimalValue(v);
      assert IsDigit(s[0]);
    }
  }

  /** `DateTimeOffset.FromUnixTimeSeconds(secs).UtcDateTime`, in milliseconds. */
  function FromUnixTimeSeconds(secs: int): (r: Result<int, Fault>)
    ensures r.Success? <==> MinUnixSeconds <= secs <= MaxUnixSeconds
    ensures r.Success? ==> r.value == secs * 1000
    ensures r.Failure? ==> r.error == ArgumentOutOfRange
  {
    if secs < MinUnixSeconds || secs > MaxUnixSeconds then Failure(ArgumentOutOfRange)
    else Success(secs * 1000)
  }

  /** `ExtractTokenClaims(refreshToken)`. The `exp` claim is found by type,
      ignoring case; the `id` claim by an exact comparison. */
  function ExtractTokenClaims(token: string, validate: string -> Validation): (r: Result<RefreshTokenClaims, Fault>)
    // a token the handler rejects fails with the handler's exception, before any claim is read
    ensures validate(token).Rejected? ==> r == Failure(validate(token).fault)
    // `exp` is required, and checked first
    ensures validate(token).Accepted? && FindFirstIgnoringCase(validate(token).claims, ExpClaim).None? ==>
      r == Failure(ClaimNotFound(ExpClaim))
    // then `id` is required
    ensures validate(token).Accepted? && FindFirstIgnoringCase(validate(token).claims, ExpClaim).Some?
            && FindFirst(validate(token).claims, IdClaim).None? ==>
      r == Failure(ClaimNotFound(IdClaim))
    // the result pairs the id claim with the exp claim read as Unix seconds
    ensures r.Success? ==>
      validate(token).Accepted?
      && FindFirst(validate(token).claims, IdClaim) == Some(Claim(IdClaim, r.value.userId))
      && FindFirstIgnoringCase(validate(token).claims, ExpClaim).Some?
      && r.value.expiration % 1000 == 0
      && ParseLong(FindFirstIgnoringCase(validate(token).claims, ExpClaim).value.value) == Success(r.value.expiration / 1000)
      && MinUnixSeconds * 1000 <= r.value.expiration <= MaxUnixSeconds * 1000
    // with both claims found, the token succeeds exactly when `exp` parses and
    // is a representable instant; otherwise the first failing step's fault escapes
    ensures validate(token).Accepted? &&
            FindFirstIgnoringCase(validate(token).claims, ExpClaim).Some? &&
            FindFirst(validate(token).claims, IdClaim).Some? ==>
      var secs := ParseLong(FindFirstIgnoringCase(validate(token).claims, ExpClaim).value.value);
      && (r.Success? <==> secs.Success? && FromUnixTimeSeconds(secs.value).Success?)
      && (secs.Failure? ==> r == Failure(secs.error))
      && (secs.Success? && FromUnixTimeSeconds(secs.value).Failure? ==>
            r == Failure(FromUnixTimeSeconds(secs.value).error))
    // for an accepted token, a missing-claim failure happens exactly when a claim is missing
    ensures validate(token).Accepted? ==>
      (r.Failure? && r.error.ClaimNotFound? <==>
        FindFirstIgnoringCase(validate(token).claims, ExpClaim).None? || FindFirst(validate(token).claims, IdClaim).None?)
  {
    match validate(token)
    case Rejected(f) => Failure(f)
    case Accepted(claims) =>
      var exp := FindFirstIgnoringCase(claims, ExpClaim);
      if exp.None? then Failure(ClaimNotFound(ExpClaim))
      else
        var id := FindFirst(claims, IdClaim);
        if id.None? then Failure(ClaimNotFound(IdClaim))
        else
          match ParseLong(exp.value.value)
          case Failure(f) => Failure(f)
          case Success(secs) =>
            match FromUnixTimeSeconds(secs)
            case Failure(f) => Failure(f)
            case Success(expiration) => Success(RefreshTokenClaims(id.value.value, expiration))
  }

  /** A token whose claims were written by a generator — an `id` and an `exp`
      holding the decimal text of a representable second — yields exactly that
      user id and that instant. */
  lemma ExtractGeneratedClaims(token: string, validate: string -> Validation, userId: string, secs: int, extra: seq<Claim>)
    requires MinUnixSeconds <= secs <= MaxUnixSeconds
    requires validate(token) == Accepted([Claim(IdClaim, userId), Claim(ExpClaim, IntegerText(secs))] + extra)
    ensures ExtractTokenClaims(token, validate) == Success(RefreshTokenClaims(userId, secs * 1000))
  {
    var cs := [Claim(IdClaim, userId), Claim(ExpClaim, IntegerText(secs))] + extra;
    assert FindFirst(cs, IdClaim) == Some(cs[0]);
    assert cs[1..][0] == cs[1];
    assert FindFirst(cs[1..], ExpClaim) == Some(cs[1]);
    assert FindFirstIgnoringCase(cs, ExpClaim) == Some(cs[1]);
    ParseLongRoundTrip(secs);
  }

  /** An expiration claim whose type differs from "exp" only in case is found
      all the same, and is read like the lower-case one. */
  lemma ExpClaimIgnoresCase(token: string, validate: string -> Validation, userId: string, secs: int)
    requires MinUnixSeconds <= secs <= MaxUnixSeconds
    requires validate(token) == Accepted([Claim("EXP", IntegerText(secs)), Claim(IdClaim, userId)])
    ensures ExtractTokenClaims(token, validate) == Success(RefreshTokenClaims(userId, secs * 1000))
  {
    var cs := [Claim("EXP", IntegerText(secs)), Claim(IdClaim, userId)];
    assert EqualsIgnoringCase(cs[0].kind, ExpClaim);
    assert FindFirstIgnoringCase(cs, ExpClaim) == Some(cs[0]);
    assert cs[1..][0] == cs[1];
    assert FindFirst(cs, IdClaim) == Some(cs[1]);
    ParseLongRoundTrip(secs);
  }
}

=== FILE: tables.dfy ===
/** A keyed table behind an Entity Framework unit of work: repositories stage
    `Added`, `Updated` and `Removed` changes, and nothing reaches the committed
    rows until `SaveChanges`, which applies every staged change or none.
    Rows are kept in table order, so "the first row that matches" (what
    `FirstOrDefaultAsync` returns) is well defined. */
module Tables {
  import opened Wrappers
  import opened Faults
  import opened Guids

  /** A row: its primary key and the rest of its columns. */
  datatype Row<P> = Row(id: Guid, data: P)

  datatype Change<P> = Added(row: Row<P>) | Updated(row: Row<P>) | Removed(row: Row<P>)

  /** The committed rows, and the changes staged in the current unit of work. */
  datatype Table<P> = Table(rows: seq<Row<P>>, staged: seq<Change<P>>)

  /** The primary-key constraint. */
  predicate KeysUnique<P>(rows: seq<Row<P>>) {
    forall i, j :: 0 <= i < j < |rows| ==> rows[i].id != rows[j].id
  }

  /** No two rows agree on the column `col`: a uniqueness rule kept by the
      services rather than by the schema. */
  predicate ColumnUnique<P>(rows: seq<Row<P>>, col: P -> string) {
    forall i, j :: 0 <= i < j < |rows| ==> col(rows[i].data) != col(rows[j].data)
  }

  predicate HasKey<P>(rows: seq<Row<P>>, id: Guid) {
    exists i :: 0 <= i < |rows| && rows[i].id == id
  }

  /** Index of the first row satisfying `p`, or -1. */
  function FirstIndex<P>(rows: seq<Row<P>>, p: Row<P> -> bool): (k: int)
    ensures -1 <= k < |rows|
    ensures k >= 0 ==> p(rows[k]) && forall j :: 0 <= j < k ==> !p(rows[j])
    ensures k < 0 ==> forall j :: 0 <= j < |rows| ==> !p(rows[j])
  {
    if |rows| == 0 then -1
    else if p(rows[0]) then 0
    else
      var k := FirstIndex(rows[1..], p);
      if k < 0 then -1 else k + 1
  }

  /** `FirstOrDefaultAsync(p)`: the first matching row, or null. */
  function FirstWhere<P>(rows: seq<Row<P>>, p: Row<P> -> bool): (r: Option<Row<P>>)
    ensures r.None? <==> forall j :: 0 <= j < |rows| ==> !p(rows[j])
    ensures r.Some? ==> r.value in rows && p(r.value)
    // the row returned is the first match: every row before it fails `p`
    ensures r.Some? ==>
      (exists k :: 0 <= k < |rows| && rows[k] == r.value && forall j :: 0 <= j < k ==> !p(rows[j]))
  {
    var k := FirstIndex(rows, p);
    if k < 0 then None else Some(rows[k])
  }

  /** The row with primary key `id`, if any. */
  function Find<P>(rows: seq<Row<P>>, id: Guid): (r: Option<Row<P>>)
    ensures r.Some? <==> HasKey(rows, id)
    ensures r.Some? ==> r.value in rows && r.value.id == id
  {
    FirstWhere(rows, (x: Row<P>) => x.id == id)
  }

  /** `Where(p)`: the matching rows. */
  function Where<P>(rows: seq<Row<P>>, p: Row<P> -> bool): (r: seq<Row<P>>)
    ensures forall i :: 0 <= i < |r| ==> r[i] in rows && p(r[i])
    ensures forall i :: 0 <= i < |rows| && p(rows[i]) ==> rows[i] in r
    ensures |r| <= |rows|
  {
    if |rows| == 0 then []
    else
      var rest := Where(rows[1..], p);
      assert rows == [rows[0]] + rows[1..];
      if p(rows[0]) then [rows[0]] + rest else rest
  }

  /** The rows with the row keyed `r.id` replaced by `r`. */
  function Replace<P>(rows: seq<Row<P>>, r: Row<P>): (res: seq<Row<P>>)
    ensures |res| == |rows|
    ensures forall i :: 0 <= i < |rows| ==> res[i] == if rows[i].id == r.id then r else rows[i]
  {
    seq(|rows|, i requires 0 <= i < |rows| => if rows[i].id == r.id then r else rows[i])
  }

  /** Stage a change: the committed rows are untouched. */
  function Stage<P>(t: Table<P>, c: Change<P>): (t': Table<P>)
    ensures t'.rows == t.rows
    ensures t'.staged == t.staged + [c]
  {
    Table(t.rows, t.staged + [c])
  }

  /** The effect of one staged change when it is saved. */
  function Apply<P>(rows: seq<Row<P>>, c: Change<P>): Result<seq<Row<P>>, Fault> {
    match c
    case Added(r) =>
      if HasKey(rows, r.id) then Failure(DuplicateKey) else Success(rows + [r])
    case Updated(r) =>
      if HasKey(rows, r.id) then Success(Replace(rows, r)) else Failure(Concurrency)
    case Removed(r) =>
      if HasKey(rows, r.id) then Success(Where(rows, (x: Row<P>) => x.id != r.id)) else Failure(Concurrency)
  }

  /** The staged changes applied in order; the first that cannot be applied
      stops the rest. */
  function ApplyAll<P>(rows: seq<Row<P>>, cs: seq<Change<P>>): (r: Result<seq<Row<P>>, Fault>)
    ensures r.Failure? ==> r.error == DuplicateKey || r.error == Concurrency
    decreases |cs|
  {
    if |cs| == 0 then Success(rows)
    else
      match Apply(rows, cs[0])
      case Failure(f) => Failure(f)
      case Success(rows') => ApplyAll(rows', cs[1..])
  }

  /** `SaveChangesAsync()`: all staged changes take effect together, or the
      first one that cannot be applied raises and none does. */
  function SaveChanges<P>(t: Table<P>): (r: Result<Table<P>, Fault>)
    // a commit empties the unit of work
    ensures r.Success? ==> r.value.staged == []
    // the only faults the table itself can raise
    ensures r.Failure? ==> r.error == DuplicateKey || r.error == Concurrency
    // with nothing staged, nothing is written
    ensures t.staged == [] ==> r == Success(t)
  {
    match ApplyAll(t.rows, t.staged)
    case Failure(f) => Failure(f)
    case Success(rows') => Success(Table(rows', []))
  }

  /** `SaveChangesAsync()` against a live database, where `fault` is a
      provider error the rows cannot predict (a dropped connection, a
      command timeout): it throws before anything is written, and the
      changes stay staged in the unit of work. */
  function SaveChangesOrFault<P>(t: Table<P>, fault: Option<Fault>): (r: Result<Table<P>, Fault>)
    ensures fault.Some? ==> r == Failure(fault.value)
    ensures fault.None? ==> r == SaveChanges(t)
  {
    if fault.Some? then Failure(fault.value) else SaveChanges(t)
  }

  lemma WhereKeysUnique<P>(rows: seq<Row<P>>, p: Row<P> -> bool)
    requires KeysUnique(rows)
    ensures KeysUnique(Where(rows, p))
  {
    if |rows| > 0 {
      WhereKeysUnique(rows[1..], p);
      var rest := Where(rows[1..], p);
      forall i | 0 <= i < |rest|
        ensures rest[i].id != rows[0].id
      {
        var j :| 0 <= j < |rows[1..]| && rows[1..][j] == rest[i];
        assert rows[j + 1] == rest[i];
      }
    }
  }

  lemma ApplyKeepsKeysUnique<P>(rows: seq<Row<P>>, c: Change<P>)
    requires KeysUnique(rows)
    requires Apply(rows, c).Success?
    ensures KeysUnique(Apply(rows, c).value)
  {
    match c
    case Added(r) =>
      var rows' := rows + [r];
      forall i, j | 0 <= i < j < |rows'|
        ensures rows'[i].id != rows'[j].id
      {
        if j == |rows| {
          assert rows'[i] == rows[i];
        }
      }
    case Updated(r) =>
    case Removed(r) =>
      WhereKeysUnique(rows, (x: Row<P>) => x.id != r.id);
  }

  lemma {:induction false} ApplyAllKeepsKeysUnique<P>(rows: seq<Row<P>>, cs: seq<Change<P>>)
    requires KeysUnique(rows)
    requires ApplyAll(rows, cs).Success?
    ensures KeysUnique(ApplyAll(rows, cs).value)
    decreases |cs|
  {
    if |cs| > 0 {
      ApplyKeepsKeysUnique(rows, cs[0]);
      ApplyAllKeepsKeysUnique(Apply(rows, cs[0]).value, cs[1..]);
    }
  }

  /** The primary key is a constraint no commit can break: whatever was
      staged, a successful save leaves the keys unique and nothing staged. */
  lemma SaveChangesKeepsKeysUnique<P>(t: Table<P>)
    requires KeysUnique(t.rows)
    requires SaveChanges(t).Success?
    ensures KeysUnique(SaveChanges(t).value.rows)
    ensures SaveChanges(t).value.staged == []
  {
    ApplyAllKeepsKeysUnique(t.rows, t.staged);
  }

  lemma ApplyAllSingle<P>(rows: seq<Row<P>>, c: Change<P>)
    ensures ApplyAll(rows, [c]) == Apply(rows, c)
  {
    assert [c][1..] == [];
    match Apply(rows, c)
    case Failure(f) =>
    case Success(rows') =>
      assert ApplyAll(rows', []) == Success(rows');
  }

  /** Saving a single staged add: it fails exactly when the key is taken. */
  lemma SaveAdded<P>(rows: seq<Row<P>>, r: Row<P>)
    ensures SaveChanges(Table(rows, [Added(r)])) ==
      if HasKey(rows, r.id) then Failure(DuplicateKey) else Success(Table(rows + [r], []))
  {
    ApplyAllSingle(rows, Added(r));
  }

  /** Saving a single staged update: it fails exactly when the row is gone,
      and otherwise replaces that row and no other. */
  lemma SaveUpdated<P>(rows: seq<Row<P>>, r: Row<P>)
    ensures SaveChanges(Table(rows, [Updated(r)])) ==
      if HasKey(rows, r.id) then Success(Table(Replace(rows, r), [])) else Failure(Concurrency)
  {
    ApplyAllSingle(rows, Updated(r));
  }

  /** Saving a single staged delete: it fails exactly when the row is gone,
      and otherwise no row with that key remains. */
  lemma SaveRemoved<P>(rows: seq<Row<P>>, r: Row<P>)
    ensures SaveChanges(Table(rows, [Removed(r)])).Success? <==> HasKey(rows, r.id)
    ensures !HasKey(rows, r.id) ==> SaveChanges(Table(rows, [Removed(r)])) == Failure(Concurrency)
    ensures SaveChanges(Table(rows, [Removed(r)])).Success? ==>
      var rows' := SaveChanges(Table(rows, [Removed(r)])).value.rows;
      && !HasKey(rows', r.id)
      && (forall i :: 0 <= i < |rows'| ==> rows'[i] in rows)
      && (forall i :: 0 <= i < |rows| && rows[i].id != r.id ==> rows[i] in rows')
  {
    ApplyAllSingle(rows, Removed(r));
  }

  /** Appending a row whose column value is new keeps the column unique. */
  lemma AppendKeepsColumnUnique<P>(rows: seq<Row<P>>, r: Row<P>, col: P -> string)
    requires ColumnUnique(rows, col)
    requires forall j :: 0 <= j < |rows| ==> col(rows[j].data) != col(r.data)
    ensures ColumnUnique(rows + [r], col)
  {
    var rows' := rows + [r];
    forall i, j | 0 <= i < j < |rows'|
      ensures col(rows'[i].data) != col(rows'[j].data)
    {
      assert rows'[i] == rows[i];
      if j < |rows| {
        assert rows'[j] == rows[j];
      }
    }
  }

  /** `AddAsync`: stage an insert. On a fresh unit of work, committing it
      appends the row exactly when its key is free. */
  function Insert<P>(t: Table<P>, r: Row<P>): (t': Table<P>)
    ensures t'.rows == t.rows
    ensures t.staged == [] ==>
      SaveChanges(t') == if HasKey(t.rows, r.id) then Failure(DuplicateKey) else Success(Table(t.rows + [r], []))
  {
    SaveAdded(t.rows, r);
    assert t.staged == [] ==> Stage(t, Added(r)) == Table(t.rows, [Added(r)]);
    Stage(t, Added(r))
  }

  /** `Update`: stage a replacement. On a fresh unit of work, committing it
      replaces the row with that key, or fails when there is none. */
  function Modify<P>(t: Table<P>, r: Row<P>): (t': Table<P>)
    ensures t'.rows == t.rows
    ensures t.staged == [] ==>
      SaveChanges(t') == if HasKey(t.rows, r.id) then Success(Table(Replace(t.rows, r), [])) else Failure(Concurrency)
  {
    SaveUpdated(t.rows, r);
    assert t.staged == [] ==> Stage(t, Updated(r)) == Table(t.rows, [Updated(r)]);
    Stage(t, Updated(r))
  }

  /** `Remove`: stage a delete. On a fresh unit of work, committing it fails
      when the key is gone, and otherwise drops exactly that key. */
  function Delete<P>(t: Table<P>, r: Row<P>): (t': Table<P>)
    ensures t'.rows == t.rows
    ensures t.staged == [] ==> (SaveChanges(t').Success? <==> HasKey(t.rows, r.id))
    ensures t.staged == [] && !HasKey(t.rows, r.id) ==> SaveChanges(t') == Failure(Concurrency)
    ensures t.staged == [] && SaveChanges(t').Success? ==>
      var rows' := SaveChanges(t').value.rows;
      && SaveChanges(t').value.staged == []
      && !HasKey(rows', r.id)
      && (forall i :: 0 <= i < |rows'| ==> rows'[i] in t.rows)
      && (forall i :: 0 <= i < |t.rows| && t.rows[i].id != r.id ==> t.rows[i] in rows')
  {
    SaveRemoved(t.rows, r);
    assert t.staged == [] ==> Stage(t, Removed(r)) == Table(t.rows, [Removed(r)]);
    Stage(t, Removed(r))
  }

  /** An update never adds or drops a key: row for row, only the columns of
      the replaced row change. */
  lemma ReplaceKeepsKeys<P>(rows: seq<Row<P>>, r: Row<P>)
    ensures |Replace(rows, r)| == |rows|
    ensures forall i :: 0 <= i < |rows| ==> Replace(rows, r)[i].id == rows[i].id
    ensures KeysUnique(rows) ==> KeysUnique(Replace(rows, r))
  {
  }

  lemma WhereKeepsColumnUnique<P>(rows: seq<Row<P>>, p: Row<P> -> bool, col: P -> string)
    requires ColumnUnique(rows, col)
    ensures ColumnUnique(Where(rows, p), col)
  {
    if |rows| > 0 {
      WhereKeepsColumnUnique(rows[1..], p, col);
      var rest := Where(rows[1..], p);
      forall i | 0 <= i < |rest|
        ensures col(rest[i].data) != col(rows[0].data)
      {
        var j :| 0 <= j < |rows[1..]| && rows[1..][j] == rest[i];
        assert rows[j + 1] == rest[i];
      }
    }
  }

  /** A committed delete keeps any column unique that was unique before. */
  lemma SaveRemovedKeepsColumnUnique<P>(rows: seq<Row<P>>, r: Row<P>, col: P -> string)
    requires ColumnUnique(rows, col)
    requires SaveChanges(Table(rows, [Removed(r)])).Success?
    ensures ColumnUnique(SaveChanges(Table(rows, [Removed(r)])).value.rows, col)
  {
    ApplyAllSingle(rows, Removed(r));
    WhereKeepsColumnUnique(rows, (x: Row<P>) => x.id != r.id, col);
  }
}

=== FILE: token_cache.dfy ===
/** The refresh-token cache (`RedisTokenCache`): a blacklist of revoked
    refresh tokens, each stored under its own text with the value "revoked"
    and an expiry at the token's own expiration time, plus one set per user
    id holding the user's live refresh tokens.

    The connection is obtained lazily from a shared factory task, with a
    15-second limit. Every failure leaves the cache as a `TokenCache` fault
    wrapping its cause. The time, the factory's behaviour, the token
    validator and network faults come from the environment `Env`. */
module TokenCache {
  import opened Wrappers
  import opened Faults
  import opened RedisStore
  import Guids
  import RedisConnection
  import RefreshTokenValidator

  /** How long the first operation waits for the connection factory (ms). */
  const InitTimeout: int := 15_000
  /** The value stored under a revoked token. */
  const Revoked: string := "revoked"

  /** The shared factory task: it completes or faults at a time, or never finishes. */
  datatype Factory = Completes(at: int) | Faults(at: int, fault: Fault) | Hangs

  datatype Env = Env(
    now: int,
    factory: Factory,
    validate: string -> RefreshTokenValidator.Validation,
    net: Network)

  datatype Cache = Cache(connected: bool, store: Keyspace)

  /** The result of a cache operation: the new cache state, the value or the
      fault thrown, and whether a background reconnect was requested. */
  datatype Outcome<T> = Outcome(cache: Cache, result: Result<T, Fault>, reconnectRequested: bool)

  /** `token` is on the blacklist at `now`. */
  predicate Blacklisted(ks: Keyspace, token: string, now: int) {
    HoldsText(ks, token, Revoked, now)
  }

  /** No blacklisted token of `a` is missing from `b`. */
  ghost predicate BlacklistGrows(a: Keyspace, b: Keyspace, now: int) {
    forall k :: Blacklisted(a, k, now) ==> Blacklisted(b, k, now)
  }

  /** No user's token set loses a member from `a` to `b`. */
  ghost predicate SetsGrow(a: Keyspace, b: Keyspace, now: int) {
    forall k :: ActiveSet(a, k, now) <= ActiveSet(b, k, now)
  }

  /** No user's token set gains a member from `a` to `b`. */
  ghost predicate SetsShrink(a: Keyspace, b: Keyspace, now: int) {
    forall k :: ActiveSet(b, k, now) <= ActiveSet(a, k, now)
  }

  /** The cause is of the kind that asks the connection to reconnect. */
  predicate ReconnectWarranted<T>(o: Outcome<T>) {
    o.reconnectRequested ==> o.result.Failure? && o.result.error.TokenCache? && o.result.error.cause.IsConnectionClass()
  }

  function Claims(env: Env, token: string): Result<RefreshTokenValidator.RefreshTokenClaims, Fault> {
    RefreshTokenValidator.ExtractTokenClaims(token, env.validate)
  }

  /** `EnsureRedisConnectionInitializedAsync`: a connected cache is left as is;
      otherwise the factory must finish before the 15-second delay does. A
      factory that faults in time rethrows its fault. */
  function EnsureInitialized(c: Cache, env: Env): (r: Result<Cache, Fault>)
    ensures c.connected ==> r == Success(c)
    ensures r.Success? ==> r.value == c.(connected := true)
    ensures !c.connected ==>
      (r.Success? <==> env.factory.Completes? && env.factory.at < env.now + InitTimeout)
    ensures !c.connected && (env.factory.Hangs? || (!env.factory.Hangs? && env.factory.at >= env.now + InitTimeout))
      ==> r == Failure(Timeout)
    ensures r.Failure? ==> r.error == Timeout || (env.factory.Faults? && r.error == env.factory.fault)
  {
    if c.connected then Success(c)
    else match env.factory
      case Hangs => Failure(Timeout)
      case Completes(at) => if at < env.now + InitTimeout then Success(c.(connected := true)) else Failure(Timeout)
      case Faults(at, f) => if at < env.now + InitTimeout then Failure(f) else Failure(Timeout)
  }

  /** `IsRefreshTokenRevoked`: whether any live key named `token` exists. */
  function IsRevoked(c: Cache, env: Env, token: string): (r: Outcome<bool>)
    ensures r.cache.store == c.store
    ensures r.cache.connected <==> c.connected || EnsureInitialized(c, env).Success?
    ensures r.result.Success? <==> EnsureInitialized(c, env).Success? && env.net(KeyExists(token)).None?
    ensures r.result.Success? ==> r.result.value == Live(c.store, token, env.now).Some?
    ensures r.result.Failure? ==> r.result.error.TokenCache?
    ensures ReconnectWarranted(r)
  {
    match EnsureInitialized(c, env)
    case Failure(f) => Outcome(c, Failure(TokenCache(f)), false)
    case Success(c1) =>
      var x := RedisConnection.Execute(Exists(c1.store, env.net, env.now, token));
      match x.result
      case Failure(f) => Outcome(c1, Failure(TokenCache(f)), x.reconnectRequested)
      case Success(b) => Outcome(c1, Success(b), false)
  }

  /** Writing the revoked marker over `token` keeps every blacklisted token
      and adds no token to any user's set. */
  lemma MarkKeepsBlacklist(ks: Keyspace, token: string, expiration: int, now: int)
    requires now < expiration
    ensures var ks1 := ks[token := Text(Revoked, Some(expiration))];
      Blacklisted(ks1, token, now) && BlacklistGrows(ks, ks1, now) && SetsShrink(ks, ks1, now)
  {
    var ks1 := ks[token := Text(Revoked, Some(expiration))];
    forall k | Blacklisted(ks, k, now)
      ensures Blacklisted(ks1, k, now)
    {
    }
    forall k
      ensures ActiveSet(ks1, k, now) <= ActiveSet(ks, k, now)
    {
    }
  }

  /** A successful set removal keeps every blacklisted token and adds no
      token to any user's set. */
  lemma RemoveKeepsBlacklist(ks: Keyspace, net: Network, now: int, key: string, member: string)
    requires Remove(ks, net, now, key, member).Success?
    ensures var ks2 := Remove(ks, net, now, key, member).value;
      BlacklistGrows(ks, ks2, now) && SetsShrink(ks, ks2, now)
  {
    var ks2 := Remove(ks, net, now, key, member).value;
    forall k | Blacklisted(ks, k, now)
      ensures Blacklisted(ks2, k, now)
    {
      assert k != key;
    }
    forall k
      ensures ActiveSet(ks2, k, now) <= ActiveSet(ks, k, now)
    {
      if k != key {
        assert Live(ks2, k, now) == Live(ks, k, now);
      }
    }
  }

  /** The two writes of a revocation on an initialized cache: blacklist the
      token until its expiration, then drop it from its user's set. */
  function MarkAndUntrack(c1: Cache, env: Env, token: string, claims: RefreshTokenValidator.RefreshTokenClaims): (r: Outcome<()>)
    ensures claims.expiration <= env.now ==> r.result.Failure?
    ensures r.result.Success? ==>
      env.now < claims.expiration &&
      token in r.cache.store && r.cache.store[token] == Text(Revoked, Some(claims.expiration)) &&
      token !in ActiveSet(r.cache.store, claims.userId, env.now)
    // the user's set loses exactly the revoked token, so other devices stay tracked
    ensures r.result.Success? ==>
      ActiveSet(r.cache.store, claims.userId, env.now) == ActiveSet(c1.store, claims.userId, env.now) - {token}
    ensures r.result.Failure? ==> r.result.error.TokenCache?
    ensures r.cache.connected == c1.connected
    ensures r.cache.store != c1.store ==>
      Blacklisted(r.cache.store, token, env.now) && SameExcept(c1.store, r.cache.store, {token, claims.userId})
    ensures BlacklistGrows(c1.store, r.cache.store, env.now)
    ensures SetsShrink(c1.store, r.cache.store, env.now)
    ensures ReconnectWarranted(r)
  {
    var ttl := claims.expiration - env.now;
    var w := RedisConnection.Execute(Set(c1.store, env.net, env.now, token, Revoked, ttl));
    match w.result
    case Failure(f) => Outcome(c1, Failure(TokenCache(f)), w.reconnectRequested)
    case Success(s1) =>
      MarkKeepsBlacklist(c1.store, token, claims.expiration, env.now);
      var d := RedisConnection.Execute(Remove(s1, env.net, env.now, claims.userId, token));
      match d.result
      case Failure(f) => Outcome(c1.(store := s1), Failure(TokenCache(f)), d.reconnectRequested)
      case Success(s2) =>
        RemoveKeepsBlacklist(s1, env.net, env.now, claims.userId, token);
        Outcome(c1.(store := s2), Success(()), false)
  }

  /** `RevokeRefreshToken`: read the claims, then blacklist the token until
      its expiration, then drop it from its user's set. A token without the
      claims, or already expired, fails without a blacklist entry. */
  function Revoke(c: Cache, env: Env, token: string): (r: Outcome<()>)
    ensures Claims(env, token).Failure? ==>
      r == Outcome(c, Failure(TokenCache(Claims(env, token).error)), false)
    ensures r.cache.connected <==> c.connected || (Claims(env, token).Success? && EnsureInitialized(c, env).Success?)
    ensures Claims(env, token).Success? && Claims(env, token).value.expiration <= env.now ==> r.result.Failure?
    ensures r.result.Success? ==>
      Claims(env, token).Success? && env.now < Claims(env, token).value.expiration &&
      token in r.cache.store && r.cache.store[token] == Text(Revoked, Some(Claims(env, token).value.expiration)) &&
      token !in ActiveSet(r.cache.store, Claims(env, token).value.userId, env.now)
    ensures r.result.Success? ==>
      ActiveSet(r.cache.store, Claims(env, token).value.userId, env.now) ==
        ActiveSet(c.store, Claims(env, token).value.userId, env.now) - {token}
    ensures r.result.Failure? ==> r.result.error.TokenCache?
    ensures r.cache.store != c.store ==>
      Claims(env, token).Success? && Blacklisted(r.cache.store, token, env.now) &&
      SameExcept(c.store, r.cache.store, {token, Claims(env, token).value.userId})
    ensures BlacklistGrows(c.store, r.cache.store, env.now)
    ensures SetsShrink(c.store, r.cache.store, env.now)
    ensures ReconnectWarranted(r)
  {
    match Claims(env, token)
    case Failure(f) => Outcome(c, Failure(TokenCache(f)), false)
    case Success(claims) =>
      match EnsureInitialized(c, env)
      case Failure(f) => Outcome(c, Failure(TokenCache(f)), false)
      case Success(c1) => MarkAndUntrack(c1, env, token, claims)
  }

  /** `TrackUserRefreshToken`: add the token to the set named by the user id's
      canonical text. */
  function Track(c: Cache, env: Env, userId: Guids.Guid, token: string): (r: Outcome<()>)
    ensures r.cache.connected <==> c.connected || EnsureInitialized(c, env).Success?
    ensures r.result.Success? <==>
      EnsureInitialized(c, env).Success? && env.net(SetAdd(Guids.ToString(userId), token)).None? &&
      !(Live(c.store, Guids.ToString(userId), env.now).Some? && Live(c.store, Guids.ToString(userId), env.now).value.Text?)
    ensures r.result.Success? ==>
      ActiveSet(r.cache.store, Guids.ToString(userId), env.now) == ActiveSet(c.store, Guids.ToString(userId), env.now) + {token} &&
      SameExcept(c.store, r.cache.store, {Guids.ToString(userId)})
    ensures r.result.Failure? ==> r.cache.store == c.store && r.result.error.TokenCache?
    ensures BlacklistGrows(c.store, r.cache.store, env.now) && BlacklistGrows(r.cache.store, c.store, env.now)
    ensures SetsGrow(c.store, r.cache.store, env.now)
    ensures ReconnectWarranted(r)
  {
    match EnsureInitialized(c, env)
    case Failure(f) => Outcome(c, Failure(TokenCache(f)), false)
    case Success(c1) =>
      var x := RedisConnection.Execute(Add(c1.store, env.net, env.now, Guids.ToString(userId), token));
      match x.result
      case Failure(f) => Outcome(c1, Failure(TokenCache(f)), x.reconnectRequested)
      case Success(s) => Outcome(c1.(store := s), Success(()), false)
  }

  /** What `RevokeAll` has established after revoking `revoked` out of
      `members`, the user's set read at the start, with `remaining` to go. */
  ghost predicate RevokeAllInv(c: Cache, cur: Cache, env: Env, userId: string,
                               members: set<string>, remaining: set<string>, revoked: seq<string>)
  {
    && remaining <= members == ActiveSet(c.store, userId, env.now)
    && (forall i :: 0 <= i < |revoked| ==>
          revoked[i] in members && revoked[i] !in remaining && Blacklisted(cur.store, revoked[i], env.now))
    && (forall t :: t in members ==> t in remaining || t in revoked)
    && (forall t :: t in members && t !in remaining && Claims(env, t).Success? && Claims(env, t).value.userId == userId ==>
          t !in ActiveSet(cur.store, userId, env.now))
    && BlacklistGrows(c.store, cur.store, env.now)
    && SetsShrink(c.store, cur.store, env.now)
    && cur.connected
  }

  /** One successful revocation in `RevokeAll` keeps its invariant. */
  lemma RevokeAllStep(c: Cache, cur: Cache, env: Env, userId: string,
                      members: set<string>, remaining: set<string>, revoked: seq<string>, t: string)
    requires RevokeAllInv(c, cur, env, userId, members, remaining, revoked)
    requires t in remaining && Revoke(cur, env, t).result.Success?
    ensures RevokeAllInv(c, Revoke(cur, env, t).cache, env, userId, members, remaining - {t}, revoked + [t])
  {
    var next := Revoke(cur, env, t).cache;
    var revoked' := revoked + [t];
    forall i | 0 <= i < |revoked'|
      ensures revoked'[i] in members && revoked'[i] !in remaining - {t} && Blacklisted(next.store, revoked'[i], env.now)
    {
      if i < |revoked| {
        assert revoked'[i] == revoked[i];
      }
    }
    forall k | Blacklisted(c.store, k, env.now)
      ensures Blacklisted(next.store, k, env.now)
    {
      assert Blacklisted(cur.store, k, env.now);
    }
    forall k
      ensures ActiveSet(next.store, k, env.now) <= ActiveSet(c.store, k, env.now)
    {
      assert ActiveSet(next.store, k, env.now) <= ActiveSet(cur.store, k, env.now);
    }
    forall u | u in members && u !in remaining - {t} && Claims(env, u).Success? && Claims(env, u).value.userId == userId
      ensures u !in ActiveSet(next.store, userId, env.now)
    {
      assert ActiveSet(next.store, userId, env.now) <= ActiveSet(cur.store, userId, env.now);
    }
  }

  /** `RevokeAllRefreshTokensOfUser`: revoke, one by one, every member of the
      user's set as read once at the start. The set's order is the server's,
      so the loop picks members in any order. `revoked` lists the tokens
      revoked before the operation ended, also when it ended in a fault. */
  method RevokeAll(c: Cache, env: Env, userId: string) returns (r: Outcome<()>, revoked: seq<string>)
    ensures r.result.Failure? ==> r.result.error.TokenCache?
    ensures r.cache.connected <==> c.connected || EnsureInitialized(c, env).Success?
    ensures forall i :: 0 <= i < |revoked| ==>
      revoked[i] in ActiveSet(c.store, userId, env.now) && Blacklisted(r.cache.store, revoked[i], env.now)
    ensures r.result.Success? ==>
      forall t :: t in ActiveSet(c.store, userId, env.now) ==> Blacklisted(r.cache.store, t, env.now)
    ensures r.result.Success? ==>
      forall t :: t in ActiveSet(c.store, userId, env.now) && Claims(env, t).Success? && Claims(env, t).value.userId == userId ==>
                    t !in ActiveSet(r.cache.store, userId, env.now)
    ensures BlacklistGrows(c.store, r.cache.store, env.now)
    ensures SetsShrink(c.store, r.cache.store, env.now)
    ensures ReconnectWarranted(r)
  {
    revoked := [];
    var init := EnsureInitialized(c, env);
    if init.Failure? {
      return Outcome(c, Failure(TokenCache(init.error)), false), revoked;
    }
    var cur := init.value;
    var read := RedisConnection.Execute(SetOf(cur.store, env.net, env.now, userId));
    if read.result.Failure? {
      return Outcome(cur, Failure(TokenCache(read.result.error)), read.reconnectRequested), revoked;
    }
    ghost var members := read.result.value;
    var remaining := read.result.value;
    while remaining != {}
      invariant RevokeAllInv(c, cur, env, userId, members, remaining, revoked)
      decreases remaining
    {
      var t :| t in remaining;
      var o := Revoke(cur, env, t);
      if o.result.Failure? {
        return o, revoked;
      }
      RevokeAllStep(c, cur, env, userId, members, remaining, revoked, t);
      cur := o.cache;
      revoked := revoked + [t];
      remaining := remaining - {t};
    }
    r := Outcome(cur, Success(()), false);
  }

  /** Revoking a token and then asking whether it is revoked answers yes until
      the token's own expiration time and no from then on. */
  lemma RevokeThenIsRevoked(c: Cache, env: Env, token: string, later: int)
    requires Revoke(c, env, token).result.Success?
    requires env.net(KeyExists(token)).None?
    ensures var r := Revoke(c, env, token);
      IsRevoked(r.cache, env.(now := later), token).result
        == Success(later < Claims(env, token).value.expiration)
  {
  }

  /** The cache operations that are functions of the cache, each run with
      its own environment (time, factory, network). */
  datatype Op = CheckOp(token: string) | RevokeOp(token: string) | TrackOp(userId: Guids.Guid, token: string)

  function Apply(c: Cache, env: Env, op: Op): Cache {
    match op
    case CheckOp(t) => IsRevoked(c, env, t).cache
    case RevokeOp(t) => Revoke(c, env, t).cache
    case TrackOp(u, t) => Track(c, env, u, t).cache
  }

  function RunOps(c: Cache, steps: seq<(Env, Op)>): Cache
    decreases |steps|
  {
    if |steps| == 0 then c else RunOps(Apply(c, steps[0].0, steps[0].1), steps[1..])
  }

  /** The connection is initialized at most once: after an operation has
      connected the cache, no later operation disconnects it, so no later
      call waits on the factory again, whatever the factory would now do. */
  lemma {:induction false} InitializedAtMostOnce(c: Cache, steps: seq<(Env, Op)>, env: Env)
    requires c.connected
    ensures RunOps(c, steps).connected
    ensures EnsureInitialized(RunOps(c, steps), env) == Success(RunOps(c, steps))
    decreases |steps|
  {
    if |steps| > 0 {
      var next := Apply(c, steps[0].0, steps[0].1);
      assert next.connected;
      InitializedAtMostOnce(next, steps[1..], env);
    }
  }
}

=== FILE: wrappers.dfy ===
/** Failure-compatible wrappers used throughout the model: `Option` stands in
    for a nullable reference, `Result` for a value-or-exception outcome. */
module Wrappers {

  datatype Option<+T> = None | Some(value: T) {
    predicate IsFailure() { None? }

    function PropagateFailure<U>(): Option<U>
      requires None?
    {
      None
    }

    function Extract(): T
      requires Some?
    {
      value
    }
  }

  datatype Result<+R, +E> = Success(value: R) | Failure(error: E) {
    predicate IsFailure() { Failure? }

    function PropagateFailure<U>(): Result<U, E>
      requires Failure?
    {
      Failure(error)
    }

    function Extract(): R
      requires Success?
    {
      value
    }
  }
}
